=== FILE: README.md ===
# SoporteApp decision layer in Dafny

SoporteApp is a React frontend for a support-ticket service. Clients open
requests ("solicitudes"), support agents work through them and
administrators manage users. Most of the code is JSX and HTTP calls. Every
screen, though, rests on a layer of small decisions, and this project
models that layer as pure Dafny functions over closed enumerations and
proves what the screens rely on. The decisions are:

- which page a pathname shows, and where the route guards send a visitor;
- what the session store holds after login, logout and a reload;
- what each dashboard counts, filters, sorts and prints;
- which forms may be submitted, and what each handler sends and shows;
- how labels and badges translate codes into Spanish captions;
- what an avatar shows;
- how the AI reply suggestion falls back from model to model.

One module follows each source file:

- `Guards`, `Session`, `Login`, `Routes` and `Layout` cover the two guards, the zustand store, the login form, the route table of `App.tsx` and the dashboard shell.
- `Navigation` checks these against each other: the four copies of the role-to-dashboard map, every menu entry and the logo link.
- `Users`, `AdminDashboard`, `Support`, `ClientDashboard`, `MyRequests`, `RequestDetail` and `NewRequest` cover one screen each.
- `Labels` covers the label helpers of `mock-data.ts` and the two badge tables. `Avatar` covers `UserAvatar.tsx` and `Suggestions` covers `ai-suggestions.api.ts`.
- `Domain` holds the shared entities: `Role`, `Status`, `Priority`, `User` and `Request`.
- `Base` (counting and filtering) and `Text` (the JavaScript string operations the screens use) are helpers.

Modelling choices:

- Server replies are inputs. A list fetch is `Fetched(items)`, `Refused(message)` (a reply with `success: false`) or `Thrown` (a rejected promise that nothing catches). A mutating call is `Ok` or `Failed(message)`.
- The current time is a parameter, and timestamps are integers in milliseconds.
- A handler is a function from the screen state and the settled reply to the next state, together with what it sent, showed and where it navigated.
- Routing follows react-router v6. A pattern matches a pathname with the same number of segments. Literal segments must match, and `:id` matches one non-empty segment. Trailing slashes are ignored.
- Literal segments match ignoring ASCII case, because no route in `App.tsx` sets `caseSensitive`. The resolver takes the mode as a flag and every routing lemma holds in both modes, except where noted.
- No route is wrapped in a guard, so `Routes.Resolve` depends on the pathname alone.
- The guards are functions of `(user, allowedRoles)` only, so they cannot touch the session.

Some behaviour of the code is modelled exactly as written even though it looks unintended:

- The client dashboard never sets its ticket list, so it always shows the empty state (`ClientDashboard.AlwaysEmptyState`).
- Nothing on the support dashboard ever selects a request, so its status dialog does nothing (`Support.StatusDialogInert`). Even with a selection it would send nothing. The code has no status-transition rules at all: all five statuses are offered from any state.
- The search box and status filter of "Mis Solicitudes" filter nothing, because the filtering code is commented out (`MyRequests.FiltersRemoveNothing`).
- The reply box of the detail page waits, reports success and clears the draft, but sends nothing (`RequestDetail.SendAddsNoResponse`).
- Every response in the detail page's timeline is shown under the viewer's own name and role, not its author's (`RequestDetail.Timeline`).
- The detail page looks categories up among mock-data's codes, so a request the form filed under "Soporte Técnico" (TECHNICAL_SUPPORT) shows a blank category badge. `RequestDetail.ViewOfAsWritten` is the page as written. `RequestDetail.ViewOf` is the page with the intended lookup, and the two differ only in that badge (see "Findings").
- The status select of the support dialog calls IN_PROGRESS "En Progreso", while its badge says "En Proceso".
- The code uses two category taxonomies: SUPPORT_TECHNICAL vs TECHNICAL_SUPPORT, and ACCESS_ISSUE vs ACCOUNT_ACCESS. It also uses two priority sets: URGENT vs CRITICAL. Lemmas in `Labels`, `NewRequest` and `AdminDashboard` pin down where each one applies.
- "Usuarios Activos" on the admin dashboard counts the bundled demo users, not the users of the system.

## Model

| member | source | states |
|---|---|---|
| Guards.ProtectedRoute | src/components/ProtectedRoute.tsx:14-31 | No user is sent to "/login" whatever the allow-list says. A user with no allow-list is rendered. With a list, a user is rendered exactly when the role is in it, and otherwise sent to the role's own dashboard. |
| Guards.PublicRoute | src/components/PublicRoute.tsx:13-24 | The public page is rendered exactly for an anonymous visitor. A signed-in user is redirected to the role's dashboard. |
| Guards.DashboardByRoleInjective | src/components/ProtectedRoute.tsx:21-25 | The role-to-dashboard map sends different roles to different paths, and none of them is "/login". |
| Guards.SignedInNeverSentToLogin | src/components/ProtectedRoute.tsx:14-27 | A signed-in user is never redirected to "/login" by the guard. |
| Guards.EmptyAllowListRedirectsEveryone | src/components/ProtectedRoute.tsx:19-27 | An empty allow-list is truthy, so it sends every signed-in user to their own dashboard. |
| Guards.GuardsRedirectAlike | src/components/PublicRoute.tsx:14-20 | Both guards use the same role-to-dashboard map. For a signed-in user, PublicRoute redirects to the same place ProtectedRoute does on a disallowed route. |
| Session.Initial | src/store/user.store.ts:14 | The store starts with no user, and its stored copy agrees. |
| Session.SetUser | src/store/user.store.ts:15 | After `setUser(u)` the session is exactly `u` whatever it was before, and the stored copy follows. |
| Session.ClearUser | src/store/user.store.ts:16 | After `clearUser()` there is no session, and the stored copy follows. |
| Session.Rehydrate | src/store/user.store.ts:12-20 | A reload rebuilds the session from the copy persisted under "user". |
| Session.LastWriteWins | src/store/user.store.ts:15-16 | After any non-empty sequence of `setUser`/`clearUser`, the state is what the last operation alone produces from the initial state. |
| Session.ReloadRestoresSession | src/store/user.store.ts:11-21 | Every reachable state keeps the stored copy equal to the session, so a reload restores exactly the last session set, or none after a clear. |
| Session.ClearIsIdempotent | src/store/user.store.ts:16 | Clearing twice is clearing once, and a reload after a clear finds no session. |
| Login.FailureMessage | src/components/Login.tsx:104-128 | Every kind of failure leaves a non-empty text in the form's error line, so a failed login is never silent. |
| Login.HandleReply | src/components/Login.tsx:71-131 | A success stores the token and exactly the returned user, then goes to the role's landing route. A failure leaves storage and location alone and shows a non-empty error. `loading` is false afterwards either way. |
| Login.Submit | src/components/Login.tsx:32-38 | Nothing changes while a login call is pending, since the submit button at line 242 is disabled then. Values outside the schema (email 1..50 characters, password 1..100) never reach the handler and change nothing either. Otherwise loading ends, a success stores the replied user, and a failure leaves the browser as it was. |
| Login.DefaultsRejected | src/components/Login.tsx:63-69 | The empty default form cannot be submitted. |
| Login.ServerMessageShownOnlyForOtherStatuses | src/components/Login.tsx:104-121 | For 400, 401 and 500 the server's message is ignored. For any other status a non-empty server message is shown as is, and a missing or empty message reads the same. |
| Login.FailureClassesDistinguishable | src/components/Login.tsx:104-128 | The six failure texts (401, 400, 500, no reply, unexpected, other status without a message) are pairwise different. |
| Login.LoginSessionEffect | src/components/Login.tsx:83-97 | Starting signed out, a failed attempt leaves no session even after a reload. A successful one, pressed while no call is pending, survives a reload. |
| Navigation.LandingsAgree | src/components/Login.tsx:90-97 | For every role, the login redirect, both guards' maps and the first menu entry name the same path, and that path shows the role's dashboard page. |
| Navigation.MenuPathsResolve | src/App.tsx:44-79 | Every sidebar entry of every role resolves to a page of the table, never to the catch-all, and to the page listed for it. |
| Navigation.ClientMenuResolves | src/components/layouts/DashboardLayout.tsx:66-88 | The four client entries show the client dashboard, the new-request form, the request list and the profile. |
| Navigation.SupportMenuResolves | src/components/layouts/DashboardLayout.tsx:89-112 | The three support entries show the support dashboard (twice) and the profile. |
| Navigation.AdminMenuResolves | src/components/layouts/DashboardLayout.tsx:113-135 | The four admin entries show the admin dashboard, the support list, user management and reports. |
| Navigation.NewRequestPath | src/App.tsx:45-48 | "/dashboard/cliente/nueva-solicitud" shows the new-request form. |
| Navigation.MyRequestsPath | src/App.tsx:49-52 | "/dashboard/cliente/mis-solicitudes" shows the client's request list. |
| Navigation.ClientProfilePath | src/App.tsx:57 | "/dashboard/cliente/perfil" shows the profile. |
| Navigation.AllRequestsPath | src/App.tsx:61 | "/dashboard/soporte/todas" shows the same page as "/dashboard/soporte". |
| Navigation.SupportProfilePath | src/App.tsx:66 | "/dashboard/soporte/perfil" shows the profile. |
| Navigation.AdminRequestsPath | src/App.tsx:71-74 | "/dashboard/admin/solicitudes" shows the support dashboard. |
| Navigation.UsersPath | src/App.tsx:70 | "/dashboard/admin/usuarios" shows user management. |
| Navigation.ReportsPath | src/App.tsx:79 | "/dashboard/admin/reportes" shows the reports page. |
| Navigation.LogoLinkMissesDashboards | src/components/layouts/DashboardLayout.tsx:152 | The logo link of a client or support user, and of no user, falls to the catch-all and on to "/login". The admin's link reaches the admin dashboard only because matching ignores case. |
| Navigation.LogoLinkIntendedReachesDashboard | src/components/layouts/DashboardLayout.tsx:152 | The intended logo link shows the user's own dashboard in either matching mode. |
| Routes.Resolve | src/App.tsx:38-82 | A pathname shows the outcome of a route that matches it, and goes to the catch-all redirect to "/login" exactly when none does. |
| Routes.FirstMatch | src/App.tsx:38-82 | The search returns a route that matches, or reports that no route from the start index on does. |
| Routes.DistinguishableExclusive | src/App.tsx:38-82 | Two patterns whose literals differ at some position can never match the same pathname. |
| Routes.TablePairwiseDistinguishable | src/App.tsx:38-82 | Every two routes of the table differ in length or in some literal, ignoring case. |
| Routes.RoutesUnambiguous | src/App.tsx:38-82 | At most one route matches any pathname, so declaration order never matters. |
| Routes.ResolveIsTheMatch | src/App.tsx:38-82 | A pathname that a route matches resolves to that route's outcome. |
| Routes.SegmentsOfPath | src/App.tsx:38-82 | Splitting the pathname built from non-empty, slash-free segments gives those segments back. |
| Routes.TrailingSlashIgnored | src/App.tsx:38-82 | Adding a trailing slash never changes where a pathname goes. |
| Routes.ResolvePathOf | src/App.tsx:38-82 | The pathname built from segments that route `i` matches resolves to route `i`'s outcome. |
| Routes.CapturesOfDetail | src/App.tsx:53-56 | A detail pattern passes exactly its last segment to the page. |
| Routes.RootRedirects | src/App.tsx:39 | "/" redirects to "/login". |
| Routes.LoginShowsForm | src/App.tsx:40 | "/login" shows the login form. |
| Routes.EntryPointsReachLogin | src/App.tsx:82 | "/" and every pathname no route matches end at "/login", and "/login" shows the form. |
| Routes.DetailRoutesCarryId | src/App.tsx:53-78 | Each of the three detail routes takes one extra non-empty segment and shows the detail page with that segment as the id. |
| Routes.ClientDetailRoute | src/App.tsx:53-56 | "/dashboard/cliente/mis-solicitudes/<id>" shows the detail page for `id`. |
| Routes.SupportDetailRoute | src/App.tsx:62-65 | "/dashboard/soporte/solicitudes/<id>" shows the detail page for `id`. |
| Routes.AdminDetailRoute | src/App.tsx:75-78 | "/dashboard/admin/solicitudes/<id>" shows the detail page for `id`. |
| Routes.DashboardSegment | src/App.tsx:44-82 | "/dashboard/<x>" shows the client, support or admin dashboard when `x` names it, and goes to the catch-all otherwise. |
| Routes.NoOtherDashboard | src/App.tsx:44-82 | Only the three dashboard routes have two segments, so any other "/dashboard/<x>" matches no route. |
| Layout.Menu | src/components/layouts/DashboardLayout.tsx:64-138 | Clients and administrators get four entries and support gets three. Without a role the menu is empty. |
| Layout.MenuShape | src/components/layouts/DashboardLayout.tsx:66-135 | Each role's menu starts at the dashboard ProtectedRoute sends that role to. Every entry extends that path, and no path appears twice. |
| Layout.ClientMenuShape | src/components/layouts/DashboardLayout.tsx:66-88 | The client menu starts at the client dashboard, stays under it and has distinct paths. |
| Layout.SupportMenuShape | src/components/layouts/DashboardLayout.tsx:89-112 | The support menu starts at the support dashboard, stays under it and has distinct paths. |
| Layout.AdminMenuShape | src/components/layouts/DashboardLayout.tsx:113-135 | The admin menu starts at the admin dashboard, stays under it and has distinct paths. |
| Layout.AtMostOneActive | src/components/layouts/DashboardLayout.tsx:143-145 | Highlighting is exact pathname equality. With distinct paths at most one entry is highlighted, and one is exactly when the pathname is a menu path. |
| Layout.Logout | src/components/layouts/DashboardLayout.tsx:55-62 | A successful logout clears the session and the token. A refused one keeps both. Any reply goes to "/login", and a rejected call goes nowhere. |
| Layout.LogoutEndsSession | src/components/layouts/DashboardLayout.tsx:55-62 | After a successful logout, every protected page sends the visitor to "/login", and a reload does not bring the session back. |
| Layout.Breadcrumbs | src/components/layouts/DashboardLayout.tsx:250-268 | There is one crumb per entry, with its caption. It is a link exactly when it has a non-empty path, and a chevron follows every crumb but the last. |
| Layout.ChevronCount | src/components/layouts/DashboardLayout.tsx:264-266 | n crumbs show n - 1 chevrons, and none when there are none. |
| Layout.LogoLink | src/components/layouts/DashboardLayout.tsx:152 | The logo link is "/dashboard/" followed by the role code itself. |
| Layout.LogoLinkIntended | src/components/layouts/DashboardLayout.tsx:152 | The intended logo link is the first menu entry, the role's dashboard. |
| Users.FilteredUsers | src/components/admin/GestionUsuarios.tsx:124-132 | A user is kept exactly when the lower-cased name or email contains the lower-cased query and the role filter is "todos" or the user's role. The kept users come from the list. |
| Users.FilterKeepsOrder | src/components/admin/GestionUsuarios.tsx:124-132 | Filtering a concatenation filters each part in place, so list order is kept. |
| Users.NoFilterKeepsEveryone | src/components/admin/GestionUsuarios.tsx:124-132 | An empty query with "todos" keeps every user, in order. |
| Users.SearchIgnoresCase | src/components/admin/GestionUsuarios.tsx:125-127 | Typing the query in capitals or in lower case keeps the same users. |
| Users.LowerAbsorbs | src/components/admin/GestionUsuarios.tsx:126 | Lower-casing is idempotent and absorbs a preceding upper-casing. |
| Users.RoleFiltersPartition | src/components/admin/GestionUsuarios.tsx:129 | The three one-role filters split between them exactly what "todos" shows. |
| Users.Stats | src/components/admin/GestionUsuarios.tsx:678-702 | The total is the list length. The active and inactive users add up to it, and the active count is zero exactly when no user is active. "Resultados Filtrados" equals the number of rows the loaded table shows for the same search and role filter, and 0 when the table gives way to the empty note. |
| Users.LoadUsers | src/components/admin/GestionUsuarios.tsx:166-177 | A reply lists its users. A refusal empties the list and shows the message or a fallback. Loading ends in both cases, and a rejected call leaves it on. |
| Users.LoadUsersShows | src/components/admin/GestionUsuarios.tsx:166-177 | After a refusal every counter reads 0 and the empty note shows, reading "No hay usuarios registrados" when no filter is set. After a reply the total counts all its users and the table lists the kept ones. After a network failure the loading note stays. |
| Users.UsersNoun | src/components/admin/GestionUsuarios.tsx:454 | The title is singular exactly for one user. |
| Users.UsersView | src/components/admin/GestionUsuarios.tsx:431-455 | The loading note shows exactly while loading. The table lists exactly the kept users under the right noun, and the empty note shows only when nobody is kept. |
| Users.EmptyNoteMeansNoUsers | src/components/admin/GestionUsuarios.tsx:442-445 | "No hay usuarios registrados" shows exactly when no filter is set and there are no users at all. |
| Users.StatusText | src/components/admin/GestionUsuarios.tsx:502 | The switch reads "Activo" exactly for an active user. |
| Users.RoleBadgeColorsDistinct | src/components/admin/GestionUsuarios.tsx:155-164 | Each role's badge has its own colour. |
| Users.ToggleStatus | src/components/admin/GestionUsuarios.tsx:134-148 | The switch sends only `active = !current` for that user id. It announces the new state and reloads only on success, and shows the message or a fallback on failure. |
| Users.ToggleTwiceRestores | src/components/admin/GestionUsuarios.tsx:134-138 | Once the reload shows the flipped flag, toggling again sends the original value. |
| Users.PasswordRules | src/components/admin/GestionUsuarios.tsx:74-86 | Create needs a name, an email and a password of at least 6 characters, so the defaults fail. Edit accepts an empty password where create does not, and both reject 1 to 5 characters. |
| Users.CreateUser | src/components/admin/GestionUsuarios.tsx:184-201 | Nothing happens while `isCreating` is set, since the button at line 418 is disabled then, and nothing happens for invalid values. Otherwise all four fields are sent. Success resets the form, closes the dialog and reloads. Failure keeps both and shows the message or a fallback. `isCreating` ends false. |
| Users.CreateSendsOnlyValid | src/components/admin/GestionUsuarios.tsx:184-201 | Only valid values are posted, and never while a create call is pending. After a successful create, pressing again with the reset form sends nothing. |
| Users.EditClick | src/components/admin/GestionUsuarios.tsx:204-212 | Editing selects the user, opens the dialog and fills the form with the user's name, a blank password and the user's role. Those values also become the form's defaults. |
| Users.EditPayload | src/components/admin/GestionUsuarios.tsx:221-229 | The edit body always has name and role, has the password exactly when a non-empty one was typed, and never has email or the active flag. |
| Users.EditUser | src/components/admin/GestionUsuarios.tsx:215-246 | Nothing happens while `isUpdating` is set, since the button at line 663 is disabled then. Nothing happens with no user selected or with invalid values either. Otherwise the payload goes to the selected id. Success clears the selection, closes the dialog, reloads and puts the form back to its defaults (line 236), which are the values of the last edit click. Failure keeps the form, the defaults, the dialog and the selection. `isUpdating` ends false. |
| Users.SavedEditKeepsClickedValues | src/components/admin/GestionUsuarios.tsx:204-238 | After a user is clicked and saved successfully, the closed dialog's form still holds that user's name, role and a blank password, not the blank form of the first render. |
| Users.UntouchedEditKeepsUser | src/components/admin/GestionUsuarios.tsx:204-229 | Opening the edit dialog and saving it untouched sends the user's own name and role and no password. While an earlier update is pending, the press sends nothing. |
| Users.DeleteToastAsWritten | src/components/admin/GestionUsuarios.tsx:537-538 | The delete entry announces "Usuario <id> eliminado", because it passes the id where a name is expected. |
| Users.DeleteToast | src/components/admin/GestionUsuarios.tsx:151-153 | The intended toast names the user. |
| Users.DeleteToastShowsId | src/components/admin/GestionUsuarios.tsx:537-538 | For a user with id "42" named "Ana", the toast reads "Usuario 42 eliminado", not "Usuario Ana eliminado". |
| Users.DeleteUser | src/components/admin/GestionUsuarios.tsx:151-153 | Deleting sends nothing, keeps the list and does not reload. The toast is its only effect. |
| AdminDashboard.ResolvedCount | src/components/admin/DashboardAdmin.tsx:40-42 | The count is the RESOLVED slice of the status chart plus the CLOSED slice. It is at most the number of requests, and zero exactly when none is RESOLVED or CLOSED. |
| AdminDashboard.ResolutionRate | src/components/admin/DashboardAdmin.tsx:43 | With no requests the rate is 0. Otherwise it is the integer nearest to the exact fraction 100·resolved/total, with halves rounding up. It never exceeds 100. The source rounds a double-precision product instead, see "Left out". |
| AdminDashboard.RateMonotone | src/components/admin/DashboardAdmin.tsx:43 | Nothing resolved is 0%, everything resolved is 100%, and resolving more never lowers the rate. |
| AdminDashboard.RateOfNone | src/components/admin/DashboardAdmin.tsx:43 | No resolved request gives 0%. |
| AdminDashboard.RateOfAll | src/components/admin/DashboardAdmin.tsx:43 | All requests resolved gives 100%. |
| AdminDashboard.RateOrdered | src/components/admin/DashboardAdmin.tsx:43 | More resolved requests of the same total never give a lower rate. |
| AdminDashboard.OverviewOf | src/components/admin/DashboardAdmin.tsx:39-44 | The first card counts every request. The rate card shows the rounded share of RESOLVED or CLOSED requests, which lies in 0..100 and is 0 when none is resolved. The active-user card counts the active demo users. |
| AdminDashboard.RateFullIff | src/components/admin/DashboardAdmin.tsx:43 | For a non-empty total, the rounded rate is 100 exactly when at least 99.5% of the requests are resolved. |
| AdminDashboard.FullRateIff | src/components/admin/DashboardAdmin.tsx:39-43 | The rate card reads 100% exactly when at least 99.5% of the requests are RESOLVED or CLOSED. It always reads 100% when every request is. Below 200 requests, it reads 100% only then. From 200 requests on, one open request can still round up to 100%. |
| AdminDashboard.StatusSlices | src/components/admin/DashboardAdmin.tsx:91-116 | There are five candidate slices in the fixed status order, each with its status label and the number of requests in that status. |
| AdminDashboard.TotalOfNonEmpty | src/components/admin/DashboardAdmin.tsx:117 | Dropping the zero entries of a chart keeps its total. |
| AdminDashboard.StatusCountsSum | src/components/admin/DashboardAdmin.tsx:91-116 | The five status counts add up to the number of requests. |
| AdminDashboard.StatusSlicesListEvery | src/components/admin/DashboardAdmin.tsx:91-116 | Every status has its slice among the candidates. |
| AdminDashboard.StatusData | src/components/admin/DashboardAdmin.tsx:91-117 | The pie keeps exactly the statuses with a non-zero count, and its values add up to the number of requests. |
| AdminDashboard.StatusSlicesTotal | src/components/admin/DashboardAdmin.tsx:91-117 | The non-empty slices still add up to every request. |
| AdminDashboard.CategoryBars | src/components/admin/DashboardAdmin.tsx:120-130 | There are five candidate bars in key order, each with its caption and the number of requests with exactly that category code. |
| AdminDashboard.CategoryCountsBounded | src/components/admin/DashboardAdmin.tsx:128-131 | A request counts under at most one key, so the five counts add up to at most the number of requests. |
| AdminDashboard.CategoryData | src/components/admin/DashboardAdmin.tsx:120-131 | The chart keeps exactly the keys with a non-zero count, and its total is at most the number of requests. |
| AdminDashboard.CategoryBarsTotal | src/components/admin/DashboardAdmin.tsx:128-131 | The non-empty bars count no more than every request. |
| AdminDashboard.UnlistedCategoryNeverCounted | src/components/admin/DashboardAdmin.tsx:120-131 | A request whose category is not a key, such as the form's ACCESS_ISSUE, changes no bar. |
| AdminDashboard.AccessCategoriesDisagree | src/components/admin/DashboardAdmin.tsx:124 | The chart's ACCOUNT_ACCESS is not a code the form offers, and the form's ACCESS_ISSUE is not a key of the chart. |
| AdminDashboard.Insert | src/components/admin/DashboardAdmin.tsx:154 | Inserting into a newest-first sequence keeps it newest first and adds exactly the new request. |
| AdminDashboard.SortNewestFirst | src/components/admin/DashboardAdmin.tsx:154 | The comparator sort is newest first and a permutation of its input. |
| AdminDashboard.Dated | src/components/admin/DashboardAdmin.tsx:153 | Exactly the requests with a creation time are kept. |
| AdminDashboard.RecentRequests | src/components/admin/DashboardAdmin.tsx:152-155 | The feed has min(4, dated) entries, all dated requests of the list, newest first. |
| AdminDashboard.RecentAreNewest | src/components/admin/DashboardAdmin.tsx:152-155 | The feed takes requests from the dated ones. Any dated request it leaves out comes after a full feed of four and is no newer than the fourth entry. |
| AdminDashboard.TopOfSorted | src/components/admin/DashboardAdmin.tsx:154-155 | Cutting a newest-first arrangement after k entries keeps members of the input and leaves out only requests no newer than the last one kept. |
| AdminDashboard.Bucket | src/components/admin/DashboardAdmin.tsx:159-170 | d < 1 is "now". 1 ≤ d < 60 shows d minutes. d < 1440 shows ⌊d/60⌋ hours, which lies in 1..23. Otherwise it shows ⌊d/1440⌋ days. |
| AdminDashboard.TimeText | src/components/admin/DashboardAdmin.tsx:161-170 | The text is "Ahora mismo" exactly below one minute. Otherwise it reads "Hace", the bucket's number in decimal, and then the bucket's unit. That unit is " minuto" below an hour, " hora" for whole hours below a day and " día" for whole days, with a final "s" when the number is above one. |
| AdminDashboard.AgoText | src/components/admin/DashboardAdmin.tsx:163-169 | "Hace <n> <unit>" shows n in decimal and ends in "s" exactly when n > 1 or the unit itself ends in "s". |
| AdminDashboard.PluralIffMoreThanOne | src/components/admin/DashboardAdmin.tsx:163-169 | The time text ends in "s" exactly when the number it shows is above one. |
| AdminDashboard.ActivityOf | src/components/admin/DashboardAdmin.tsx:156-176 | A feed line names the owner when the owner has a name, and is never anonymous. Its action is `creó la solicitud "` followed by the request's title and a closing quote, and its time is the time text for the request's age in whole minutes. |
| AdminDashboard.RecentActivity | src/components/admin/DashboardAdmin.tsx:152-177 | There is one line per recent request, in feed order, and at most four. |
| AdminDashboard.FeedAgesIncrease | src/components/admin/DashboardAdmin.tsx:154-159 | Down the feed the ages only grow. |
| AdminDashboard.LoadRequests | src/components/admin/DashboardAdmin.tsx:179-187 | A reply replaces the list. A refusal keeps it. Loading ends in both cases, and a rejected call leaves it on. |
| AdminDashboard.FailedReloadKeepsFigures | src/components/admin/DashboardAdmin.tsx:179-187 | After a successful load, a refused reload keeps the fetched list and its resolution rate. A reload that throws also leaves the skeletons up. |
| Support.StatsOf | src/components/soporte/DashboardSoporte.tsx:67-101 | The total is the list length. The resolved counter equals the admin dashboard's `ResolvedCount`, and the in-progress counter equals its IN_PROGRESS slice. "Pendientes Urgentes" counts the CRITICAL requests among the PENDING ones. Resolved plus in-progress plus urgent-pending never exceeds the total. |
| Support.DisplayDefaults | src/components/soporte/DashboardSoporte.tsx:227-233 | A missing status shows the PENDING badge and a missing priority the LOW badge. Present ones show their own. |
| Support.ClientCell | src/components/soporte/DashboardSoporte.tsx:208-213 | The cell shows the owner's name or "Desconocido" over the email or "N/A", and is never blank. |
| Support.DetailLink | src/components/soporte/DashboardSoporte.tsx:254-259 | The link goes under "/dashboard/admin/solicitudes/" for an administrator and under "/dashboard/soporte/solicitudes/" for anyone else. |
| Support.DetailLinkOpensDetail | src/components/soporte/DashboardSoporte.tsx:255-258 | Whoever follows it, the link opens the detail page with the request's id. |
| Support.TargetsFor | src/components/soporte/DashboardSoporte.tsx:455-461 | The select offers all five statuses whatever the request's current status, so there are no transition rules. |
| Support.InProgressCaptionsDiffer | src/components/soporte/DashboardSoporte.tsx:457 | The select's caption for IN_PROGRESS differs from the badge's, and the other four agree. |
| Support.StatusChange | src/components/soporte/DashboardSoporte.tsx:126-137 | With no selection nothing happens. Otherwise it announces success, closes the dialog, clears the selection and refetches, without changing any request. |
| Support.Load | src/components/soporte/DashboardSoporte.tsx:111-118 | A reply replaces the list. A refusal keeps it and shows the server's message. |
| Support.Apply | src/components/soporte/DashboardSoporte.tsx:377-480 | Cancelling closes the dialog and clears the selection. Only loads and updates notify or refetch, and no action creates a selection. |
| Support.StatusDialogInert | src/components/soporte/DashboardSoporte.tsx:63-65 | From the first render on, the selection stays empty and "Actualizar Estado" does nothing. |
| Support.ListOf | src/components/soporte/DashboardSoporte.tsx:171-275 | The card always shows, titled with the list's length and the matching noun, so an empty list reads "0 Solicitudes". The empty note shows exactly for an empty list. Otherwise the table lists the whole list. |
| Support.ListAgreesWithCounters | src/components/soporte/DashboardSoporte.tsx:67-70 | The card's title counts what the "Solicitudes totales" counter counts, and the empty note shows exactly when that counter reads 0. After a reply the table lists the reply's requests. A refused or failed load leaves the card as it was. |
| ClientDashboard.RecentTickets | src/components/client/DashboardClient.tsx:40 | The recent list is the first min(5, n) tickets in order, and empty while there is no list. |
| ClientDashboard.StatsOf | src/components/client/DashboardClient.tsx:42-49 | Without a list every counter is missing. With one, the total is its length. The pending and in-progress counters equal the admin dashboard's status counts, and the resolved counter equals its `ResolvedCount`. Together with the CANCELLED tickets they add up to the total. |
| ClientDashboard.AlwaysEmptyState | src/components/client/DashboardClient.tsx:39-40 | The list is never set, so the recent list is empty and the counters are blank. |
| ClientDashboard.DetailLink | src/components/client/DashboardClient.tsx:190 | A row links to its request under the client's list. |
| ClientDashboard.DetailLinkOpensDetail | src/components/client/DashboardClient.tsx:190 | That link opens the detail page with the row's id. |
| MyRequests.ClearFilters | src/components/client/MisSolicitudes.tsx:75-78 | Clearing resets the search and the status filter and keeps the list. |
| MyRequests.Load | src/components/client/MisSolicitudes.tsx:80-87 | A reply sets the list. A refusal keeps it and shows the server's message. |
| MyRequests.Delete | src/components/client/MisSolicitudes.tsx:71-73 | Deleting announces "Solicitud <id> eliminada" as a success, with the request's id ("undefined" when it has none). It sends nothing and the list is unchanged. |
| MyRequests.DeleteKeepsView | src/components/client/MisSolicitudes.tsx:71-73 | After a delete the results area is exactly what it was. |
| MyRequests.FilterNote | src/components/client/MisSolicitudes.tsx:158 | The note is blank exactly when the filter is "todos". Otherwise it reads "Filtrado por: " followed by the filter's value. |
| MyRequests.SearchNote | src/components/client/MisSolicitudes.tsx:159 | The note is blank exactly when the search is empty. Otherwise it reads a separator bar and "Búsqueda:", followed by the search in double quotes. |
| MyRequests.ViewOf | src/components/client/MisSolicitudes.tsx:149-290 | Without a list the skeleton shows. Otherwise the card is titled with the list's length and the matching noun, empty lists included ("0 Solicitudes"), and carries the filter and search notes. A non-empty list is shown whole. On an empty list, "clear filters" is offered exactly when a filter is set, and the link to the new-request form otherwise. |
| MyRequests.FiltersRemoveNothing | src/components/client/MisSolicitudes.tsx:149-178 | Whatever the search and the status filter hold, the card shows the same count and lists the same rows. |
| MyRequests.FailedLoadKeepsSkeleton | src/components/client/MisSolicitudes.tsx:80-87 | A failed first load leaves the skeleton up. |
| MyRequests.ClearingLeadsToCreate | src/components/client/MisSolicitudes.tsx:255-268 | "Limpiar filtros" turns the empty state into the invitation to create a first request. The card still counts 0 and both notes are cleared. That link opens the form. |
| MyRequests.DetailLink | src/components/client/MisSolicitudes.tsx:228 | A row links to its request under the list. |
| MyRequests.DetailLinkOpensDetail | src/components/client/MisSolicitudes.tsx:228 | That link opens the detail page with the row's id. |
| RequestDetail.OnMount | src/components/client/DetalleSolicitud.tsx:38-45 | With an id the request is fetched. Without one an error shows and the page returns to the list. |
| RequestDetail.Loaded | src/components/client/DetalleSolicitud.tsx:34-37 | The reply's request is stored whatever its flag says, and a rejected call changes nothing. |
| RequestDetail.ReplyAllowedStatuses | src/components/client/DetalleSolicitud.tsx:194-195 | Replying is allowed exactly for PENDING, IN_PROGRESS and RESOLVED. |
| RequestDetail.SendDisabledIff | src/components/client/DetalleSolicitud.tsx:209 | The send button is disabled exactly when the draft is blank or a send is in flight. |
| RequestDetail.Send | src/components/client/DetalleSolicitud.tsx:72-81 | A blank draft is ignored. Otherwise the page shows sending, then clears the draft, ends sending and announces success, with the request untouched. |
| RequestDetail.EnabledButtonSends | src/components/client/DetalleSolicitud.tsx:72-81 | An enabled button always sends, and afterwards the box is empty with its button disabled again. |
| RequestDetail.Responses | src/components/client/DetalleSolicitud.tsx:83 | Absent or null responses are the empty list. |
| RequestDetail.Timeline | src/components/client/DetalleSolicitud.tsx:148-178 | There is one entry per response with its content, shown under the viewer's name and the caption of the viewer's role (the client's caption when no one is signed in). A separator follows every entry but the last. |
| RequestDetail.SeparatorCount | src/components/client/DetalleSolicitud.tsx:178 | n responses show n - 1 separators, and none for zero. |
| RequestDetail.CategoryCaptionAsWritten | src/components/client/DetalleSolicitud.tsx:120-122 | A missing category reads as technical support. Only mock-data's five category codes get a caption. |
| RequestDetail.AsWrittenLabelsTicketCategories | src/lib/mock-data.ts:204-213 | The lookup as written labels every mock-data category correctly. |
| RequestDetail.FormTechnicalCategoryShowsBlank | src/components/client/DetalleSolicitud.tsx:120-122 | The code TECHNICAL_SUPPORT, stored by the form, gets no caption. |
| RequestDetail.CategoryCaption | src/components/client/DetalleSolicitud.tsx:120-122 | The intended caption of a present category is its label among the form's codes. A missing one still reads as technical support. |
| RequestDetail.FormCategoriesCaptioned | src/components/client/NuevaSolicitud.tsx:62-68 | With the intended lookup, every category the form can submit gets a caption, and the five captions differ. |
| RequestDetail.ViewOf | src/components/client/DetalleSolicitud.tsx:47-212 | The page as intended. "Solicitud no encontrada" shows exactly while there is no request. Otherwise the page shows the title, the intended category caption and the timeline. The reply box appears exactly when replying is allowed, and the button follows the draft and the flag. |
| RequestDetail.ViewOfAsWritten | src/components/client/DetalleSolicitud.tsx:120-122 | The page as written agrees with `ViewOf` everywhere except its category badge, which comes from the as-written lookup. |
| RequestDetail.FormRequestBadgeBlankAsWritten | src/components/client/DetalleSolicitud.tsx:120-122 | For a request the form filed under TECHNICAL_SUPPORT, the page as written shows a blank category badge, while the intended page shows "Soporte Técnico". |
| RequestDetail.SendAddsNoResponse | src/components/client/DetalleSolicitud.tsx:72-81 | Sending a reply never adds it to the timeline. |
| RequestDetail.BackLinksOpenList | src/components/client/DetalleSolicitud.tsx:61 | The not-found link and the missing-id redirect both open the client's list. |
| NewRequest.PrioritySchemaIsRequestPriority | src/components/client/NuevaSolicitud.tsx:50 | The schema accepts exactly the four request priorities, and rejects mock-data's URGENT. |
| NewRequest.CategoryUnchecked | src/components/client/NuevaSolicitud.tsx:51 | Any non-empty category passes, including codes the form never offers. |
| NewRequest.DefaultsRejected | src/components/client/NuevaSolicitud.tsx:72-77 | The defaults fail on title, description and category, though the default priority passes. |
| NewRequest.CategoryOptionsSound | src/components/client/NuevaSolicitud.tsx:62-68 | The five options have distinct codes, each code passes, and each caption is that code's label. |
| NewRequest.PriorityOptionsAreSchema | src/components/client/NuevaSolicitud.tsx:80-93 | Every option passes, every priority is offered, and no code is offered twice. |
| NewRequest.Submit | src/components/client/NuevaSolicitud.tsx:95-103 | Nothing is sent while `loading`, since the submit button at line 260 is disabled then, and invalid values send nothing either. Otherwise the values are posted. Success opens the dialog and resets the form, `success: false` shows nothing, and `loading` ends in both. A rejected call leaves it on. |
| NewRequest.SubmitSendsOnlyValid | src/components/client/NuevaSolicitud.tsx:95-103 | Only valid values are ever posted, and the dialog opens only on success. A second press sends nothing, whether it comes after a success or while the first call is still pending. |
| NewRequest.SubmitCaption | src/components/client/NuevaSolicitud.tsx:264 | The button reads "Creando solicitud..." exactly while loading. |
| NewRequest.Cancel | src/components/client/NuevaSolicitud.tsx:269-270 | "Cancelar" is disabled exactly while loading, and otherwise leads to the client dashboard. |
| NewRequest.SuccessClose | src/components/client/NuevaSolicitud.tsx:105-108 | Closing the dialog hides it and moves to the page that shows the client's list. |
| Labels.LabelsDistinct | src/lib/mock-data.ts:204-243 | Each label helper is total and non-empty, and gives different values different labels. |
| Labels.CategoryTaxonomiesDisagree | src/lib/mock-data.ts:3-30 | The two category objects disagree on the technical-support code, give it the same label, and agree on the other four. |
| Labels.StatusBadge | src/components/StatusBadge.tsx:9-36 | A badge is drawn exactly for the five status codes, and its caption is the status label. |
| Labels.PriorityBadge | src/components/PriorityBadge.tsx:9-33 | A badge is drawn exactly for the four request priorities. URGENT gets none. |
| Labels.BadgesTotal | src/components/StatusBadge.tsx:9-30 | Both tables have a row for every value of their enumeration. |
| Labels.StatusVariantsDistinct | src/components/StatusBadge.tsx:9-30 | No two status rows share a label or a class name. |
| Labels.PriorityVariantsDistinct | src/components/PriorityBadge.tsx:9-27 | No two priority rows share a label or a class name. |
| Labels.PriorityBadgeMatchesLabels | src/components/PriorityBadge.tsx:11-27 | LOW, MEDIUM and HIGH read as `getPriorityLabel` says. CRITICAL reads as its URGENT, which is not a request priority. |
| Labels.RequestsNoun | src/components/client/MisSolicitudes.tsx:154 | The title is singular ("Solicitud") exactly for one request, and plural ("Solicitudes") for every other count, 0 included. |
| Domain.ParseRole | src/components/admin/GestionUsuarios.tsx:78 | A code parses to the role whose code it is, and fails exactly when no role has it. |
| Domain.ParseStatus | src/types.ts:7 | A code parses to the status whose code it is, and fails exactly when no status has it. |
| Domain.ParsePriority | src/components/client/NuevaSolicitud.tsx:50 | A code parses to the priority whose code it is, and fails exactly when no priority has it. |
| Domain.ParseCodeRoundTrip | src/types.ts:6-7 | Printing and then parsing any role, status or priority gives it back. |
| Domain.OrElse | src/components/admin/GestionUsuarios.tsx:147 | A present, non-empty text wins, whether a server message or a code. A missing or empty one gives the fallback. |
| Domain.IdText | src/components/client/MisSolicitudes.tsx:72 | A present id prints as itself and a missing one as "undefined". |
| Avatar.InitialsAsWritten | src/components/UserAvatar.tsx:9-15 | With no space, the initials are the first two characters upper-cased. With a space, the name has at least two pieces. When the first piece is non-empty, the initials start with its upper-cased first letter. An `undefined` name gives nothing. |
| Avatar.TwoWordsGiveTwoInitials | src/components/UserAvatar.tsx:10-13 | When the first two pieces are words, the initials are their two upper-cased first letters. |
| Avatar.TrailingSpaceAfterWord | src/components/UserAvatar.tsx:10-12 | A one-word name followed by a space gives the word's initial followed by "UNDEFINED". |
| Avatar.TrailingSpaceShowsUndefined | src/components/UserAvatar.tsx:12 | "Ana " gives "AUNDEFINED". |
| Avatar.Initials | src/components/UserAvatar.tsx:9-15 | The intended initials have at most two characters and no space. They are missing exactly for an `undefined` name. |
| Avatar.InitialsAgreeOnWords | src/components/UserAvatar.tsx:10-13 | Where the first two pieces are words, the intended initials equal what the code computes. |
| Avatar.ToInt32 | src/components/UserAvatar.tsx:30 | The 32-bit view of a number lies in the signed 32-bit range, is congruent to it modulo 2^32, and leaves numbers already in range alone. |
| Avatar.ShiftLeft5 | src/components/UserAvatar.tsx:30 | `hash << 5` is 32·hash wrapped into the signed 32-bit range. |
| Avatar.HashStepIsTimes31 | src/components/UserAvatar.tsx:30 | While the hash is small enough not to wrap, one step is `31·hash + code`. |
| Avatar.ColorIndex | src/components/UserAvatar.tsx:28-33 | The loop computes `abs(hash) % 7` of the whole name, which is always a valid index. An empty or `undefined` name gets index 0. |
| Avatar.ColorOf | src/components/UserAvatar.tsx:17-34 | The colour is one of the seven classes, and the first one for an empty or `undefined` name. |
| Suggestions.Extract | src/api/ai-suggestions.api.ts:87-94 | For an array, the first element's non-empty `generated_text` is the text. Failing that, its `translation_text` is the text, or "" without one. An empty array or an unknown shape gives "". An object gives its `generated_text`, or "" without one, and a plain string is the text itself. |
| Suggestions.Cut | src/api/ai-suggestions.api.ts:99-101 | Text without "Respuesta:" is kept. When it changes, the text did contain the marker, and the result contains none and has no surrounding space. |
| Suggestions.TailHasNoMarker | src/api/ai-suggestions.api.ts:100 | The trimmed part after the last marker contains no marker. |
| Suggestions.Clean | src/api/ai-suggestions.api.ts:97-101 | The cleaned text is empty exactly for blank input and has no surrounding space. It is the trimmed text unless that held the marker, in which case it holds none. |
| Suggestions.CleanIdempotent | src/api/ai-suggestions.api.ts:97-101 | Cleaning a cleaned suggestion changes nothing. |
| Suggestions.Candidate | src/api/ai-suggestions.api.ts:82-108 | An attempt yields a suggestion exactly when it is an ok reply whose cleaned text has at least 10 characters. |
| Suggestions.Chain | src/api/ai-suggestions.api.ts:53-116 | The models are asked in list order, and the loop stops at the first that yields a suggestion. Every model is asked exactly when none yields one. |
| Suggestions.ChainStopsAtFirst | src/api/ai-suggestions.api.ts:53-108 | When model k is the first to yield a suggestion, the loop returns it after asking exactly the first k + 1 models. |
| Suggestions.LastTwo | src/api/ai-suggestions.api.ts:38 | `slice(-2)` keeps the last two responses, or all of fewer. |
| Suggestions.Context | src/api/ai-suggestions.api.ts:37-39 | There is no context line without previous responses. |
| Suggestions.ContextMentionsRecent | src/api/ai-suggestions.api.ts:37-39 | With previous responses, the context line starts with the "Respuestas previas" header. It contains the latest response and, when there is one, the response before it. |
| Suggestions.Recap | src/api/ai-suggestions.api.ts:37-39 | A header followed by the last two responses joined by ". " starts with the header and contains both of those responses. |
| Suggestions.ContextIgnoresOlder | src/api/ai-suggestions.api.ts:37-39 | Responses older than the last two never reach the prompt. |
| Suggestions.CategoryText | src/api/ai-suggestions.api.ts:45 | A missing or empty category reads "General", so the category text is never empty. |
| Suggestions.PromptOf | src/api/ai-suggestions.api.ts:41-50 | The prompt carries the title, the description, the category or "General", and the context line. |
| Suggestions.PromptEndsWithMarker | src/api/ai-suggestions.api.ts:50 | The prompt ends with "Respuesta:", the marker the cleanup cuts at. |
| Suggestions.Canned | src/api/ai-suggestions.api.ts:119-134 | The canned reply quotes the title and the category text. |
| Suggestions.Generate | src/api/ai-suggestions.api.ts:14-134 | Without a key the reply fails with the key message, an empty suggestion and no model asked. With a key it always succeeds with the first acceptable suggestion, or with the canned text after asking all four models. |
| Suggestions.FirstAcceptableWins | src/api/ai-suggestions.api.ts:53-108 | The first model whose attempt is acceptable gives the reply, and no later model is asked. |
| Suggestions.AllFailGivesCanned | src/api/ai-suggestions.api.ts:118-134 | When no model answers ok, all four are asked and the reply is the canned text with success. |
| Text.TrimEmptyIffBlank | src/components/client/DetalleSolicitud.tsx:73 | `trim()` gives "" exactly for text made only of white space. |
| Text.TrimFixed | src/api/ai-suggestions.api.ts:97 | Text without surrounding white space is left alone by `trim()`. |
| Text.Lower | src/components/admin/GestionUsuarios.tsx:126 | `toLowerCase()` on ASCII letters: each character is mapped on its own, so the length is kept. Beyond ASCII the source differs, see "Left out". |
| Text.Upper | src/components/UserAvatar.tsx:12 | `toUpperCase()` on ASCII letters: each character is mapped on its own, so the length is kept. Beyond ASCII the source differs (`"ß".toUpperCase()` is "SS"), see "Left out". |
| Text.IncludesIffOccurs | src/components/admin/GestionUsuarios.tsx:126 | `includes` holds exactly when the text occurs at some position. |
| Text.Split | src/components/UserAvatar.tsx:10 | `split` gives at least one piece, and no piece contains the separator. |
| Text.JoinSplit | src/components/UserAvatar.tsx:10 | Joining the pieces of a split with the separator gives the text back. |
| Text.SplitJoin | src/api/ai-suggestions.api.ts:100 | Splitting pieces joined by a separator they do not contain gives the pieces back. |
| Text.LastPiece | src/api/ai-suggestions.api.ts:100 | `split(m).pop()` is the suffix after the last occurrence of `m`, or the whole text without one, and contains no `m`. |
| Text.Decimal | src/components/admin/DashboardAdmin.tsx:163 | A natural number prints as a non-empty string of digits, without a leading zero unless it is 0. |
| Text.DecimalRoundTrip | src/components/admin/DashboardAdmin.tsx:163 | Reading back the printed digits gives the number. |

## Findings

| source | as written | input that shows it | evidently intended | confidence | as-written member | corrected member |
|---|---|---|---|---|---|---|
| src/components/layouts/DashboardLayout.tsx:152 | the logo links to "/dashboard/" followed by the role code | a CLIENT user: "/dashboard/CLIENT" matches no route, goes to the catch-all and lands on the login form, still signed in | link to the role's dashboard, "/dashboard/cliente" | high (not executed) | Layout.LogoLink, Navigation.LogoLinkMissesDashboards | Layout.LogoLinkIntended, Navigation.LogoLinkIntendedReachesDashboard |
| src/components/admin/GestionUsuarios.tsx:537-538 | the delete entry passes `user.id` to a handler whose parameter is the user's name | a user with id "42" named "Ana" is announced as "Usuario 42 eliminado" | announce the user by name | medium (not executed) | Users.DeleteToastAsWritten, Users.DeleteToastShowsId | Users.DeleteToast, Users.DeleteUser |
| src/components/client/DetalleSolicitud.tsx:120-122 | the category caption is looked up among mock-data's codes (SUPPORT_TECHNICAL…) | a request created by the form with category TECHNICAL_SUPPORT shows a blank category badge | look the code up among the codes the form submits | medium (not executed) | RequestDetail.CategoryCaptionAsWritten, RequestDetail.ViewOfAsWritten, RequestDetail.FormRequestBadgeBlankAsWritten | RequestDetail.CategoryCaption, RequestDetail.ViewOf, RequestDetail.FormCategoriesCaptioned |
| src/components/UserAvatar.tsx:12 | `parts[1][0]` is read even when the second piece is empty | the name "Ana " (trailing space) shows the initials "AUNDEFINED" | the initials of the first two words | medium (not executed) | Avatar.InitialsAsWritten, Avatar.TrailingSpaceShowsUndefined | Avatar.Initials, Avatar.InitialsAgreeOnWords |

## Left out

- Rendering is not modelled: JSX, styling, icons, dialog visuals and chart drawing. `Reports.tsx`, `Perfil.tsx`, `EmptyState.tsx` and `AutoLayout.tsx` are presentation over hard-coded data and are not part of this model.
- The support dashboard's productivity chart (src/components/soporte/DashboardSoporte.tsx:104-109) draws `Math.random` numbers and states nothing.
- The admin dashboard's average resolution time (src/components/admin/DashboardAdmin.tsx:46-57, 83) is left out. It is floating-point division over date-fns day differences formatted with `toFixed`.
- The 30-day trend chart (src/components/admin/DashboardAdmin.tsx:134-149) buckets requests by local calendar day through date-fns. Dates are plain integers here. The creation and update dates in the tables are not modelled either.
- The HTTP wrappers in src/api (login, logout, users, requests, responses, profile) are not modelled. What they return is an input: `Fetch`, `Ack`, `Login.Reply` or `Layout.LogoutReply`. The axios configuration is not part of this model.
- The `fetch` calls and model inference in `ai-suggestions.api.ts` are replaced by one abstract `Attempt` per model. The request body parameters (token limit, temperature, caching) are not modelled.
- The outer `catch` of `generateResponseSuggestion` (src/api/ai-suggestions.api.ts:135-151) is not modelled. Inside the outer `try`, the model calls and the reading of their replies sit inside the inner `try`. The prompt construction (lines 36-50) sits only in the outer one. It cannot throw as long as `data` has its declared type, that is, `previousResponses`, when present, is an array of strings. The model takes its input as so typed, so that backup text is never returned.
- `console.log` calls have no effect in the model.
- The one-second wait of the reply box is modelled as the page shown during and after it, not as time. React effects are modelled as the function applied when the call settles.
- The zustand `persist` middleware and `localStorage` are modelled as a persisted copy that is written through on every change. The token is a field of `Session.Browser`.
- Text.Lower: maps only ASCII letters. JavaScript case mapping covers all of Unicode, so the search agrees with the source on ASCII names only.
- Text.Upper: maps only ASCII letters and keeps the length. JavaScript's `toUpperCase` covers all of Unicode and can lengthen a string (`"ß".toUpperCase()` is "SS"), so the initials agree with the source on ASCII names only.
- AdminDashboard.ResolutionRate: rounds the exact fraction 100·resolved/total. The source computes `Math.round((resolved / total) * 100)` in double precision, and the rounding error of the product can move a value that should be exactly x.5 below the half. For 23 resolved of 40 the source shows 57% and the model 58; 29 of 200, 57 of 200, 46 of 80 and 113 of 200 differ the same way. Floating point is not modelled.
- src/App.tsx (lines 31, 55, 64 and 77) renders the detail page from `./pages/DetalleSolicitud`, which is not part of this model. `RequestDetail` models src/components/client/DetalleSolicitud.tsx and assumes the page renders it unchanged.
- Strings are sequences of characters. JavaScript counts UTF-16 code units, so the schema length limits and `charCodeAt` differ from the model for characters outside the Basic Multilingual Plane.
- Avatar.HashStepIsTimes31: the source's subtraction and addition are double-precision. The model computes them exactly, which agrees while the hash stays below 2^53 in magnitude, that is, for names shorter than about four million characters.
- The form library (react-hook-form) is not part of this model. `Users.EditState`'s `defaults` follows its documented behaviour: `reset(values)` sets the fields and replaces the default values, and a bare `reset()` restores those defaults.
- The e-mail check of the create-user schema (zod's `email()`) is a parameter `isEmail` of `Users.ValidCreate`, not a regular expression.
- Text.Trim: its contract only says the result neither starts nor ends with white space. Its relation to the input is stated by `Text.TrimEmptyIffBlank` and `Text.TrimFixed` instead, which keeps the function cheap to use.
- `MyRequests.DeleteOffered` and `RequestDetail.ReplyAllowed` are predicates. What they decide is stated by `RequestDetail.ReplyAllowedStatuses` and used by `RequestDetail.ViewOf`.
- Role-based access is enforced only by the guards shown. No server-side authorization and no request-status transition table exist in the code, and none is modelled.

=== FILE: admin.dfy ===
/** src/components/admin/DashboardAdmin.tsx: the administrator's overview —
    the resolution rate, the requests-per-status and requests-per-category
    charts, and the recent-activity feed with its "time ago" text — as pure
    functions of the loaded requests. The current time is a parameter;
    timestamps are milliseconds. */
module AdminDashboard {
  import opened Base
  import opened Text
  import opened Domain
  import Labels

  /** `resolvedTickets`: the requests that are RESOLVED or CLOSED, that is,
      the RESOLVED slice of the pie plus the CLOSED one. */
  function ResolvedCount(rs: seq<Request>): (n: nat)
    ensures n <= |rs|
    ensures n == 0 <==> forall i :: 0 <= i < |rs| ==> !IsResolved(rs[i].status)
    ensures n == StatusCount(rs, RESOLVED) + StatusCount(rs, CLOSED)
  {
    ResolvedSplits(rs);
    Count(rs, (r: Request) => IsResolved(r.status))
  }

  /** A request is resolved exactly when it is RESOLVED or CLOSED, and never both. */
  lemma {:induction false} ResolvedSplits(rs: seq<Request>)
    ensures Count(rs, (r: Request) => IsResolved(r.status)) == StatusCount(rs, RESOLVED) + StatusCount(rs, CLOSED)
  {
    if |rs| > 0 {
      ResolvedSplits(rs[1..]);
    }
  }

  /** Any predicate that picks out exactly the requests with status `s`
      counts `StatusCount(rs, s)`. */
  lemma StatusCountIs(rs: seq<Request>, s: Status, p: Request -> bool)
    requires forall i :: 0 <= i < |rs| ==> (p(rs[i]) <==> rs[i].status == s)
    ensures StatusCount(rs, s) == Count(rs, p)
  {
    CountAgree(rs, p, (r: Request) => r.status == s);
  }

  /** `resolutionRate`: 0 with no requests, otherwise the resolved
      percentage rounded to the nearest integer, halves rounding up. The
      fraction is exact here; the page rounds a double-precision product,
      which lands just below a half for some inputs (23 of 40 shows 57). */
  function ResolutionRate(resolved: nat, total: nat): (rate: nat)
    ensures total == 0 ==> rate == 0
    ensures total > 0 ==> -(total as int) <= 200 * resolved - 2 * rate * total < total
    ensures resolved <= total ==> rate <= 100
  {
    if total == 0 then 0
    else
      RoundBounds(resolved, total);
      (200 * resolved + total) / (2 * total)
  }

  /** `d * (a / d)` is the largest multiple of `d` not above `a`. */
  lemma FloorDiv(a: int, d: int)
    requires d > 0
    ensures d * (a / d) <= a < d * (a / d) + d
  {
  }

  /** Multiplying by a non-negative factor keeps an order. */
  lemma MulLe(c: int, x: int, y: int)
    requires c >= 0 && x <= y
    ensures c * x <= c * y
  {
  }

  /** A positive factor can be cancelled from a strict inequality. */
  lemma MulCancel(c: int, x: int, y: int)
    requires c > 0 && x * c > y * c
    ensures x > y
  {
  }

  /** The rounding `ResolutionRate` performs, proved once. */
  lemma RoundBounds(resolved: nat, total: nat)
    requires total > 0
    ensures var q := (200 * resolved + total) / (2 * total);
      && -(total as int) <= 200 * resolved - 2 * q * total < total
      && (resolved <= total ==> q <= 100)
  {
    var q := (200 * resolved + total) / (2 * total);
    FloorDiv(200 * resolved + total, 2 * total);
    if resolved <= total && q > 100 {
      MulLe(2 * total, 101, q);
    }
  }

  /** Nothing resolved is 0%, everything resolved is 100%, and resolving
      more never lowers the rate. */
  lemma RateMonotone(a: nat, b: nat, total: nat)
    requires a <= b
    ensures ResolutionRate(0, total) == 0
    ensures total > 0 ==> ResolutionRate(total, total) == 100
    ensures ResolutionRate(a, total) <= ResolutionRate(b, total)
  {
    if total > 0 {
      RateOfNone(total);
      RateOfAll(total);
      RateOrdered(a, b, total);
    }
  }

  lemma RateOfNone(total: nat)
    requires total > 0
    ensures ResolutionRate(0, total) == 0
  {
    var r0 := ResolutionRate(0, total);
    if r0 > 0 {
      MulLe(2 * total, 1, r0);
    }
  }

  lemma RateOfAll(total: nat)
    requires total > 0
    ensures ResolutionRate(total, total) == 100
  {
    var rt := ResolutionRate(total, total);
    if rt > 100 {
      MulLe(2 * total, 101, rt);
    } else if rt < 100 {
      MulLe(2 * total, rt, 99);
    }
  }

  lemma RateOrdered(a: nat, b: nat, total: nat)
    requires a <= b && total > 0
    ensures ResolutionRate(a, total) <= ResolutionRate(b, total)
  {
    var ra, rb := ResolutionRate(a, total), ResolutionRate(b, total);
    if ra > rb {
      MulLe(2 * total, rb + 1, ra);
    }
  }

  /** The first three cards. "Usuarios Activos" counts the bundled demo
      users (`mockUsers`), not the users of the system. */
  datatype Overview = Overview(total: nat, rate: nat, activeUsers: nat)

  /** "Total Solicitudes" is the number of requests, "Tasa de Resolución"
      the resolution rate of the RESOLVED or CLOSED ones, and "Usuarios
      Activos" the demo users whose flag is set. */
  function OverviewOf(rs: seq<Request>, demoUsers: seq<User>): (o: Overview)
    ensures o.total == |rs| && o.rate <= 100
    ensures o.rate == ResolutionRate(ResolvedCount(rs), |rs|)
    ensures o.activeUsers == Count(demoUsers, (u: User) => u.active)
    ensures o.activeUsers <= |demoUsers|
    ensures o.rate == 0 <== ResolvedCount(rs) == 0
  {
    Overview(|rs|, ResolutionRate(ResolvedCount(rs), |rs|), Count(demoUsers, (u: User) => u.active))
  }

  /** The rate is 100 exactly when at least 99.5% are resolved. */
  lemma RateFullIff(resolved: nat, total: nat)
    requires 0 < total && resolved <= total
    ensures ResolutionRate(resolved, total) == 100 <==> 200 * resolved >= 199 * total
  {
    var q := ResolutionRate(resolved, total);
    if q == 100 {
      assert 2 * q * total == 200 * total;
    }
    if 200 * resolved >= 199 * total {
      MulCancel(total, 2 * q, 198);
    }
  }

  /** The card reads 100% exactly when at least 99.5% of the requests are
      resolved: always when every request is RESOLVED or CLOSED, and, below
      200 requests, only then. */
  lemma FullRateIff(rs: seq<Request>, demoUsers: seq<User>)
    requires |rs| > 0
    ensures OverviewOf(rs, demoUsers).rate == 100 <==> 200 * ResolvedCount(rs) >= 199 * |rs|
    ensures (forall i :: 0 <= i < |rs| ==> IsResolved(rs[i].status)) ==> OverviewOf(rs, demoUsers).rate == 100
    ensures |rs| < 200 ==>
      (OverviewOf(rs, demoUsers).rate == 100 <==> forall i :: 0 <= i < |rs| ==> IsResolved(rs[i].status))
  {
    var r, t := ResolvedCount(rs), |rs|;
    RateFullIff(r, t);
    if forall i :: 0 <= i < |rs| ==> IsResolved(rs[i].status) {
      CountAll(rs, (x: Request) => IsResolved(x.status));
    }
    if t < 200 && 200 * r >= 199 * t {
      assert r == t;
      CountFull(rs, (x: Request) => IsResolved(x.status));
    }
  }

  /** One bar or pie slice: its caption and its count. */
  datatype Datum = Datum(name: string, value: nat)

  /** The sum of the values of a chart. */
  function Total(d: seq<Datum>): nat {
    if |d| == 0 then 0 else d[0].value + Total(d[1..])
  }

  /** The requests with status `s`. */
  function StatusCount(rs: seq<Request>, s: Status): nat {
    Count(rs, (r: Request) => r.status == s)
  }

  /** The pie's five candidate slices, in their fixed order. */
  function StatusSlices(rs: seq<Request>): (d: seq<Datum>)
    ensures |d| == 5
    ensures forall k :: 0 <= k < 5 ==> d[k] == Datum(Labels.StatusLabel(AllStatuses[k]), StatusCount(rs, AllStatuses[k]))
  {
    [Datum("Pendiente", StatusCount(rs, PENDING)),
     Datum("En Proceso", StatusCount(rs, IN_PROGRESS)),
     Datum("Resuelto", StatusCount(rs, RESOLVED)),
     Datum("Cerrado", StatusCount(rs, CLOSED)),
     Datum("Cancelado", StatusCount(rs, CANCELLED))]
  }

  /** Dropping the empty entries of a chart leaves its total alone. */
  lemma {:induction false} TotalOfNonEmpty(d: seq<Datum>)
    ensures Total(Filter(d, (x: Datum) => x.value > 0)) == Total(d)
  {
    if |d| > 0 {
      TotalOfNonEmpty(d[1..]);
    }
  }

  /** Every request has exactly one of the five statuses. */
  lemma {:induction false} StatusCountsSum(rs: seq<Request>)
    ensures StatusCount(rs, PENDING) + StatusCount(rs, IN_PROGRESS) + StatusCount(rs, RESOLVED)
          + StatusCount(rs, CLOSED) + StatusCount(rs, CANCELLED) == |rs|
  {
    if |rs| > 0 {
      StatusCountsSum(rs[1..]);
    }
  }

  /** Every status has its slice among the candidates. */
  lemma StatusSlicesListEvery(rs: seq<Request>)
    ensures forall s: Status :: Datum(Labels.StatusLabel(s), StatusCount(rs, s)) in StatusSlices(rs)
  {
    var all := StatusSlices(rs);
    forall s: Status ensures Datum(Labels.StatusLabel(s), StatusCount(rs, s)) in all {
      match s
      case PENDING => assert all[0] == Datum(Labels.StatusLabel(s), StatusCount(rs, s));
      case IN_PROGRESS => assert all[1] == Datum(Labels.StatusLabel(s), StatusCount(rs, s));
      case RESOLVED => assert all[2] == Datum(Labels.StatusLabel(s), StatusCount(rs, s));
      case CLOSED => assert all[3] == Datum(Labels.StatusLabel(s), StatusCount(rs, s));
      case CANCELLED => assert all[4] == Datum(Labels.StatusLabel(s), StatusCount(rs, s));
    }
  }

  /** `statusData`: the status slices with a non-zero count, in the fixed
      order; together they account for every request. */
  function StatusData(rs: seq<Request>): (d: seq<Datum>)
    ensures forall i :: 0 <= i < |d| ==> d[i].value > 0 && d[i] in StatusSlices(rs)
    ensures forall s: Status :: StatusCount(rs, s) > 0 ==> Datum(Labels.StatusLabel(s), StatusCount(rs, s)) in d
    ensures Total(d) == |rs|
  {
    StatusSlicesTotal(rs);
    StatusSlicesListEvery(rs);
    Filter(StatusSlices(rs), (x: Datum) => x.value > 0)
  }

  /** The total of a five-entry chart, spelled out. */
  lemma TotalOfFive(d: seq<Datum>)
    requires |d| == 5
    ensures Total(d) == d[0].value + d[1].value + d[2].value + d[3].value + d[4].value
  {
    var d1, d2, d3, d4 := d[1..], d[2..], d[3..], d[4..];
    assert d1[1..] == d2 && d2[1..] == d3 && d3[1..] == d4 && d4[1..] == [];
    assert Total(d4) == d[4].value;
    assert Total(d3) == d[3].value + Total(d4);
    assert Total(d2) == d[2].value + Total(d3);
    assert Total(d1) == d[1].value + Total(d2);
  }

  /** The non-empty status slices still add up to every request. */
  lemma StatusSlicesTotal(rs: seq<Request>)
    ensures Total(Filter(StatusSlices(rs), (x: Datum) => x.value > 0)) == |rs|
  {
    TotalOfNonEmpty(StatusSlices(rs));
    TotalOfFive(StatusSlices(rs));
    StatusCountsSum(rs);
  }

  /** The keys of `categoryLabels`, in their declared order. */
  const CategoryKeys: seq<string> := ["TECHNICAL_SUPPORT", "BILLING", "GENERAL_INQUIRY", "ACCOUNT_ACCESS", "OTHER"]

  /** Their captions. */
  const CategoryNames: seq<string> := ["Soporte Técnico", "Facturación", "Consulta General", "Acceso a Cuenta", "Otro"]

  /** The requests whose category is exactly `key`; a request without a
      category matches no key. */
  function CategoryCount(rs: seq<Request>, key: string): nat {
    Count(rs, (r: Request) => r.category == Some(key))
  }

  /** The bar chart's five candidate bars. */
  function CategoryBars(rs: seq<Request>): (d: seq<Datum>)
    ensures |d| == 5
    ensures forall k :: 0 <= k < 5 ==> d[k] == Datum(CategoryNames[k], CategoryCount(rs, CategoryKeys[k]))
  {
    seq(5, k requires 0 <= k < 5 => Datum(CategoryNames[k], CategoryCount(rs, CategoryKeys[k])))
  }

  /** A request is counted under at most one key, so the five bars never
      count more than there are requests. */
  lemma {:induction false} CategoryCountsBounded(rs: seq<Request>)
    ensures CategoryCount(rs, "TECHNICAL_SUPPORT") + CategoryCount(rs, "BILLING") + CategoryCount(rs, "GENERAL_INQUIRY")
          + CategoryCount(rs, "ACCOUNT_ACCESS") + CategoryCount(rs, "OTHER") <= |rs|
  {
    if |rs| > 0 {
      CategoryCountsBounded(rs[1..]);
    }
  }

  /** `categoryData`: the bars with a non-zero count, in key order; their
      total is at most the number of requests. */
  function CategoryData(rs: seq<Request>): (d: seq<Datum>)
    ensures forall i :: 0 <= i < |d| ==> d[i].value > 0 && d[i] in CategoryBars(rs)
    ensures forall k :: 0 <= k < 5 && CategoryCount(rs, CategoryKeys[k]) > 0 ==>
      Datum(CategoryNames[k], CategoryCount(rs, CategoryKeys[k])) in d
    ensures Total(d) <= |rs|
  {
    CategoryBarsTotal(rs);
    Filter(CategoryBars(rs), (x: Datum) => x.value > 0)
  }

  /** The non-empty bars count no more than every request. */
  lemma CategoryBarsTotal(rs: seq<Request>)
    ensures Total(Filter(CategoryBars(rs), (x: Datum) => x.value > 0)) <= |rs|
  {
    TotalOfNonEmpty(CategoryBars(rs));
    TotalOfFive(CategoryBars(rs));
    CategoryCountsBounded(rs);
  }

  /** A request filed under a category that is not a key of the chart —
      the form's ACCESS_ISSUE, or none at all — changes no bar. */
  lemma UnlistedCategoryNeverCounted(rs: seq<Request>, r: Request)
    requires r.category.None? || r.category.value !in CategoryKeys
    ensures CategoryData(rs + [r]) == CategoryData(rs)
  {
    forall k | 0 <= k < 5 ensures CategoryCount(rs + [r], CategoryKeys[k]) == CategoryCount(rs, CategoryKeys[k]) {
      CountConcat(rs, [r], (x: Request) => x.category == Some(CategoryKeys[k]));
      assert [r][1..] == [];
    }
    assert CategoryBars(rs + [r]) == CategoryBars(rs);
  }

  /** The form offers ACCESS_ISSUE, which the chart has no key for, while
      the chart's ACCOUNT_ACCESS is offered by no form. */
  lemma AccessCategoriesDisagree()
    ensures "ACCESS_ISSUE" !in CategoryKeys && Labels.RequestCategoryLabel("ACCESS_ISSUE").Some?
    ensures "ACCOUNT_ACCESS" in CategoryKeys && Labels.RequestCategoryLabel("ACCOUNT_ACCESS").None?
  {
  }

  /** The sort key of a dated request. */
  function Created(r: Request): int {
    r.createdAt.GetOr(0)
  }

  /** Newest first: creation times never increase along the sequence. */
  predicate NewestFirst(s: seq<Request>) {
    forall i, j :: 0 <= i < j < |s| ==> Created(s[i]) >= Created(s[j])
  }

  /** Inserting `x` into a newest-first sequence ahead of everything no newer
      than it. */
  function Insert(x: Request, s: seq<Request>): (r: seq<Request>)
    requires NewestFirst(s)
    ensures NewestFirst(r)
    ensures multiset(r) == multiset(s) + multiset{x}
    ensures |r| == |s| + 1
    ensures |r| > 0 && (r[0] == x || (|s| > 0 && r[0] == s[0]))
  {
    if |s| == 0 || Created(x) >= Created(s[0]) then [x] + s
    else
      var t := Insert(x, s[1..]);
      assert s == [s[0]] + s[1..];
      PrependKeepsOrder(s[0], t);
      [s[0]] + t
  }

  /** Putting a request no older than the head in front keeps the order. */
  lemma PrependKeepsOrder(a: Request, t: seq<Request>)
    requires NewestFirst(t) && (|t| > 0 ==> Created(a) >= Created(t[0]))
    ensures NewestFirst([a] + t)
  {
    var r := [a] + t;
    forall i, j | 0 <= i < j < |r| ensures Created(r[i]) >= Created(r[j]) {
      assert r[j] == t[j - 1];
      if i == 0 {
        assert Created(t[0]) >= Created(t[j - 1]) || j == 1;
      } else {
        assert r[i] == t[i - 1];
      }
    }
  }

  /** The comparator sort: newest first, the same requests. */
  function SortNewestFirst(s: seq<Request>): (r: seq<Request>)
    ensures NewestFirst(r)
    ensures multiset(r) == multiset(s)
    ensures |r| == |s|
  {
    if |s| == 0 then []
    else
      assert s == [s[0]] + s[1..];
      Insert(s[0], SortNewestFirst(s[1..]))
  }

  /** The requests that carry a creation time. */
  function Dated(rs: seq<Request>): (d: seq<Request>)
    ensures forall i :: 0 <= i < |d| ==> d[i].createdAt.Some? && d[i] in rs
    ensures forall i :: 0 <= i < |rs| && rs[i].createdAt.Some? ==> rs[i] in d
  {
    Filter(rs, (r: Request) => r.createdAt.Some?)
  }

  /** The requests behind `recentActivity`: the dated requests, newest
      first, cut after four. */
  function RecentRequests(rs: seq<Request>): (r: seq<Request>)
    ensures |r| == if |Dated(rs)| < 4 then |Dated(rs)| else 4
    ensures forall i :: 0 <= i < |r| ==> r[i].createdAt.Some? && r[i] in rs
    ensures NewestFirst(r)
  {
    var d := Dated(rs);
    var s := SortNewestFirst(d);
    TopOfSorted(d, s, 4);
    Take(s, 4)
  }

  /** They are the four newest: every dated request left out is no newer
      than the last one shown, and one is left out only when four are shown. */
  lemma RecentAreNewest(rs: seq<Request>)
    ensures var r := RecentRequests(rs);
      && multiset(r) <= multiset(Dated(rs))
      && forall x :: x in multiset(Dated(rs)) - multiset(r) ==> |r| == 4 && Created(x) <= Created(r[3])
  {
    TopOfSorted(Dated(rs), SortNewestFirst(Dated(rs)), 4);
  }

  /** Cutting a newest-first arrangement of `d` after `k` entries leaves out
      only entries no newer than the last one kept. */
  lemma TopOfSorted(d: seq<Request>, s: seq<Request>, k: nat)
    requires k > 0
    requires NewestFirst(s) && multiset(s) == multiset(d)
    ensures multiset(Take(s, k)) <= multiset(d)
    ensures forall i :: 0 <= i < |Take(s, k)| ==> Take(s, k)[i] in d
    ensures forall x :: x in multiset(d) - multiset(Take(s, k)) ==>
      |Take(s, k)| == k && Created(x) <= Created(Take(s, k)[k - 1])
  {
    TakeKeepsMembers(d, s, k);
    LeftOutNoNewer(d, s, k);
  }

  /** A prefix and the rest make up the whole, as multisets too. */
  lemma TakeAndRest<T>(s: seq<T>, k: nat)
    ensures var r := Take(s, k);
      && s == r + s[|r|..]
      && multiset(s) == multiset(r) + multiset(s[|r|..])
  {
    var r := Take(s, k);
    assert s == r + s[|r|..];
  }

  /** What a prefix keeps comes from `d`. */
  lemma TakeKeepsMembers(d: seq<Request>, s: seq<Request>, k: nat)
    requires multiset(s) == multiset(d)
    ensures multiset(Take(s, k)) <= multiset(d)
    ensures forall i :: 0 <= i < |Take(s, k)| ==> Take(s, k)[i] in d
  {
    var r := Take(s, k);
    TakeAndRest(s, k);
    forall i | 0 <= i < |r| ensures r[i] in d {
      assert r[i] in multiset(r);
      assert r[i] in multiset(d);
    }
  }

  /** What a prefix of a newest-first arrangement leaves out is no newer
      than its last entry, and is left out only when the prefix is full. */
  lemma LeftOutNoNewer(d: seq<Request>, s: seq<Request>, k: nat)
    requires k > 0
    requires NewestFirst(s) && multiset(s) == multiset(d)
    ensures forall x :: x in multiset(d) - multiset(Take(s, k)) ==>
      |Take(s, k)| == k && Created(x) <= Created(Take(s, k)[k - 1])
  {
    var r := Take(s, k);
    var rest := s[|r|..];
    TakeAndRest(s, k);
    assert multiset(d) - multiset(r) == multiset(rest);
    forall x | x in multiset(d) - multiset(r)
      ensures |r| == k && Created(x) <= Created(r[k - 1])
    {
      assert x in rest;
      RestNoNewer(s, k, x);
    }
  }

  /** An entry after a prefix of a newest-first arrangement is no newer
      than the prefix's last entry, which is then its `k`-th. */
  lemma RestNoNewer(s: seq<Request>, k: nat, x: Request)
    requires k > 0 && NewestFirst(s) && x in s[|Take(s, k)|..]
    ensures |Take(s, k)| == k && Created(x) <= Created(Take(s, k)[k - 1])
  {
    var r := Take(s, k);
    var rest := s[|r|..];
    var j :| 0 <= j < |rest| && rest[j] == x;
    assert |r| == k;
    assert s[|r| + j] == x && r[k - 1] == s[k - 1];
  }

  /** How long ago, bucketed as the feed shows it. */
  datatype Ago = JustNow | Minutes(n: nat) | Hours(n: nat) | Days(n: nat)

  /** Whole minutes between two millisecond timestamps, rounded down
      (`Math.floor`, also for a creation time in the future). */
  function MinutesBetween(now: int, created: int): int {
    (now - created) / 60000
  }

  /** The `timeText` buckets for `d` whole minutes: under one minute, minutes
      below an hour, whole hours below a day, whole days otherwise. */
  function Bucket(d: int): (a: Ago)
    ensures a == JustNow <==> d < 1
    ensures a.Minutes? <==> 1 <= d < 60
    ensures a.Hours? <==> 60 <= d < 1440
    ensures a.Days? <==> 1440 <= d
    ensures a.Minutes? ==> a.n == d
    ensures a.Hours? ==> 1 <= a.n < 24 && a.n * 60 <= d < a.n * 60 + 60
    ensures a.Days? ==> 1 <= a.n && a.n * 1440 <= d < a.n * 1440 + 1440
  {
    if d < 1 then JustNow
    else if d < 60 then Minutes(d)
    else if d < 1440 then Hours(d / 60)
    else Days(d / 1440)
  }

  /** "s" when the shown count is above one. */
  function Plural(n: nat): string {
    if n > 1 then "s" else ""
  }

  /** `timeText`: "Ahora mismo" under a minute; otherwise "Hace ", the
      count, and after it the unit of its bucket — minutes below an hour,
      whole hours below a day, whole days beyond — in the plural when the
      count is above one. */
  function TimeText(d: int): (t: string)
    ensures t == "Ahora mismo" <==> d < 1
    ensures d >= 1 ==> ReadsAgo(t, Bucket(d).n)
    ensures 1 <= d < 60 ==> t[5 + |Decimal(d)|..] == " minuto" + Plural(d)
    ensures 60 <= d < 1440 ==> t[5 + |Decimal(d / 60)|..] == " hora" + Plural(d / 60)
    ensures 1440 <= d ==> t[5 + |Decimal(d / 1440)|..] == " día" + Plural(d / 1440)
  {
    match Bucket(d)
    case JustNow => "Ahora mismo"
    case Minutes(n) => AgoText(n, " minuto")
    case Hours(n) => AgoText(n, " hora")
    case Days(n) => AgoText(n, " día")
  }

  /** `t` reads "Hace <n> ..." with `n` in decimal. */
  predicate ReadsAgo(t: string, n: nat) {
    var digits := Decimal(n);
    |t| >= 5 + |digits| && t[..5] == "Hace " && t[5..5 + |digits|] == digits
  }

  /** "Hace <n><unit>", with the plural "s" when `n` is above one. */
  function AgoText(n: nat, unit: string): (t: string)
    ensures ReadsAgo(t, n) && t != "Ahora mismo"
    ensures t[5 + |Decimal(n)|..] == unit + Plural(n)
    ensures |t| > 0 && (t[|t| - 1] == 's' <==> n > 1 || (|unit| > 0 && unit[|unit| - 1] == 's'))
  {
    var t := "Hace " + Decimal(n) + unit + Plural(n);
    assert t[0] == 'H';
    assert t[..5] == "Hace ";
    assert t[5..5 + |Decimal(n)|] == Decimal(n);
    assert t[5 + |Decimal(n)|..] == unit + Plural(n);
    t
  }

  /** The text ends in "s" exactly when the number it shows is above one. */
  lemma PluralIffMoreThanOne(d: int)
    requires d >= 1
    ensures var t := TimeText(d); t[|t| - 1] == 's' <==> Bucket(d).n > 1
  {
  }

  /** One line of the feed. */
  datatype Activity = Activity(user: string, action: string, time: string)

  /** A line for request `r` at time `now`: the owner's name or
      "Usuario desconocido", what they did (creating the request, named by
      its title in double quotes), and how long ago. */
  function ActivityOf(r: Request, now: int): (a: Activity)
    ensures a.user != ""
    ensures r.user.Some? && r.user.value.name != "" ==> a.user == r.user.value.name
    ensures StartsWith(a.action, "creó la solicitud \"")
    ensures |a.action| == 20 + |r.title| && a.action[19..19 + |r.title|] == r.title
    ensures a.action[|a.action| - 1] == '"'
    ensures a.time == TimeText(MinutesBetween(now, Created(r)))
  {
    var owner := if r.user.Some? then Some(r.user.value.name) else None;
    Activity(OrElse(owner, "Usuario desconocido"), "creó la solicitud \"" + r.title + "\"",
             TimeText(MinutesBetween(now, Created(r))))
  }

  /** `recentActivity`: one line per recent request, in the same order. */
  function RecentActivity(rs: seq<Request>, now: int): (a: seq<Activity>)
    ensures |a| <= 4 && |a| == |RecentRequests(rs)|
    ensures forall i :: 0 <= i < |a| ==> a[i] == ActivityOf(RecentRequests(rs)[i], now)
  {
    var rec := RecentRequests(rs);
    seq(|rec|, i requires 0 <= i < |rec| => ActivityOf(rec[i], now))
  }

  /** Down the feed the entries only get older: the minutes shown for an
      earlier line never exceed those of a later one. */
  lemma FeedAgesIncrease(rs: seq<Request>, now: int, i: nat, j: nat)
    requires i < j < |RecentRequests(rs)|
    ensures var rec := RecentRequests(rs);
      MinutesBetween(now, Created(rec[i])) <= MinutesBetween(now, Created(rec[j]))
  {
    var rec := RecentRequests(rs);
    DivMonotone(now - Created(rec[i]), now - Created(rec[j]), 60000);
  }

  /** Floor division by a positive number is monotone. */
  lemma DivMonotone(a: int, b: int, d: int)
    requires a <= b && d > 0
    ensures a / d <= b / d
  {
    FloorDiv(a, d);
    FloorDiv(b, d);
    if a / d > b / d {
      MulLe(d, b / d + 1, a / d);
    }
  }

  /** The requests and the loading flag. */
  datatype RequestsState = RequestsState(requests: seq<Request>, loading: bool)

  /** `getAllRequests` once the call settled: a reply replaces the list, a
      refusal keeps it; loading ends. The API does not catch a network
      failure, which aborts the handler with the page still loading. */
  function LoadRequests(s: RequestsState, reply: Fetch<seq<Request>>): (r: RequestsState)
    ensures reply.Fetched? ==> r == RequestsState(reply.items, false)
    ensures reply.Refused? ==> r == RequestsState(s.requests, false)
    ensures reply.Thrown? ==> r == RequestsState(s.requests, true)
  {
    match reply
    case Fetched(items) => RequestsState(items, false)
    case Refused(_) => RequestsState(s.requests, false)
    case Thrown => RequestsState(s.requests, true)
  }

  /** Only a reply ends the skeletons with new figures: after a refused
      reload the dashboard still shows the list of the last successful load,
      and a reload that throws leaves the skeletons up over it. */
  lemma FailedReloadKeepsFigures(s: RequestsState, items: seq<Request>, failure: Fetch<seq<Request>>)
    requires !failure.Fetched?
    ensures var after := LoadRequests(LoadRequests(s, Fetched(items)), failure);
      && after.requests == items
      && ResolutionRate(ResolvedCount(after.requests), |after.requests|) == ResolutionRate(ResolvedCount(items), |items|)
      && (after.loading <==> failure.Thrown?)
  {
  }
}

=== FILE: avatar.dfy ===
/** src/components/UserAvatar.tsx: the two-letter initials and the
    background colour of an avatar, both computed from the user's name. The
    name may be `undefined` (callers pass `currentUser?.name!`). */
module Avatar {
  import opened Base
  import opened Text

  /** `piece[0]` inside a template literal: the first character, or the text
      "undefined" when the piece is empty. */
  function FirstChar(piece: string): (t: string)
    ensures |piece| > 0 ==> t == [piece[0]]
    ensures |piece| == 0 ==> t == "undefined"
  {
    if |piece| > 0 then [piece[0]] else "undefined"
  }

  /** `getInitials` as written: with two or more space-separated pieces, the
      upper-cased first characters of the first two pieces; otherwise the
      first two characters upper-cased; nothing for an `undefined` name. */
  function InitialsAsWritten(name: Option<string>): (r: Option<string>)
    ensures name.None? <==> r.None?
    ensures name.Some? && ' ' !in name.value ==>
      && |r.value| == (if |name.value| < 2 then |name.value| else 2)
      && forall i :: 0 <= i < |r.value| ==> r.value[i] == UpperChar(name.value[i])
    ensures name.Some? && ' ' in name.value ==> |Split(name.value, ' ')| >= 2
    ensures name.Some? && ' ' in name.value && |Split(name.value, ' ')[0]| > 0 ==>
      |r.value| > 0 && r.value[0] == UpperChar(name.value[0])
  {
    match name
    case None => None
    case Some(s) =>
      var parts := Split(s, ' ');
      SplitSingleIffAbsent(s, ' ');
      SplitFirstIsPrefix(s, ' ');
      if |parts| >= 2 then Some(Upper(FirstChar(parts[0]) + FirstChar(parts[1])))
      else Some(Upper(Take(s, 2)))
  }

  /** When the first two pieces are words, the initials are their two
      upper-cased first letters: exactly two characters. */
  lemma TwoWordsGiveTwoInitials(name: string)
    requires |Split(name, ' ')| >= 2
    requires |Split(name, ' ')[0]| > 0 && |Split(name, ' ')[1]| > 0
    ensures var parts := Split(name, ' ');
      InitialsAsWritten(Some(name)) == Some([UpperChar(parts[0][0]), UpperChar(parts[1][0])])
  {
    var parts := Split(name, ' ');
    var t := FirstChar(parts[0]) + FirstChar(parts[1]);
    assert t == [parts[0][0], parts[1][0]];
    assert Upper(t) == [UpperChar(parts[0][0]), UpperChar(parts[1][0])];
  }

  /** A one-word name followed by a space splits into the word and an empty
      piece, so the initials are the word's first letter followed by
      "UNDEFINED". */
  lemma TrailingSpaceAfterWord(w: string)
    requires |w| > 0 && ' ' !in w
    ensures InitialsAsWritten(Some(w + " ")) == Some([UpperChar(w[0])] + "UNDEFINED")
  {
    assert w + " " == w + [' '] + "";
    SplitAfterPiece(w, "", ' ');
    assert Split("", ' ') == [""];
    var t := FirstChar(w) + FirstChar("");
    assert t == [w[0]] + "undefined";
    assert Upper(t) == [UpperChar(w[0])] + "UNDEFINED";
  }

  /** A trailing space (or two spaces in a row) makes the second piece empty,
      and the initials read "AUNDEFINED". */
  lemma TrailingSpaceShowsUndefined()
    ensures InitialsAsWritten(Some("Ana ")) == Some("AUNDEFINED")
  {
    assert "Ana" + " " == "Ana ";
    TrailingSpaceAfterWord("Ana");
    assert [UpperChar('A')] + "UNDEFINED" == "AUNDEFINED";
  }

  /** The words of a name: its non-empty space-separated pieces. */
  function Words(name: string): (ws: seq<string>)
    ensures forall k :: 0 <= k < |ws| ==> |ws[k]| > 0 && ' ' !in ws[k]
  {
    Filter(Split(name, ' '), (w: string) => w != "")
  }

  /** `getInitials` as intended: the first letters of the first two words,
      or the first two letters of the only word, upper-cased. */
  function Initials(name: Option<string>): (r: Option<string>)
    ensures name.None? <==> r.None?
    ensures r.Some? ==> |r.value| <= 2 && ' ' !in r.value
  {
    match name
    case None => None
    case Some(s) =>
      var ws := Words(s);
      if |ws| >= 2 then Some(Upper([ws[0][0], ws[1][0]]))
      else if |ws| == 1 then Some(Upper(Take(ws[0], 2)))
      else Some("")
  }

  /** On a name whose first two pieces are words the intended initials are
      what the code computes; they differ only where the code prints "undefined". */
  lemma InitialsAgreeOnWords(name: string)
    requires |Split(name, ' ')| >= 2
    requires |Split(name, ' ')[0]| > 0 && |Split(name, ' ')[1]| > 0
    ensures Initials(Some(name)) == InitialsAsWritten(Some(name))
  {
    var parts := Split(name, ' ');
    var nonEmpty := (w: string) => w != "";
    assert Filter(parts[1..], nonEmpty) == [parts[1]] + Filter(parts[2..], nonEmpty) by {
      assert parts[1..][0] == parts[1] && parts[1..][1..] == parts[2..];
    }
    var ws := Words(name);
    assert ws == [parts[0]] + Filter(parts[1..], nonEmpty);
    assert |ws| >= 2 && ws[0] == parts[0] && ws[1] == parts[1];
    assert Initials(Some(name)) == Some(Upper([parts[0][0], parts[1][0]]));
    assert Upper([parts[0][0], parts[1][0]]) == [UpperChar(parts[0][0]), UpperChar(parts[1][0])];
    TwoWordsGiveTwoInitials(name);
  }

  /** The background classes, in order. */
  const Colors: seq<string> := [
    "bg-blue-500", "bg-green-500", "bg-purple-500", "bg-pink-500",
    "bg-indigo-500", "bg-yellow-500", "bg-red-500"]

  const TwoTo32: int := 0x1_0000_0000

  /** ECMAScript's ToInt32 on an integer: the value modulo 2^32, read as a
      signed 32-bit integer. */
  function ToInt32(x: int): (r: int)
    ensures -0x8000_0000 <= r < 0x8000_0000
    ensures (x - r) % TwoTo32 == 0
    ensures -0x8000_0000 <= x < 0x8000_0000 ==> r == x
  {
    var m := x % TwoTo32;
    if m >= 0x8000_0000 then m - TwoTo32 else m
  }

  /** `hash << 5`: shifts the 32-bit view of `hash`, so the result is 32
      times it, wrapped into the signed 32-bit range. */
  function ShiftLeft5(h: int): (r: int)
    ensures -0x8000_0000 <= r < 0x8000_0000
    ensures (32 * h - r) % TwoTo32 == 0
  {
    ToInt32(ToInt32(h) * 32)
  }

  /** One turn of the loop: `hash = code + ((hash << 5) - hash)`. Only the
      shift wraps; the subtraction and the addition are exact. The character
      code is the character's value (a BMP character's UTF-16 code unit). */
  function HashStep(h: int, c: char): int {
    c as int + (ShiftLeft5(h) - h)
  }

  /** The hash of a name: the loop run over all of its characters from 0. */
  function Hash(s: string): int
    decreases |s|
  {
    if |s| == 0 then 0 else HashStep(Hash(s[..|s| - 1]), s[|s| - 1])
  }

  /** While the hash stays small enough that the shift does not wrap, a step
      is the familiar `31 * hash + code`. */
  lemma HashStepIsTimes31(h: int, c: char)
    requires -0x400_0000 <= h < 0x400_0000
    ensures HashStep(h, c) == 31 * h + c as int
  {
    assert ToInt32(h) == h;
    assert -0x8000_0000 <= h * 32 < 0x8000_0000;
  }

  /** `getColorFromName`'s index, `Math.abs(hash) % colors.length`,
      computed by the loop of the source. An `undefined` or empty name runs
      the loop zero times and gets the first colour. */
  method ColorIndex(name: Option<string>) returns (k: nat)
    ensures k < |Colors|
    ensures name.Some? ==> k == Abs(Hash(name.value)) % |Colors|
    ensures name.None? || name.value == "" ==> k == 0
  {
    var s := name.GetOr("");
    var hash := 0;
    var i := 0;
    while i < |s|
      invariant 0 <= i <= |s|
      invariant hash == Hash(s[..i])
    {
      assert s[..i + 1][..i] == s[..i];
      hash := HashStep(hash, s[i]);
      i := i + 1;
    }
    assert s[..|s|] == s;
    k := Abs(hash) % |Colors|;
  }

  /** `Math.abs` on an integer. */
  function Abs(x: int): (r: nat)
    ensures r == x || r == -x
  {
    if x < 0 then -x else x
  }

  /** The colour class of a name: one of the seven, the same for equal names. */
  method ColorOf(name: Option<string>) returns (color: string)
    ensures color in Colors
    ensures name.None? || name.value == "" ==> color == Colors[0]
  {
    var k := ColorIndex(name);
    color := Colors[k];
  }
}

=== FILE: base.dfy ===
/** Small generic building blocks shared by every screen of the model: an
    optional value (JavaScript's `undefined`/`null`), and the `filter`,
    `filter(...).length` and `slice(0, n)` idioms the screens use on lists. */
module Base {

  /** A value that may be absent. */
  datatype Option<+T> = None | Some(value: T) {

    /** The value, or `default` when absent: JavaScript's `x ?? default`. */
    function GetOr(default: T): T {
      match this
      case Some(v) => v
      case None => default
    }
  }

  /** `s.filter(p).length`. */
  function Count<T>(s: seq<T>, p: T -> bool): (n: nat)
    ensures n <= |s|
    ensures n == 0 <==> forall i :: 0 <= i < |s| ==> !p(s[i])
  {
    if |s| == 0 then 0
    else (if p(s[0]) then 1 else 0) + Count(s[1..], p)
  }

  /** `s.filter(p)`: the elements satisfying `p`, in their original order. */
  function Filter<T>(s: seq<T>, p: T -> bool): (r: seq<T>)
    ensures |r| == Count(s, p)
    ensures forall i :: 0 <= i < |r| ==> r[i] in s && p(r[i])
    ensures forall i :: 0 <= i < |s| && p(s[i]) ==> s[i] in r
  {
    if |s| == 0 then []
    else if p(s[0]) then [s[0]] + Filter(s[1..], p)
    else Filter(s[1..], p)
  }

  /** `s.slice(0, n)`: the first `n` elements, or all of them when there are fewer. */
  function Take<T>(s: seq<T>, n: nat): (r: seq<T>)
    ensures |r| == if |s| < n then |s| else n
    ensures forall i :: 0 <= i < |r| ==> r[i] == s[i]
  {
    if |s| <= n then s else s[..n]
  }

  /** Filtering distributes over concatenation: this is what "order preserved"
      means for `filter` — the kept elements of a prefix come before those of
      the rest. */
  lemma {:induction false} FilterConcat<T>(a: seq<T>, b: seq<T>, p: T -> bool)
    ensures Filter(a + b, p) == Filter(a, p) + Filter(b, p)
  {
    if |a| == 0 {
      assert a + b == b;
    } else {
      assert (a + b)[1..] == a[1..] + b;
      FilterConcat(a[1..], b, p);
    }
  }

  /** Counting distributes over concatenation. */
  lemma {:induction false} CountConcat<T>(a: seq<T>, b: seq<T>, p: T -> bool)
    ensures Count(a + b, p) == Count(a, p) + Count(b, p)
  {
    if |a| == 0 {
      assert a + b == b;
    } else {
      assert (a + b)[1..] == a[1..] + b;
      CountConcat(a[1..], b, p);
    }
  }

  /** When every element satisfies `p`, all of them are counted. */
  lemma {:induction false} CountAll<T>(s: seq<T>, p: T -> bool)
    requires forall i :: 0 <= i < |s| ==> p(s[i])
    ensures Count(s, p) == |s|
  {
    if |s| > 0 {
      CountAll(s[1..], p);
    }
  }

  /** A predicate that holds wherever another does counts at least as many elements. */
  lemma {:induction false} CountMonotone<T>(s: seq<T>, p: T -> bool, q: T -> bool)
    requires forall i :: 0 <= i < |s| && p(s[i]) ==> q(s[i])
    ensures Count(s, p) <= Count(s, q)
  {
    if |s| > 0 {
      CountMonotone(s[1..], p, q);
    }
  }

  /** Two predicates that never hold together count, in sum, exactly what
      their disjunction counts. */
  lemma {:induction false} CountDisjoint<T>(s: seq<T>, p: T -> bool, q: T -> bool, pq: T -> bool)
    requires forall i :: 0 <= i < |s| ==> !(p(s[i]) && q(s[i]))
    requires forall i :: 0 <= i < |s| ==> (pq(s[i]) <==> p(s[i]) || q(s[i]))
    ensures Count(s, p) + Count(s, q) == Count(s, pq)
  {
    if |s| > 0 {
      CountDisjoint(s[1..], p, q, pq);
    }
  }

  /** Counting every element means every element satisfies `p`. */
  lemma {:induction false} CountFull<T>(s: seq<T>, p: T -> bool)
    requires Count(s, p) == |s|
    ensures forall i :: 0 <= i < |s| ==> p(s[i])
  {
    if |s| > 0 {
      CountFull(s[1..], p);
      forall i | 0 <= i < |s| ensures p(s[i]) {
        if i > 0 {
          assert s[i] == s[1..][i - 1];
        }
      }
    }
  }

  /** Two predicates that agree on every element count alike. */
  lemma {:induction false} CountAgree<T>(s: seq<T>, p: T -> bool, q: T -> bool)
    requires forall i :: 0 <= i < |s| ==> (p(s[i]) <==> q(s[i]))
    ensures Count(s, p) == Count(s, q)
  {
    if |s| > 0 {
      CountAgree(s[1..], p, q);
    }
  }

  /** Counting `q` among the elements kept by `p` counts the elements
      satisfying both: `s.filter(p).filter(q).length`. */
  lemma {:induction false} CountOfFilter<T>(s: seq<T>, p: T -> bool, q: T -> bool, pq: T -> bool)
    requires forall i :: 0 <= i < |s| ==> (pq(s[i]) <==> p(s[i]) && q(s[i]))
    ensures Count(Filter(s, p), q) == Count(s, pq)
  {
    if |s| > 0 {
      CountOfFilter(s[1..], p, q, pq);
      if p(s[0]) {
        assert Filter(s, p) == [s[0]] + Filter(s[1..], p);
        assert ([s[0]] + Filter(s[1..], p))[1..] == Filter(s[1..], p);
      }
    }
  }

  /** A predicate that holds everywhere keeps the whole sequence. */
  lemma {:induction false} FilterAll<T>(s: seq<T>, p: T -> bool)
    requires forall i :: 0 <= i < |s| ==> p(s[i])
    ensures Filter(s, p) == s
  {
    if |s| > 0 {
      FilterAll(s[1..], p);
      assert [s[0]] + s[1..] == s;
    }
  }

  /** Two predicates that agree on every element filter alike. */
  lemma {:induction false} FilterAgree<T>(s: seq<T>, p: T -> bool, q: T -> bool)
    requires forall i :: 0 <= i < |s| ==> (p(s[i]) <==> q(s[i]))
    ensures Filter(s, p) == Filter(s, q)
  {
    if |s| > 0 {
      FilterAgree(s[1..], p, q);
    }
  }
}

=== FILE: client.dfy ===
/** src/components/client/DashboardClient.tsx: the client's landing page —
    the four counters and the "recent requests" table. The page keeps its
    list in state that starts as `null` and that nothing ever sets, so as
    written it always shows the empty branch; the functions below take the
    list as it would be if it were set. The list's elements are the demo
    `Ticket` records, of which the page reads only what `Request` also has. */
module ClientDashboard {
  import opened Base
  import opened Domain
  import R = Routes
  import A = AdminDashboard

  /** `recentTickets`: the first five tickets in list order, and none while
      the list is missing. */
  function RecentTickets(tickets: Option<seq<Request>>): (r: seq<Request>)
    ensures tickets.None? ==> r == []
    ensures tickets.Some? ==> |r| == (if |tickets.value| < 5 then |tickets.value| else 5)
    ensures tickets.Some? ==> forall i :: 0 <= i < |r| ==> r[i] == tickets.value[i]
  {
    if tickets.Some? then Take(tickets.value, 5) else []
  }

  /** The counters; all of them are `undefined` (shown as nothing) while the
      list is missing. */
  datatype ClientStats = ClientStats(total: Option<nat>, pending: Option<nat>, inProgress: Option<nat>, resolved: Option<nat>)

  /** `stats`: every ticket, the PENDING ones, the IN_PROGRESS ones and the
      RESOLVED or CLOSED ones — the same figures the administrator's status
      chart gives for the list. The three kinds never overlap, so with the
      CANCELLED tickets they make up the total. */
  function StatsOf(tickets: Option<seq<Request>>): (st: ClientStats)
    ensures tickets.None? <==> st.total.None?
    ensures tickets.None? ==> st == ClientStats(None, None, None, None)
    ensures tickets.Some? ==>
      && st.total == Some(|tickets.value|)
      && st.pending == Some(A.StatusCount(tickets.value, PENDING))
      && st.inProgress == Some(A.StatusCount(tickets.value, IN_PROGRESS))
      && st.resolved == Some(A.ResolvedCount(tickets.value))
      && st.pending.value + st.inProgress.value + st.resolved.value
         + Count(tickets.value, (r: Request) => r.status == CANCELLED) == |tickets.value|
  {
    match tickets
    case None => ClientStats(None, None, None, None)
    case Some(ts) =>
      var pending := (r: Request) => r.status == PENDING;
      var inProgress := (r: Request) => r.status == IN_PROGRESS;
      var resolved := (r: Request) => IsResolved(r.status);
      var cancelled := (r: Request) => r.status == CANCELLED;
      var open := (r: Request) => r.status == PENDING || r.status == IN_PROGRESS;
      var settled := (r: Request) => r.status != CANCELLED;
      var any := (r: Request) => true;
      CountDisjoint(ts, pending, inProgress, open);
      CountDisjoint(ts, open, resolved, settled);
      CountDisjoint(ts, settled, cancelled, any);
      CountAll(ts, any);
      A.StatusCountIs(ts, PENDING, pending);
      A.StatusCountIs(ts, IN_PROGRESS, inProgress);
      ClientStats(Some(|ts|), Some(Count(ts, pending)), Some(Count(ts, inProgress)), Some(Count(ts, resolved)))
  }

  /** The list state starts out `null` and the page never sets it, so what it
      renders is the empty state with blank counters. */
  const Tickets: Option<seq<Request>> := None

  lemma AlwaysEmptyState()
    ensures RecentTickets(Tickets) == []
    ensures StatsOf(Tickets) == ClientStats(None, None, None, None)
  {
  }

  /** The "Ver" link of a row. */
  function DetailLink(id: Option<string>): (to: string)
    ensures to == "/dashboard/cliente/mis-solicitudes/" + IdText(id)
  {
    "/dashboard/cliente/mis-solicitudes/" + IdText(id)
  }

  /** A row's link opens the detail page for its id. */
  lemma DetailLinkOpensDetail(id: Option<string>, caseSensitive: bool)
    requires id.Some? ==> id.value != "" && '/' !in id.value
    ensures R.Resolve(DetailLink(id), caseSensitive) == R.Show(R.RequestDetail, [IdText(id)])
  {
    R.ClientDetailRoute(IdText(id), caseSensitive);
  }
}

=== FILE: detail.dfy ===
/** src/components/client/DetalleSolicitud.tsx: one request seen by its
    client — the not-found fallback, the response timeline, and the reply
    box, whose send handler waits, announces success and clears the draft
    without sending anything. */
module RequestDetail {
  import opened Base
  import opened Domain
  import Text
  import Labels
  import R = Routes
  import N = Navigation

  /** The page: the loaded request (`null` until the fetch answers, and when
      the server answers `null`), the reply draft and whether a send is in flight. */
  datatype Page = Page(request: Option<Request>, draft: string, sending: bool)

  const Initial: Page := Page(None, "", false)

  const MyRequestsLink: string := "/dashboard/cliente/mis-solicitudes"

  /** What the page does when it mounts. */
  datatype Mount = FetchOne(id: string) | Leave(toast: Toast, to: string)

  /** The mount effect: with an id in the URL the request is fetched;
      without one the page complains and goes back to the client's list. */
  function OnMount(id: Option<string>): (m: Mount)
    ensures id.Some? && id.value != "" ==> m == FetchOne(id.value)
    ensures id.None? || id.value == "" ==> m.Leave? && m.toast.Failure? && m.to == MyRequestsLink
  {
    if id.Some? && id.value != "" then FetchOne(id.value)
    else Leave(Failure("ID de solicitud no proporcionado"), MyRequestsLink)
  }

  /** How the fetch of one request settled: the reply's `request` (possibly
      `null`), or a rejected call, which nothing catches. */
  datatype Answer = Answered(request: Option<Request>) | Rejected

  /** `getRequestById`: the reply's request is stored whatever its `success`
      flag says; a rejected call leaves the page as it was. */
  function Loaded(p: Page, a: Answer): (q: Page)
    ensures a.Answered? ==> q.request == a.request
    ensures a.Rejected? ==> q == p
    ensures q.draft == p.draft && q.sending == p.sending
  {
    match a
    case Answered(r) => p.(request := r)
    case Rejected => p
  }

  /** The reply box is shown unless the request is closed or cancelled. */
  predicate ReplyAllowed(s: Status) {
    s != CLOSED && s != CANCELLED
  }

  /** Replying is allowed for exactly the three statuses a request can still
      move on from. */
  lemma ReplyAllowedStatuses(s: Status)
    ensures ReplyAllowed(s) <==> s == PENDING || s == IN_PROGRESS || s == RESOLVED
  {
  }

  /** The send button's `disabled`: a draft that trims to nothing, or a send
      already in flight. */
  predicate SendDisabled(p: Page) {
    Text.Trim(p.draft) == "" || p.sending
  }

  /** The button is disabled exactly when the draft is blank (all white
      space, or empty) or a send is in flight. */
  lemma SendDisabledIff(p: Page)
    ensures SendDisabled(p) <==> Text.AllSpace(p.draft) || p.sending
  {
    Text.TrimEmptyIffBlank(p.draft);
  }

  /** What pressing "Enviar Respuesta" does: nothing, or a send that shows
      the page `during` the one-second wait and `after` it, with a toast. */
  datatype SendOutcome = Ignored | Sent(during: Page, after: Page, toast: Toast)

  /** `handleSendResponse`: a draft that trims to nothing is ignored.
      Otherwise the page is marked as sending, and after the wait the draft
      is cleared, sending ends and success is announced. The request and its
      responses are never touched: no call is made. */
  function Send(p: Page): (o: SendOutcome)
    ensures o.Ignored? <==> Text.AllSpace(p.draft)
    ensures o.Sent? ==> o.during == p.(sending := true)
    ensures o.Sent? ==> o.after == Page(p.request, "", false)
    ensures o.Sent? ==> o.toast == Success("Respuesta enviada correctamente")
  {
    Text.TrimEmptyIffBlank(p.draft);
    if Text.Trim(p.draft) == "" then Ignored
    else Sent(p.(sending := true), Page(p.request, "", false), Success("Respuesta enviada correctamente"))
  }

  /** An enabled button always sends, and the box is ready for the next
      reply afterwards: empty, so its button is disabled again. */
  lemma EnabledButtonSends(p: Page)
    requires !SendDisabled(p)
    ensures Send(p).Sent?
    ensures SendDisabled(Send(p).during)
    ensures SendDisabled(Send(p).after) && !Send(p).after.sending
  {
    SendDisabledIff(p);
    SendDisabledIff(Send(p).after);
  }

  /** `request.responses || []`. */
  function Responses(r: Request): (rs: seq<Response>)
    ensures r.responses.None? ==> rs == []
    ensures r.responses.Some? ==> rs == r.responses.value
  {
    r.responses.GetOr([])
  }

  /** One timeline entry: the response's text, the name and role caption it
      is shown under, and whether a separator follows it. */
  datatype Entry = Entry(content: Option<string>, author: Option<string>, roleCaption: string, separator: bool)

  /** The timeline. Every response is shown under the viewer's own name and
      role (the response's author is not read); a separator follows every
      entry but the last. */
  function Timeline(rs: seq<Response>, viewer: Option<User>): (es: seq<Entry>)
    ensures |es| == |rs|
    ensures forall i :: 0 <= i < |es| ==> es[i].content == rs[i].content
    ensures forall i :: 0 <= i < |es| ==> (es[i].separator <==> i < |es| - 1)
    ensures forall i :: 0 <= i < |es| ==>
      es[i].author == (if viewer.Some? then Some(viewer.value.name) else None)
    ensures forall i :: 0 <= i < |es| ==>
      es[i].roleCaption == Labels.RoleLabel(if viewer.Some? then viewer.value.role else CLIENT)
  {
    var role := if viewer.Some? then viewer.value.role else CLIENT;
    seq(|rs|, i requires 0 <= i < |rs| =>
      Entry(rs[i].content,
            if viewer.Some? then Some(viewer.value.name) else None,
            Labels.RoleLabel(role),
            i < |rs| - 1))
  }

  /** n responses are separated by n - 1 separators, and none is drawn for
      a single response or none. */
  lemma SeparatorCount(rs: seq<Response>, viewer: Option<User>)
    ensures var es := Timeline(rs, viewer);
      Count(es, (e: Entry) => e.separator) == if |rs| == 0 then 0 else |rs| - 1
  {
    var es := Timeline(rs, viewer);
    var p := (e: Entry) => e.separator;
    if |es| > 0 {
      var init := es[..|es| - 1];
      assert es == init + [es[|es| - 1]];
      CountConcat(init, [es[|es| - 1]], p);
      assert [es[|es| - 1]][1..] == [];
      CountAll(init, p);
    }
  }

  /** The category caption as written: `getCategoryLabel` looks the code up
      among mock-data's `TicketCategory` keys, a missing category reading as
      SUPPORT_TECHNICAL; any other code has no caption (the badge is blank). */
  function CategoryCaptionAsWritten(category: Option<string>): (shown: Option<string>)
    ensures category.None? || category.value == "" ==> shown == Some(Labels.CategoryLabel(Labels.SUPPORT_TECHNICAL))
  {
    var code := OrElse(category, "SUPPORT_TECHNICAL");
    if code == "SUPPORT_TECHNICAL" then Some("Soporte Técnico")
    else if code == "GENERAL_INQUIRY" then Some("Consulta General")
    else if code == "ACCESS_ISSUE" then Some("Problema de Acceso")
    else if code == "BILLING" then Some("Facturación")
    else if code == "OTHER" then Some("Otro")
    else None
  }

  /** The lookup as written labels every `TicketCategory` code correctly… */
  lemma AsWrittenLabelsTicketCategories(c: Labels.TicketCategory)
    ensures CategoryCaptionAsWritten(Some(Labels.TicketCategoryCode(c))) == Some(Labels.CategoryLabel(c))
  {
  }

  /** …but the new-request form stores TECHNICAL_SUPPORT, which it does not
      know: such a request's category badge is blank. */
  lemma FormTechnicalCategoryShowsBlank()
    ensures CategoryCaptionAsWritten(Some("TECHNICAL_SUPPORT")).None?
  {
  }

  /** The caption as intended: looked up among the codes the form submits
      (`RequestCategory`), a missing category still reading as technical support. */
  function CategoryCaption(category: Option<string>): (shown: Option<string>)
    ensures category.None? || category.value == "" ==> shown == Some(Labels.CategoryLabel(Labels.SUPPORT_TECHNICAL))
    ensures category.Some? && category.value != "" ==> shown == Labels.RequestCategoryLabel(category.value)
  {
    if category.Some? && category.value != "" then Labels.RequestCategoryLabel(category.value)
    else Some("Soporte Técnico")
  }

  /** The codes the form offers, in its order. */
  const FormCategoryCodes: seq<string> := ["TECHNICAL_SUPPORT", "GENERAL_INQUIRY", "ACCESS_ISSUE", "BILLING", "OTHER"]

  /** With the intended lookup every category the form can submit gets a
      caption, and the five captions are distinct. */
  lemma FormCategoriesCaptioned()
    ensures forall k :: 0 <= k < |FormCategoryCodes| ==> CategoryCaption(Some(FormCategoryCodes[k])).Some?
    ensures forall j, k :: 0 <= j < k < |FormCategoryCodes| ==>
      CategoryCaption(Some(FormCategoryCodes[j])) != CategoryCaption(Some(FormCategoryCodes[k]))
  {
    assert CategoryCaption(Some(FormCategoryCodes[0])) == Some("Soporte Técnico");
    assert CategoryCaption(Some(FormCategoryCodes[1])) == Some("Consulta General");
    assert CategoryCaption(Some(FormCategoryCodes[2])) == Some("Problema de Acceso");
    assert CategoryCaption(Some(FormCategoryCodes[3])) == Some("Facturación");
    assert CategoryCaption(Some(FormCategoryCodes[4])) == Some("Otro");
  }

  /** What the page renders. */
  datatype View =
    | NotFound(back: string)
    | Detail(title: string, category: Option<string>, entries: seq<Entry>,
             replyBox: bool, sendDisabled: bool, sendCaption: string)

  /** The page: "Solicitud no encontrada" with a link back to the list while
      there is no request; otherwise the request's timeline, its category
      caption, and the reply box when replying is allowed. */
  function ViewOf(p: Page, viewer: Option<User>): (v: View)
    ensures v.NotFound? <==> p.request.None?
    ensures v.NotFound? ==> v.back == MyRequestsLink
    ensures v.Detail? ==> v.title == "Solicitud " + IdText(p.request.value.id)
    ensures v.Detail? ==> v.entries == Timeline(Responses(p.request.value), viewer)
    ensures v.Detail? ==> (v.replyBox <==> ReplyAllowed(p.request.value.status))
    ensures v.Detail? ==> (v.sendDisabled <==> Text.AllSpace(p.draft) || p.sending)
    ensures v.Detail? ==> (v.sendCaption == "Enviando..." <==> p.sending)
    ensures v.Detail? ==> v.category == CategoryCaption(p.request.value.category)
  {
    SendDisabledIff(p);
    match p.request
    case None => NotFound(MyRequestsLink)
    case Some(r) =>
      Detail("Solicitud " + IdText(r.id), CategoryCaption(r.category),
             Timeline(Responses(r), viewer), ReplyAllowed(r.status),
             SendDisabled(p), if p.sending then "Enviando..." else "Enviar Respuesta")
  }

  /** The page as written: identical to `ViewOf` except that its category
      badge comes from the as-written lookup. */
  function ViewOfAsWritten(p: Page, viewer: Option<User>): (v: View)
    ensures v.NotFound? <==> p.request.None?
    ensures v.NotFound? ==> v == ViewOf(p, viewer)
    ensures v.Detail? ==> v.category == CategoryCaptionAsWritten(p.request.value.category)
    ensures v.Detail? ==> v.(category := ViewOf(p, viewer).category) == ViewOf(p, viewer)
  {
    var v := ViewOf(p, viewer);
    if v.Detail? then v.(category := CategoryCaptionAsWritten(p.request.value.category)) else v
  }

  /** A request filed through the form under "Soporte Técnico" carries
      TECHNICAL_SUPPORT: the page as written shows a blank category badge,
      where the intended page shows "Soporte Técnico". */
  lemma FormRequestBadgeBlankAsWritten(p: Page, viewer: Option<User>)
    requires p.request.Some? && p.request.value.category == Some("TECHNICAL_SUPPORT")
    ensures ViewOfAsWritten(p, viewer).Detail? && ViewOfAsWritten(p, viewer).category.None?
    ensures ViewOf(p, viewer).Detail? && ViewOf(p, viewer).category == Some("Soporte Técnico")
  {
    FormTechnicalCategoryShowsBlank();
    assert CategoryCaption(Some(FormCategoryCodes[0])) == Some("Soporte Técnico");
  }

  /** Sending a reply never shows it: the timeline before and after is the same. */
  lemma SendAddsNoResponse(p: Page, viewer: Option<User>)
    requires Send(p).Sent?
    ensures ViewOf(Send(p).after, viewer).NotFound? == ViewOf(p, viewer).NotFound?
    ensures ViewOf(p, viewer).Detail? ==> ViewOf(Send(p).after, viewer).entries == ViewOf(p, viewer).entries
  {
  }

  /** The not-found view's link and the mount effect's redirect both open
      the client's list. */
  lemma BackLinksOpenList(caseSensitive: bool)
    ensures R.Resolve(ViewOf(Initial, None).back, caseSensitive) == R.Show(R.MyRequests, [])
    ensures R.Resolve(OnMount(None).to, caseSensitive) == R.Show(R.MyRequests, [])
  {
    N.MyRequestsPath(caseSensitive);
  }
}

=== FILE: domain.dfy ===
/** The entities every screen shares: roles, ticket statuses and priorities as
    closed enumerations with their wire codes, and the `User` and `Request`
    records. Fields the source declares optional (`?:`) are `Option`s;
    timestamps are integers (milliseconds). */
module Domain {
  import opened Base

  /** `UserRole`: the three mutually exclusive roles. */
  datatype Role = CLIENT | SUPPORT | ADMIN

  /** `IRequests.status` / `TicketStatus`. */
  datatype Status = PENDING | IN_PROGRESS | RESOLVED | CLOSED | CANCELLED

  /** `IRequests.priority`: the priorities a request really carries. */
  datatype Priority = LOW | MEDIUM | HIGH | CRITICAL

  const AllRoles: seq<Role> := [CLIENT, SUPPORT, ADMIN]
  const AllStatuses: seq<Status> := [PENDING, IN_PROGRESS, RESOLVED, CLOSED, CANCELLED]
  const AllPriorities: seq<Priority> := [LOW, MEDIUM, HIGH, CRITICAL]

  function RoleCode(r: Role): string {
    match r
    case CLIENT => "CLIENT"
    case SUPPORT => "SUPPORT"
    case ADMIN => "ADMIN"
  }

  function StatusCode(s: Status): string {
    match s
    case PENDING => "PENDING"
    case IN_PROGRESS => "IN_PROGRESS"
    case RESOLVED => "RESOLVED"
    case CLOSED => "CLOSED"
    case CANCELLED => "CANCELLED"
  }

  function PriorityCode(p: Priority): string {
    match p
    case LOW => "LOW"
    case MEDIUM => "MEDIUM"
    case HIGH => "HIGH"
    case CRITICAL => "CRITICAL"
  }

  /** `z.enum(["ADMIN", "SUPPORT", "CLIENT"])`: a code names a role iff it is
      one of the three codes, and then it names exactly that role. */
  function ParseRole(code: string): (r: Option<Role>)
    ensures r.Some? ==> RoleCode(r.value) == code
    ensures r.None? ==> forall x: Role :: RoleCode(x) != code
  {
    if code == "CLIENT" then Some(CLIENT)
    else if code == "SUPPORT" then Some(SUPPORT)
    else if code == "ADMIN" then Some(ADMIN)
    else None
  }

  /** A status code names a status iff it is one of the five codes. */
  function ParseStatus(code: string): (r: Option<Status>)
    ensures r.Some? ==> StatusCode(r.value) == code
    ensures r.None? ==> forall x: Status :: StatusCode(x) != code
  {
    if code == "PENDING" then Some(PENDING)
    else if code == "IN_PROGRESS" then Some(IN_PROGRESS)
    else if code == "RESOLVED" then Some(RESOLVED)
    else if code == "CLOSED" then Some(CLOSED)
    else if code == "CANCELLED" then Some(CANCELLED)
    else None
  }

  /** `z.enum(["LOW", "MEDIUM", "HIGH", "CRITICAL"])`. */
  function ParsePriority(code: string): (r: Option<Priority>)
    ensures r.Some? ==> PriorityCode(r.value) == code
    ensures r.None? ==> forall x: Priority :: PriorityCode(x) != code
  {
    if code == "LOW" then Some(LOW)
    else if code == "MEDIUM" then Some(MEDIUM)
    else if code == "HIGH" then Some(HIGH)
    else if code == "CRITICAL" then Some(CRITICAL)
    else None
  }

  /** Encoding then parsing is the identity on all three enumerations. */
  lemma ParseCodeRoundTrip(r: Role, s: Status, p: Priority)
    ensures ParseRole(RoleCode(r)) == Some(r)
    ensures ParseStatus(StatusCode(s)) == Some(s)
    ensures ParsePriority(PriorityCode(p)) == Some(p)
  {
  }

  /** "Resolved" on every dashboard means RESOLVED or CLOSED. */
  predicate IsResolved(s: Status) {
    s == RESOLVED || s == CLOSED
  }

  /** `IUser` as the screens see it. A missing `active` reads as false. */
  datatype User = User(
    id: string,
    name: string,
    email: string,
    role: Role,
    active: bool,
    createdAt: Option<int>)

  /** The owner embedded in a request (`IRequests.user`). */
  datatype Owner = Owner(id: string, email: string, name: string)

  /** One entry of `IRequests.responses`. */
  datatype Response = Response(id: Option<string>, content: Option<string>, createdAt: Option<int>)

  /** `IRequests`; `responses` may be absent or null, both `None`. */
  datatype Request = Request(
    id: Option<string>,
    title: string,
    description: string,
    category: Option<string>,
    priority: Priority,
    status: Status,
    createdAt: Option<int>,
    updatedAt: Option<int>,
    user: Option<Owner>,
    responses: Option<seq<Response>>)

  /** The result of a list fetch: the reply's `success` flag decides between
      the first two; `Thrown` is a rejected promise (network failure) that the
      calling handler does not catch. */
  datatype Fetch<T> = Fetched(items: T) | Refused(message: Option<string>) | Thrown
  /** The reply of a mutating call (create, update, respond): the body's
      `success` flag, and its `message` when it failed. */
  datatype Ack = Ok | Failed(message: Option<string>)

  /** JavaScript's `text || fallback` on a string that may be absent: a
      missing or empty text (a server message, a status or category code)
      yields the fallback. */
  function OrElse(text: Option<string>, fallback: string): (r: string)
    ensures text.Some? && text.value != "" ==> r == text.value
    ensures text.None? || text.value == "" ==> r == fallback
  {
    if text.Some? && text.value != "" then text.value else fallback
  }

  /** A `toast.success` or `toast.error` notification. */
  datatype Toast = Success(text: string) | Failure(text: string)

  /** A request id as a template literal prints it: absent, it reads "undefined". */
  function IdText(id: Option<string>): (t: string)
    ensures id.Some? ==> t == id.value
    ensures id.None? ==> t == "undefined"
  {
    if id.Some? then id.value else "undefined"
  }
}

=== FILE: guards.dfy ===
/** src/components/ProtectedRoute.tsx and src/components/PublicRoute.tsx: the
    two route guards as pure decisions on the stored user. Each file carries
    its own copy of the role-to-dashboard map. */
module Guards {
  import opened Base
  import opened Domain

  /** What a guard renders: its children, or a `<Navigate>` to `path`. */
  datatype Decision = Render | RedirectTo(path: string)

  /** ProtectedRoute's `dashboardByRole`. */
  function ProtectedDashboard(r: Role): string {
    match r
    case CLIENT => "/dashboard/cliente"
    case SUPPORT => "/dashboard/soporte"
    case ADMIN => "/dashboard/admin"
  }

  /** PublicRoute's `dashboardByRole`. */
  function PublicDashboard(r: Role): string {
    match r
    case CLIENT => "/dashboard/cliente"
    case SUPPORT => "/dashboard/soporte"
    case ADMIN => "/dashboard/admin"
  }

  /** `ProtectedRoute`: no user goes to "/login"; a user whose role is not in a
      given `allowedRoles` goes to their own dashboard; otherwise the page
      renders. An absent list admits every signed-in user, while an empty
      list (truthy in JavaScript) admits none. */
  function ProtectedRoute(user: Option<User>, allowedRoles: Option<seq<Role>>): (d: Decision)
    ensures user.None? ==> d == RedirectTo("/login")
    ensures user.Some? && allowedRoles.None? ==> d == Render
    ensures user.Some? && allowedRoles.Some? ==>
      (d == Render <==> user.value.role in allowedRoles.value)
    ensures user.Some? && d.RedirectTo? ==> d.path == ProtectedDashboard(user.value.role)
  {
    match user
    case None => RedirectTo("/login")
    case Some(u) =>
      if allowedRoles.Some? && u.role !in allowedRoles.value then
        RedirectTo(ProtectedDashboard(u.role))
      else Render
  }

  /** `PublicRoute`: only an anonymous visitor sees the public page; a signed-in
      user goes to their dashboard. */
  function PublicRoute(user: Option<User>): (d: Decision)
    ensures d == Render <==> user.None?
    ensures user.Some? ==> d == RedirectTo(PublicDashboard(user.value.role))
  {
    match user
    case None => Render
    case Some(u) => RedirectTo(PublicDashboard(u.role))
  }

  /** Different roles land on different dashboards, none of them the login page. */
  lemma DashboardByRoleInjective()
    ensures forall a: Role, b: Role :: ProtectedDashboard(a) == ProtectedDashboard(b) ==> a == b
    ensures forall a: Role :: ProtectedDashboard(a) != "/login"
  {
  }

  /** A signed-in user is never sent to the login page by ProtectedRoute,
      whatever `allowedRoles` is. */
  lemma SignedInNeverSentToLogin(u: User, allowedRoles: Option<seq<Role>>)
    ensures ProtectedRoute(Some(u), allowedRoles) != RedirectTo("/login")
  {
    DashboardByRoleInjective();
  }

  /** `allowedRoles={[]}` sends every signed-in user to their own dashboard. */
  lemma EmptyAllowListRedirectsEveryone(u: User)
    ensures ProtectedRoute(Some(u), Some([])) == RedirectTo(ProtectedDashboard(u.role))
  {
  }

  /** For a signed-in user, PublicRoute redirects exactly where ProtectedRoute
      redirects from a page their role may not see: the two copies of the map agree. */
  lemma GuardsRedirectAlike(u: User, allowedRoles: seq<Role>)
    requires u.role !in allowedRoles
    ensures PublicRoute(Some(u)) == ProtectedRoute(Some(u), Some(allowedRoles))
    ensures forall r: Role :: PublicDashboard(r) == ProtectedDashboard(r)
  {
  }
}

=== FILE: labels.dfy ===
/** Display tables: the label helpers of src/lib/mock-data.ts and the badge
    `variants` tables of StatusBadge and PriorityBadge, together with the two
    taxonomies mock-data.ts declares beside the ones requests really use.
    The inconsistencies are kept: mock-data's `TicketPriority` says URGENT where
    requests say CRITICAL, and its `TicketCategory` says SUPPORT_TECHNICAL where
    the request form says TECHNICAL_SUPPORT. */
module Labels {
  import opened Base
  import D = Domain

  /** mock-data.ts `TicketPriority`. */
  datatype TicketPriority = LOW | MEDIUM | HIGH | URGENT

  /** mock-data.ts `TicketCategory`. */
  datatype TicketCategory = SUPPORT_TECHNICAL | GENERAL_INQUIRY | ACCESS_ISSUE | BILLING | OTHER

  function TicketPriorityCode(p: TicketPriority): string {
    match p
    case LOW => "LOW"
    case MEDIUM => "MEDIUM"
    case HIGH => "HIGH"
    case URGENT => "URGENT"
  }

  function TicketCategoryCode(c: TicketCategory): string {
    match c
    case SUPPORT_TECHNICAL => "SUPPORT_TECHNICAL"
    case GENERAL_INQUIRY => "GENERAL_INQUIRY"
    case ACCESS_ISSUE => "ACCESS_ISSUE"
    case BILLING => "BILLING"
    case OTHER => "OTHER"
  }

  /** `getCategoryLabel`. */
  function CategoryLabel(c: TicketCategory): string {
    match c
    case SUPPORT_TECHNICAL => "Soporte Técnico"
    case GENERAL_INQUIRY => "Consulta General"
    case ACCESS_ISSUE => "Problema de Acceso"
    case BILLING => "Facturación"
    case OTHER => "Otro"
  }

  /** `getStatusLabel`. */
  function StatusLabel(s: D.Status): string {
    match s
    case PENDING => "Pendiente"
    case IN_PROGRESS => "En Proceso"
    case RESOLVED => "Resuelto"
    case CLOSED => "Cerrado"
    case CANCELLED => "Cancelado"
  }

  /** `getPriorityLabel`, keyed by mock-data's `TicketPriority`. */
  function PriorityLabel(p: TicketPriority): string {
    match p
    case LOW => "Baja"
    case MEDIUM => "Media"
    case HIGH => "Alta"
    case URGENT => "Urgente"
  }

  /** `getRoleLabel`. */
  function RoleLabel(r: D.Role): string {
    match r
    case CLIENT => "Cliente"
    case SUPPORT => "Soporte"
    case ADMIN => "Administrador"
  }

  /** Every label helper is total and non-empty, and no two values of one
      enumeration share a label. */
  lemma LabelsDistinct()
    ensures forall a: D.Status, b: D.Status :: StatusLabel(a) == StatusLabel(b) ==> a == b
    ensures forall a: D.Role, b: D.Role :: RoleLabel(a) == RoleLabel(b) ==> a == b
    ensures forall a: TicketCategory, b: TicketCategory :: CategoryLabel(a) == CategoryLabel(b) ==> a == b
    ensures forall a: TicketPriority, b: TicketPriority :: PriorityLabel(a) == PriorityLabel(b) ==> a == b
    ensures forall a: D.Status :: |StatusLabel(a)| > 0
    ensures forall a: D.Role :: |RoleLabel(a)| > 0
    ensures forall a: TicketCategory :: |CategoryLabel(a)| > 0
    ensures forall a: TicketPriority :: |PriorityLabel(a)| > 0
  {
  }

  /** `RequestCategory` (the object whose keys the request form submits) maps
      a category code to its label; any other code has none. */
  function RequestCategoryLabel(code: string): Option<string> {
    if code == "TECHNICAL_SUPPORT" then Some("Soporte Técnico")
    else if code == "GENERAL_INQUIRY" then Some("Consulta General")
    else if code == "ACCESS_ISSUE" then Some("Problema de Acceso")
    else if code == "BILLING" then Some("Facturación")
    else if code == "OTHER" then Some("Otro")
    else None
  }

  /** The two category taxonomies disagree on the technical-support code while
      giving it the same label: SUPPORT_TECHNICAL is no `RequestCategory` key,
      TECHNICAL_SUPPORT is no `TicketCategory` code. The other four agree. */
  lemma CategoryTaxonomiesDisagree()
    ensures RequestCategoryLabel(TicketCategoryCode(SUPPORT_TECHNICAL)).None?
    ensures forall c: TicketCategory :: TicketCategoryCode(c) != "TECHNICAL_SUPPORT"
    ensures RequestCategoryLabel("TECHNICAL_SUPPORT") == Some(CategoryLabel(SUPPORT_TECHNICAL))
    ensures forall c: TicketCategory :: c != SUPPORT_TECHNICAL ==>
      RequestCategoryLabel(TicketCategoryCode(c)) == Some(CategoryLabel(c))
  {
  }

  /** One row of a badge `variants` table: its `label` (here `caption`) and `className`. */
  datatype Variant = Variant(caption: string, className: string)

  /** StatusBadge's `variants`: a `Record<TicketStatus, ...>`, one row per status. */
  function StatusVariant(s: D.Status): Variant {
    match s
    case PENDING => Variant("Pendiente", "bg-yellow-100 text-yellow-800 border-yellow-300")
    case IN_PROGRESS => Variant("En Proceso", "bg-blue-100 text-blue-800 border-blue-300")
    case RESOLVED => Variant("Resuelto", "bg-green-100 text-green-800 border-green-300")
    case CLOSED => Variant("Cerrado", "bg-gray-100 text-gray-800 border-gray-300")
    case CANCELLED => Variant("Cancelado", "bg-red-100 text-red-800 border-red-300")
  }

  /** StatusBadge: `variants[status]` for whatever code the request carried; a
      code outside the table yields no variant, so the badge renders without
      label or class. */
  function StatusBadge(code: string): (r: Option<Variant>)
    ensures r.Some? <==> D.ParseStatus(code).Some?
    ensures r.Some? ==> r.value.caption == StatusLabel(D.ParseStatus(code).value)
  {
    match D.ParseStatus(code)
    case Some(s) => Some(StatusVariant(s))
    case None => None
  }

  /** PriorityBadge's `variants`, keyed by the request priorities
      LOW/MEDIUM/HIGH/CRITICAL, not by `TicketPriority`. */
  function PriorityVariant(p: D.Priority): Variant {
    match p
    case LOW => Variant("Baja", "bg-green-100 text-green-800 border-green-300")
    case MEDIUM => Variant("Media", "bg-yellow-100 text-yellow-800 border-yellow-300")
    case HIGH => Variant("Alta", "bg-orange-100 text-orange-800 border-orange-300")
    case CRITICAL => Variant("Urgente", "bg-red-100 text-red-800 border-red-300")
  }

  /** PriorityBadge: `variants[priority]`; total on request priorities, and
      URGENT, mock-data's name for the top priority, has no row. */
  function PriorityBadge(code: string): (r: Option<Variant>)
    ensures r.Some? <==> D.ParsePriority(code).Some?
    ensures code == TicketPriorityCode(URGENT) ==> r.None?
  {
    match D.ParsePriority(code)
    case Some(p) => Some(PriorityVariant(p))
    case None => None
  }

  /** Both badge tables are total over their enumeration. */
  lemma BadgesTotal()
    ensures forall s: D.Status :: StatusBadge(D.StatusCode(s)) == Some(StatusVariant(s))
    ensures forall p: D.Priority :: PriorityBadge(D.PriorityCode(p)) == Some(PriorityVariant(p))
  {
    forall s: D.Status { D.ParseCodeRoundTrip(D.CLIENT, s, D.LOW); }
    forall p: D.Priority { D.ParseCodeRoundTrip(D.CLIENT, D.PENDING, p); }
  }

  /** Within the status table no two rows share a label or a class name. */
  lemma StatusVariantsDistinct()
    ensures forall a: D.Status, b: D.Status :: a != b ==> StatusVariant(a).caption != StatusVariant(b).caption
    ensures forall a: D.Status, b: D.Status :: a != b ==> StatusVariant(a).className != StatusVariant(b).className
  {
  }

  /** Within the priority table no two rows share a label or a class name. */
  lemma PriorityVariantsDistinct()
    ensures forall a: D.Priority, b: D.Priority :: a != b ==> PriorityVariant(a).caption != PriorityVariant(b).caption
    ensures forall a: D.Priority, b: D.Priority :: a != b ==> PriorityVariant(a).className != PriorityVariant(b).className
  {
  }

  /** The priority badge agrees with `getPriorityLabel` on LOW, MEDIUM and HIGH,
      and shows CRITICAL with the label `getPriorityLabel` gives URGENT. */
  lemma PriorityBadgeMatchesLabels()
    ensures PriorityBadge(D.PriorityCode(D.LOW)).value.caption == PriorityLabel(LOW)
    ensures PriorityBadge(D.PriorityCode(D.MEDIUM)).value.caption == PriorityLabel(MEDIUM)
    ensures PriorityBadge(D.PriorityCode(D.HIGH)).value.caption == PriorityLabel(HIGH)
    ensures PriorityBadge(D.PriorityCode(D.CRITICAL)).value.caption == PriorityLabel(URGENT)
    ensures D.ParsePriority(TicketPriorityCode(URGENT)).None?
  {
  }
  /** The noun after a request count in a list title. */
  function RequestsNoun(n: nat): (noun: string)
    ensures noun == "Solicitud" <==> n == 1
    ensures n != 1 ==> noun == "Solicitudes"
  {
    if n == 1 then "Solicitud" else "Solicitudes"
  }
}

=== FILE: layout.dfy ===
/** src/components/layouts/DashboardLayout.tsx: the role menu, the active
    item, logout, breadcrumbs and the logo link of the shell every dashboard
    page renders in. */
module Layout {
  import opened Base
  import opened Text
  import opened Domain
  import opened Session
  import G = Guards
  import R = Routes

  /** A sidebar entry: its `label` (here `caption`) and `path`. */
  datatype MenuItem = MenuItem(caption: string, path: string)

  /** `getMenuItems(user?.role)`: the role's entries; no user, no entries. */
  function Menu(role: Option<Role>): (items: seq<MenuItem>)
    ensures |items| == 0 <==> role.None?
    ensures role == Some(SUPPORT) ==> |items| == 3
    ensures role == Some(CLIENT) || role == Some(ADMIN) ==> |items| == 4
  {
    match role
    case None => []
    case Some(CLIENT) => [
      MenuItem("Dashboard", "/dashboard/cliente"),
      MenuItem("Nueva Solicitud", "/dashboard/cliente/nueva-solicitud"),
      MenuItem("Mis Solicitudes", "/dashboard/cliente/mis-solicitudes"),
      MenuItem("Mi Perfil", "/dashboard/cliente/perfil")]
    case Some(SUPPORT) => [
      MenuItem("Dashboard", "/dashboard/soporte"),
      MenuItem("Todas las Solicitudes", "/dashboard/soporte/todas"),
      MenuItem("Mi Perfil", "/dashboard/soporte/perfil")]
    case Some(ADMIN) => [
      MenuItem("Dashboard", "/dashboard/admin"),
      MenuItem("Todas las Solicitudes", "/dashboard/admin/solicitudes"),
      MenuItem("Usuarios", "/dashboard/admin/usuarios"),
      MenuItem("Reportes", "/dashboard/admin/reportes")]
  }

  /** No two entries of one menu share a path. */
  predicate DistinctPaths(items: seq<MenuItem>) {
    forall i, j :: 0 <= i < j < |items| ==> items[i].path != items[j].path
  }

  /** Each role's menu starts at the dashboard ProtectedRoute sends the role
      to, keeps every entry under it, and lists no path twice. */
  lemma MenuShape(role: Role)
    ensures Menu(Some(role))[0].path == G.ProtectedDashboard(role)
    ensures forall k :: 0 <= k < |Menu(Some(role))| ==> StartsWith(Menu(Some(role))[k].path, G.ProtectedDashboard(role))
    ensures DistinctPaths(Menu(Some(role)))
  {
    match role
    case CLIENT => ClientMenuShape();
    case SUPPORT => SupportMenuShape();
    case ADMIN => AdminMenuShape();
  }

  /** `MenuShape` for each role in turn. */
  lemma ClientMenuShape()
    ensures var items := Menu(Some(CLIENT));
      && items[0].path == G.ProtectedDashboard(CLIENT)
      && (forall k :: 0 <= k < |items| ==> StartsWith(items[k].path, G.ProtectedDashboard(CLIENT)))
      && DistinctPaths(items)
  {
  }

  lemma SupportMenuShape()
    ensures var items := Menu(Some(SUPPORT));
      && items[0].path == G.ProtectedDashboard(SUPPORT)
      && (forall k :: 0 <= k < |items| ==> StartsWith(items[k].path, G.ProtectedDashboard(SUPPORT)))
      && DistinctPaths(items)
  {
  }

  lemma AdminMenuShape()
    ensures var items := Menu(Some(ADMIN));
      && items[0].path == G.ProtectedDashboard(ADMIN)
      && (forall k :: 0 <= k < |items| ==> StartsWith(items[k].path, G.ProtectedDashboard(ADMIN)))
      && DistinctPaths(items)
  {
  }

  /** `isActivePath`: exact pathname equality, so "/dashboard/cliente/" or a
      detail page under a menu path highlights nothing. */
  predicate IsActive(location: string, path: string) {
    location == path
  }

  /** How many entries are highlighted at `location`. */
  function ActiveCount(items: seq<MenuItem>, location: string): (n: nat)
    ensures n <= |items|
  {
    Count(items, (m: MenuItem) => IsActive(location, m.path))
  }

  /** With distinct paths at most one entry is highlighted, and one is exactly
      when the pathname is one of the menu's paths. */
  lemma {:induction false} AtMostOneActive(items: seq<MenuItem>, location: string)
    requires DistinctPaths(items)
    ensures ActiveCount(items, location) <= 1
    ensures ActiveCount(items, location) == 1 <==> exists k :: 0 <= k < |items| && items[k].path == location
  {
    var p := (m: MenuItem) => IsActive(location, m.path);
    if |items| > 0 {
      var rest := items[1..];
      assert DistinctPaths(rest) by {
        forall i, j | 0 <= i < j < |rest| ensures rest[i].path != rest[j].path {
          assert rest[i] == items[i + 1] && rest[j] == items[j + 1];
        }
      }
      AtMostOneActive(rest, location);
      assert items == [items[0]] + rest;
      CountConcat([items[0]], rest, p);
      assert Count([items[0]], p) == (if p(items[0]) then 1 else 0) by {
        assert [items[0]][1..] == [];
      }
      if p(items[0]) {
        assert forall k :: 0 <= k < |rest| ==> rest[k].path != location by {
          forall k | 0 <= k < |rest| ensures rest[k].path != location {
            assert rest[k] == items[k + 1];
          }
        }
        assert Count(rest, p) == 0;
      } else {
        if exists k :: 0 <= k < |items| && items[k].path == location {
          var k :| 0 <= k < |items| && items[k].path == location;
          assert k > 0 && rest[k - 1] == items[k];
        }
        if exists k :: 0 <= k < |rest| && rest[k].path == location {
          var k :| 0 <= k < |rest| && rest[k].path == location;
          assert items[k + 1] == rest[k];
        }
      }
    }
  }

  /** How `logoutApi()` settled: a reply with its `success` flag, or a rejection. */
  datatype LogoutReply = LogoutDone(success: bool) | LogoutThrew

  /** The browser state after `handleLogout` and where it navigated, if anywhere. */
  datatype LogoutResult = LogoutResult(browser: Browser, at: Option<string>)

  /** `handleLogout`: a successful reply clears the session and the token; any
      reply navigates to "/login", so a refused logout lands there with the
      session intact; a rejected request aborts the handler before it navigates. */
  function Logout(b: Browser, reply: LogoutReply): (r: LogoutResult)
    ensures reply == LogoutDone(true) ==>
      r.browser.store.user.None? && r.browser.token.None? && Consistent(r.browser.store)
    ensures reply != LogoutDone(true) ==> r.browser == b
    ensures r.at == Some("/login") <==> reply.LogoutDone?
    ensures r.at.None? <==> reply.LogoutThrew?
  {
    match reply
    case LogoutDone(success) =>
      var b' := if success then Browser(ClearUser(b.store), None) else b;
      LogoutResult(b', Some("/login"))
    case LogoutThrew => LogoutResult(b, None)
  }

  /** After a successful logout every protected page sends the visitor to the
      login page, and a reload does not bring the session back. */
  lemma LogoutEndsSession(b: Browser, allowedRoles: Option<seq<Role>>)
    ensures var r := Logout(b, LogoutDone(true));
      && G.ProtectedRoute(r.browser.store.user, allowedRoles) == G.RedirectTo("/login")
      && Rehydrate(r.browser.store).user.None?
  {
  }

  /** A breadcrumb as the page passes it. */
  datatype Crumb = Crumb(caption: string, path: Option<string>)

  /** A rendered breadcrumb: its text, the link target (a falsy path renders
      plain text) and whether a chevron follows it. */
  datatype CrumbView = CrumbView(caption: string, link: Option<string>, chevron: bool)

  /** The header's breadcrumb trail: nothing unless crumbs were passed and
      there is at least one; a chevron after every crumb but the last. */
  function Breadcrumbs(crumbs: Option<seq<Crumb>>): (r: seq<CrumbView>)
    ensures crumbs.None? ==> r == []
    ensures crumbs.Some? ==> |r| == |crumbs.value|
    ensures forall i :: 0 <= i < |r| ==> r[i].caption == crumbs.value[i].caption
    ensures forall i :: 0 <= i < |r| ==> (r[i].chevron <==> i < |r| - 1)
    ensures forall i :: 0 <= i < |r| ==>
      (r[i].link.Some? <==> crumbs.value[i].path.Some? && crumbs.value[i].path.value != "")
  {
    match crumbs
    case None => []
    case Some(cs) =>
      seq(|cs|, i requires 0 <= i < |cs| =>
        CrumbView(cs[i].caption,
                  if cs[i].path.Some? && cs[i].path.value != "" then cs[i].path else None,
                  i < |cs| - 1))
  }

  /** A trail of n crumbs shows n - 1 chevrons, and none when it is empty. */
  lemma ChevronCount(crumbs: seq<Crumb>)
    ensures var r := Breadcrumbs(Some(crumbs));
      Count(r, (v: CrumbView) => v.chevron) == if |r| == 0 then 0 else |r| - 1
  {
    var r := Breadcrumbs(Some(crumbs));
    var p := (v: CrumbView) => v.chevron;
    if |r| > 0 {
      var init := r[..|r| - 1];
      assert r == init + [r[|r| - 1]];
      CountConcat(init, [r[|r| - 1]], p);
      assert [r[|r| - 1]][1..] == [];
      CountAll(init, p);
    }
  }

  /** The logo's link as written: "/dashboard/" followed by the role code
      (`undefined` without a user). */
  function LogoLink(user: Option<User>): (path: string)
    ensures StartsWith(path, "/dashboard/")
    ensures user.Some? ==> path[|"/dashboard/"|..] == RoleCode(user.value.role)
  {
    "/dashboard/" + (if user.Some? then RoleCode(user.value.role) else "undefined")
  }

  /** The logo's link as evidently intended: the signed-in user's dashboard. */
  function LogoLinkIntended(user: Option<User>): (path: string)
    ensures user.Some? ==> path == Menu(Some(user.value.role))[0].path
  {
    if user.Some? then G.ProtectedDashboard(user.value.role) else "/login"
  }
}

=== FILE: login.dfy ===
/** src/components/Login.tsx: the credential form's schema and `handleSubmit`,
    as a function from the screen state and the server's reply to the next
    screen state, browser storage and navigation target. */
module Login {
  import opened Base
  import opened Domain
  import opened Session

  /** The form values. */
  datatype Credentials = Credentials(email: string, password: string)

  /** `loginSchema`: email 1..50 characters, password 1..100 characters. */
  predicate ValidCredentials(c: Credentials) {
    1 <= |c.email| <= 50 && 1 <= |c.password| <= 100
  }

  /** The form's `defaultValues`. */
  const DefaultCredentials: Credentials := Credentials("", "")

  /** How the POST to "/auth/login" settled: a 2xx reply with token and user;
      a reply outside 2xx (`error.response`) with its status and the body's
      `message`; a request that got no reply (`error.request`); or a failure
      before the request was sent. */
  datatype Reply =
    | LoggedIn(token: string, user: User)
    | ErrorStatus(status: int, message: Option<string>)
    | NoResponse
    | SetupFailure

  /** The screen's state: browser storage, the `loading` flag, the `error`
      text (shown when non-empty) and where the page navigated to, if anywhere. */
  datatype Screen = Screen(browser: Browser, loading: bool, error: string, at: Option<string>)

  /** The role-based redirect after a successful login: ADMIN and SUPPORT by
      name, anything else to the client dashboard. */
  function LandingFor(role: Role): string {
    if role == ADMIN then "/dashboard/admin"
    else if role == SUPPORT then "/dashboard/soporte"
    else "/dashboard/cliente"
  }

  /** The text `handleSubmit` leaves in `error` after a failure. */
  function FailureMessage(reply: Reply): (m: string)
    requires !reply.LoggedIn?
    ensures m != ""
  {
    match reply
    case ErrorStatus(status, message) =>
      var fallback := if message.Some? && message.value != "" then message.value else "Error en el login";
      if status == 401 then "Credenciales inválidas"
      else if status == 400 then "Email y contraseña son requeridos"
      else if status == 500 then "Error en el servidor. Intenta más tarde"
      else fallback
    case NoResponse => "No se pudo conectar con el servidor. Verifica tu conexión"
    case SetupFailure => "Error inesperado. Intenta de nuevo"
  }

  /** `handleSubmit` once the request settled. A success stores the token and
      the user and navigates to the role's dashboard, leaving any earlier
      error text in place; a failure touches no storage, stays on the page and
      shows a non-empty error. Either way `loading` ends false. */
  function HandleReply(s: Screen, reply: Reply): (r: Screen)
    ensures !r.loading
    ensures reply.LoggedIn? ==>
      && r.browser.store.user == Some(reply.user)
      && Consistent(r.browser.store)
      && r.browser.token == Some(reply.token)
      && r.at == Some(LandingFor(reply.user.role))
      && r.error == s.error
    ensures !reply.LoggedIn? ==>
      r.browser == s.browser && r.at == s.at && r.error != "" && r.error == FailureMessage(reply)
  {
    match reply
    case LoggedIn(token, user) =>
      var b := Browser(SetUser(s.browser.store, user), Some(token));
      Screen(b, false, s.error, Some(LandingFor(user.role)))
    case _ =>
      Screen(s.browser, false, FailureMessage(reply), s.at)
  }

  /** Submitting the form: while a login call is in flight the button is
      disabled, and the schema resolver keeps `handleSubmit` from running on
      invalid values, so in both cases nothing changes; otherwise the values
      are sent. */
  function Submit(s: Screen, c: Credentials, reply: Reply): (r: Screen)
    ensures s.loading || !ValidCredentials(c) ==> r == s
    ensures !s.loading && ValidCredentials(c) ==> !r.loading
    ensures !s.loading && ValidCredentials(c) && reply.LoggedIn? ==> r.browser.store.user == Some(reply.user)
    ensures !reply.LoggedIn? ==> r.browser == s.browser
  {
    if !s.loading && ValidCredentials(c) then HandleReply(s, reply) else s
  }

  /** The untouched form cannot be submitted. */
  lemma DefaultsRejected()
    ensures !ValidCredentials(DefaultCredentials)
  {
  }

  /** For 400, 401 and 500 the shown text is fixed: the server's message is
      ignored. For any other status a non-empty server message is shown as is. */
  lemma ServerMessageShownOnlyForOtherStatuses(status: int, a: Option<string>, b: Option<string>, msg: string)
    ensures status == 400 || status == 401 || status == 500 ==>
      FailureMessage(ErrorStatus(status, a)) == FailureMessage(ErrorStatus(status, b))
    ensures status != 400 && status != 401 && status != 500 && msg != "" ==>
      FailureMessage(ErrorStatus(status, Some(msg))) == msg
    ensures status != 400 && status != 401 && status != 500 ==>
      FailureMessage(ErrorStatus(status, None)) == FailureMessage(ErrorStatus(status, Some("")))
  {
  }

  /** The six failure texts tell the failure classes apart. */
  lemma FailureClassesDistinguishable()
    ensures var texts := [FailureMessage(ErrorStatus(401, None)), FailureMessage(ErrorStatus(400, None)),
                          FailureMessage(ErrorStatus(500, None)), FailureMessage(NoResponse),
                          FailureMessage(SetupFailure), FailureMessage(ErrorStatus(404, None))];
      forall i, j :: 0 <= i < j < |texts| ==> texts[i] != texts[j]
  {
  }

  /** A failed attempt never signs anyone in: with no session before, there is
      none after, and a reload finds none either. A successful one survives a reload. */
  lemma LoginSessionEffect(s: Screen, c: Credentials, reply: Reply)
    requires s.browser.store.user.None? && Consistent(s.browser.store)
    ensures !reply.LoggedIn? ==> Rehydrate(Submit(s, c, reply).browser.store).user.None?
    ensures !s.loading && ValidCredentials(c) && reply.LoggedIn? ==>
      Rehydrate(Submit(s, c, reply).browser.store).user == Some(reply.user)
  {
  }
}

=== FILE: myrequests.dfy ===
/** src/components/client/MisSolicitudes.tsx: the client's list of their own
    requests. The search box and the status filter are kept in state but the
    filtering itself is commented out, so the table shows exactly what the
    server sent; the filters only change the texts around it. */
module MyRequests {
  import opened Base
  import opened Domain
  import Labels
  import R = Routes
  import N = Navigation

  /** The page: the list (`null` until a fetch succeeds), the search text
      and the status filter's value: "todos" or one of the select's Spanish
      values "pendiente", "en_proceso", "resuelto", "cerrado" and
      "cancelado", which the "Filtrado por: " note shows as they are. */
  datatype Page = Page(requests: Option<seq<Request>>, query: string, statusFilter: string)

  const Initial: Page := Page(None, "", "todos")

  /** Whether a search or a status filter is in effect. */
  predicate Filtering(p: Page) {
    p.query != "" || p.statusFilter != "todos"
  }

  /** `clearFilters`: empties the search and resets the filter; the list stays. */
  function ClearFilters(p: Page): (q: Page)
    ensures q.requests == p.requests
    ensures !Filtering(q)
  {
    p.(query := "", statusFilter := "todos")
  }

  /** `getAllRequests` once the call settled: a reply sets the list, a
      refusal shows the server's message and leaves the list as it was, and
      a rejected call changes nothing. */
  function Load(p: Page, reply: Fetch<seq<Request>>): (r: (Page, Option<Toast>))
    ensures reply.Fetched? ==> r.0 == p.(requests := Some(reply.items)) && r.1.None?
    ensures !reply.Fetched? ==> r.0 == p
    ensures reply.Refused? ==> r.1 == Some(Failure(reply.message.GetOr("")))
  {
    match reply
    case Fetched(items) => (p.(requests := Some(items)), None)
    case Refused(m) => (p, Some(Failure(m.GetOr(""))))
    case Thrown => (p, None)
  }

  /** The "Eliminar" entry is in a row's menu only for a PENDING request. */
  predicate DeleteOffered(r: Request) {
    r.status == PENDING
  }

  /** `handleDelete`: announces the deletion of the request by its id and
      does nothing else — no request is sent and the list is untouched. */
  function Delete(p: Page, r: Request): (out: (Page, Toast))
    ensures out.0 == p
    ensures var id := IdText(r.id);
      && out.1.Success? && |out.1.text| == |id| + 20
      && out.1.text[..10] == "Solicitud " && out.1.text[10..10 + |id|] == id
      && out.1.text[10 + |id|..] == " eliminada"
  {
    (p, Success("Solicitud " + IdText(r.id) + " eliminada"))
  }

  /** Deleting leaves the results area exactly as it was. */
  lemma DeleteKeepsView(p: Page, r: Request)
    ensures ViewOf(Delete(p, r).0) == ViewOf(p)
  {
  }

  /** What the empty state offers. */
  datatype EmptyAction = ClearFiltersAction | CreateFirst(href: string)

  /** The results card's body: the table, or the empty state. */
  datatype Body = Table(rows: seq<Request>) | Empty(description: string, action: EmptyAction)

  /** What the results area shows: skeletons until a list arrives, then a
      card whose title gives the count and noun, whose description carries
      the filter and search notes, and whose body is the table or the empty
      state. */
  datatype View =
    | Skeleton
    | Results(count: nat, noun: string, filterNote: string, searchNote: string, body: Body)

  /** The note naming the status filter, blank when none is set. */
  function FilterNote(statusFilter: string): (note: string)
    ensures note == "" <==> statusFilter == "todos"
    ensures statusFilter != "todos" ==>
      |note| == |statusFilter| + 14 && note[..14] == "Filtrado por: " && note[14..] == statusFilter
  {
    if statusFilter != "todos" then "Filtrado por: " + statusFilter else ""
  }

  /** The note quoting the search, blank when the search is empty. */
  function SearchNote(query: string): (note: string)
    ensures note == "" <==> query == ""
    ensures query != "" ==>
      |note| == |query| + 15 && note[..14] == " | Búsqueda: \"" && note[14..14 + |query|] == query
      && note[14 + |query|] == '"'
  {
    if query != "" then " | Búsqueda: \"" + query + "\"" else ""
  }

  /** The results area. */
  function ViewOf(p: Page): (v: View)
    ensures v.Skeleton? <==> p.requests.None?
    ensures v.Results? ==>
      && v.count == |p.requests.value| && v.noun == Labels.RequestsNoun(v.count)
      && v.filterNote == FilterNote(p.statusFilter) && v.searchNote == SearchNote(p.query)
      && (v.body.Table? <==> v.count > 0)
      && (v.body.Table? ==> v.body.rows == p.requests.value)
      && (v.body.Empty? ==> (v.body.action == ClearFiltersAction <==> Filtering(p)))
      && (v.body.Empty? && !Filtering(p) ==> v.body.action == CreateFirst("/dashboard/cliente/nueva-solicitud"))
  {
    match p.requests
    case None => Skeleton
    case Some(rs) =>
      var body :=
        if |rs| > 0 then Table(rs)
        else if Filtering(p) then Empty("Intenta ajustar los filtros de búsqueda", ClearFiltersAction)
        else Empty("Aún no has creado ninguna solicitud de soporte", CreateFirst("/dashboard/cliente/nueva-solicitud"));
      Results(|rs|, Labels.RequestsNoun(|rs|), FilterNote(p.statusFilter), SearchNote(p.query), body)
  }

  /** The search and the filter remove nothing: whatever they hold, the card
      counts and lists the same requests; only its notes change. */
  lemma FiltersRemoveNothing(p: Page, query: string, statusFilter: string)
    ensures var q := p.(query := query, statusFilter := statusFilter);
      && (ViewOf(q).Skeleton? <==> ViewOf(p).Skeleton?)
      && (ViewOf(q).Results? ==> ViewOf(q).count == ViewOf(p).count)
      && (ViewOf(q).Results? && ViewOf(q).body.Table? ==> ViewOf(q).body == ViewOf(p).body)
  {
  }

  /** A failed first load leaves the skeleton up. */
  lemma FailedLoadKeepsSkeleton(reply: Fetch<seq<Request>>)
    requires !reply.Fetched?
    ensures ViewOf(Load(Initial, reply).0) == Skeleton
  {
  }

  /** "Limpiar filtros" turns the empty state into the invitation to create a
      first request, with the card still titled by an empty count and its
      notes cleared, and that link opens the new-request form. */
  lemma ClearingLeadsToCreate(p: Page, caseSensitive: bool)
    requires ViewOf(p).Results? && ViewOf(p).body == Empty("Intenta ajustar los filtros de búsqueda", ClearFiltersAction)
    ensures ViewOf(ClearFilters(p)).Results? && ViewOf(ClearFilters(p)).count == 0
    ensures ViewOf(ClearFilters(p)).filterNote == "" && ViewOf(ClearFilters(p)).searchNote == ""
    ensures ViewOf(ClearFilters(p)).body.Empty?
    ensures ViewOf(ClearFilters(p)).body.action == CreateFirst("/dashboard/cliente/nueva-solicitud")
    ensures R.Resolve(ViewOf(ClearFilters(p)).body.action.href, caseSensitive) == R.Show(R.NewRequest, [])
  {
    N.NewRequestPath(caseSensitive);
  }

  /** The "Ver detalles" link of a row. */
  function DetailLink(r: Request): (to: string)
    ensures to == "/dashboard/cliente/mis-solicitudes/" + IdText(r.id)
  {
    "/dashboard/cliente/mis-solicitudes/" + IdText(r.id)
  }

  /** A row's link opens the detail page for its id. */
  lemma DetailLinkOpensDetail(r: Request, caseSensitive: bool)
    requires r.id.Some? ==> r.id.value != "" && '/' !in r.id.value
    ensures R.Resolve(DetailLink(r), caseSensitive) == R.Show(R.RequestDetail, [IdText(r.id)])
  {
    R.ClientDetailRoute(IdText(r.id), caseSensitive);
  }
}

=== FILE: navigation.dfy ===
/** How the navigation pieces of different files fit together: the three
    copies of the role-to-dashboard map (ProtectedRoute, PublicRoute, the
    login redirect), the sidebar menu and the logo link, each checked
    against the route table of App.tsx. */
module Navigation {
  import opened Base
  import opened Text
  import opened Domain
  import G = Guards
  import R = Routes
  import L = Login
  import Y = Layout

  /** The page each role's dashboard route renders. */
  function DashboardView(r: Role): R.View {
    match r
    case CLIENT => R.ClientDashboard
    case SUPPORT => R.SupportDashboard
    case ADMIN => R.AdminDashboard
  }

  /** The pages the sidebar entries of each role lead to, in menu order. */
  function MenuViews(r: Role): seq<R.View> {
    match r
    case CLIENT => [R.ClientDashboard, R.NewRequest, R.MyRequests, R.Profile]
    case SUPPORT => [R.SupportDashboard, R.SupportDashboard, R.Profile]
    case ADMIN => [R.AdminDashboard, R.SupportDashboard, R.UserManagement, R.Reports]
  }

  /** The login redirect, both guards and the first menu entry name the same
      dashboard for every role, and that path shows the role's dashboard page. */
  lemma LandingsAgree(role: Role, caseSensitive: bool)
    ensures L.LandingFor(role) == G.ProtectedDashboard(role)
    ensures G.PublicDashboard(role) == G.ProtectedDashboard(role)
    ensures Y.Menu(Some(role))[0].path == G.ProtectedDashboard(role)
    ensures R.Resolve(G.ProtectedDashboard(role), caseSensitive) == R.Show(DashboardView(role), [])
  {
    LiteralsLowered();
    match role
    case CLIENT =>
      assert "/dashboard/" + "cliente" == "/dashboard/cliente";
      R.DashboardSegment("cliente", caseSensitive);
    case SUPPORT =>
      assert "/dashboard/" + "soporte" == "/dashboard/soporte";
      R.DashboardSegment("soporte", caseSensitive);
    case ADMIN =>
      assert "/dashboard/" + "admin" == "/dashboard/admin";
      R.DashboardSegment("admin", caseSensitive);
  }

  /** ASCII lower-casing of the literals the lemmas below compare. */
  lemma LiteralsLowered()
    ensures Lower("cliente") == "cliente" && Lower("soporte") == "soporte" && Lower("admin") == "admin"
    ensures Lower("CLIENT") == "client" && Lower("SUPPORT") == "support" && Lower("ADMIN") == "admin"
    ensures Lower("undefined") == "undefined"
  {
  }

  /** Every sidebar entry of every role leads to a page (never to the
      catch-all), and to the page listed for it. */
  lemma MenuPathsResolve(role: Role, caseSensitive: bool)
    ensures |MenuViews(role)| == |Y.Menu(Some(role))|
    ensures forall k :: 0 <= k < |Y.Menu(Some(role))| ==>
      R.Resolve(Y.Menu(Some(role))[k].path, caseSensitive) == R.Show(MenuViews(role)[k], [])
  {
    LandingsAgree(role, caseSensitive);
    match role
    case CLIENT => ClientMenuResolves(caseSensitive);
    case SUPPORT => SupportMenuResolves(caseSensitive);
    case ADMIN => AdminMenuResolves(caseSensitive);
  }

  lemma ClientMenuResolves(caseSensitive: bool)
    ensures |MenuViews(CLIENT)| == |Y.Menu(Some(CLIENT))|
    ensures forall k :: 0 <= k < |Y.Menu(Some(CLIENT))| ==>
      R.Resolve(Y.Menu(Some(CLIENT))[k].path, caseSensitive) == R.Show(MenuViews(CLIENT)[k], [])
  {
    var m := Y.Menu(Some(CLIENT));
    forall k | 0 <= k < |m| ensures R.Resolve(m[k].path, caseSensitive) == R.Show(MenuViews(CLIENT)[k], []) {
      if k == 0 {
        LandingsAgree(CLIENT, caseSensitive);
      } else {
        ClientMenuEntry(k, caseSensitive);
      }
    }
  }

  lemma ClientMenuEntry(k: nat, caseSensitive: bool)
    requires 1 <= k < 4
    ensures R.Resolve(Y.Menu(Some(CLIENT))[k].path, caseSensitive) == R.Show(MenuViews(CLIENT)[k], [])
  {
    if k == 1 {
      NewRequestPath(caseSensitive);
    } else if k == 2 {
      MyRequestsPath(caseSensitive);
    } else {
      ClientProfilePath(caseSensitive);
    }
  }

  lemma SupportMenuResolves(caseSensitive: bool)
    ensures |MenuViews(SUPPORT)| == |Y.Menu(Some(SUPPORT))|
    ensures forall k :: 0 <= k < |Y.Menu(Some(SUPPORT))| ==>
      R.Resolve(Y.Menu(Some(SUPPORT))[k].path, caseSensitive) == R.Show(MenuViews(SUPPORT)[k], [])
  {
    var m := Y.Menu(Some(SUPPORT));
    forall k | 0 <= k < |m| ensures R.Resolve(m[k].path, caseSensitive) == R.Show(MenuViews(SUPPORT)[k], []) {
      if k == 0 { LandingsAgree(SUPPORT, caseSensitive); }
      if k == 1 { AllRequestsPath(caseSensitive); }
      else if k == 2 { SupportProfilePath(caseSensitive); }
    }
  }

  lemma AdminMenuResolves(caseSensitive: bool)
    ensures |MenuViews(ADMIN)| == |Y.Menu(Some(ADMIN))|
    ensures forall k :: 0 <= k < |Y.Menu(Some(ADMIN))| ==>
      R.Resolve(Y.Menu(Some(ADMIN))[k].path, caseSensitive) == R.Show(MenuViews(ADMIN)[k], [])
  {
    var m := Y.Menu(Some(ADMIN));
    forall k | 0 <= k < |m| ensures R.Resolve(m[k].path, caseSensitive) == R.Show(MenuViews(ADMIN)[k], []) {
      if k == 0 { LandingsAgree(ADMIN, caseSensitive); }
      if k == 1 { AdminRequestsPath(caseSensitive); }
      else if k == 2 { UsersPath(caseSensitive); }
      else if k == 3 { ReportsPath(caseSensitive); }
    }
  }

  /** "/dashboard/cliente/nueva-solicitud" shows the NewRequest page. */
  lemma NewRequestPath(caseSensitive: bool)
    ensures R.Resolve("/dashboard/cliente/nueva-solicitud", caseSensitive) == R.Show(R.NewRequest, [])
  {
    SpelledClienteNuevaSolicitud();
    R.LiteralsLowerCase();
    R.ResolveThree("/dashboard/cliente/nueva-solicitud", "dashboard", "cliente", "nueva-solicitud", caseSensitive, 3);
  }

  /** "/dashboard/cliente/mis-solicitudes" shows the MyRequests page. */
  lemma MyRequestsPath(caseSensitive: bool)
    ensures R.Resolve("/dashboard/cliente/mis-solicitudes", caseSensitive) == R.Show(R.MyRequests, [])
  {
    SpelledClienteMisSolicitudes();
    R.LiteralsLowerCase();
    R.ResolveThree("/dashboard/cliente/mis-solicitudes", "dashboard", "cliente", "mis-solicitudes", caseSensitive, 4);
  }

  /** "/dashboard/cliente/perfil" shows the Profile page. */
  lemma ClientProfilePath(caseSensitive: bool)
    ensures R.Resolve("/dashboard/cliente/perfil", caseSensitive) == R.Show(R.Profile, [])
  {
    SpelledClientePerfil();
    R.LiteralsLowerCase();
    R.ResolveThree("/dashboard/cliente/perfil", "dashboard", "cliente", "perfil", caseSensitive, 6);
  }

  /** "/dashboard/soporte/todas" shows the SupportDashboard page. */
  lemma AllRequestsPath(caseSensitive: bool)
    ensures R.Resolve("/dashboard/soporte/todas", caseSensitive) == R.Show(R.SupportDashboard, [])
  {
    SpelledSoporteTodas();
    R.LiteralsLowerCase();
    R.ResolveThree("/dashboard/soporte/todas", "dashboard", "soporte", "todas", caseSensitive, 8);
  }

  /** "/dashboard/soporte/perfil" shows the Profile page. */
  lemma SupportProfilePath(caseSensitive: bool)
    ensures R.Resolve("/dashboard/soporte/perfil", caseSensitive) == R.Show(R.Profile, [])
  {
    SpelledSoportePerfil();
    R.LiteralsLowerCase();
    R.ResolveThree("/dashboard/soporte/perfil", "dashboard", "soporte", "perfil", caseSensitive, 10);
  }

  /** "/dashboard/admin/solicitudes" shows the SupportDashboard page. */
  lemma AdminRequestsPath(caseSensitive: bool)
    ensures R.Resolve("/dashboard/admin/solicitudes", caseSensitive) == R.Show(R.SupportDashboard, [])
  {
    SpelledAdminSolicitudes();
    R.LiteralsLowerCase();
    R.ResolveThree("/dashboard/admin/solicitudes", "dashboard", "admin", "solicitudes", caseSensitive, 13);
  }

  /** "/dashboard/admin/usuarios" shows the UserManagement page. */
  lemma UsersPath(caseSensitive: bool)
    ensures R.Resolve("/dashboard/admin/usuarios", caseSensitive) == R.Show(R.UserManagement, [])
  {
    SpelledAdminUsuarios();
    R.LiteralsLowerCase();
    R.ResolveThree("/dashboard/admin/usuarios", "dashboard", "admin", "usuarios", caseSensitive, 12);
  }

  /** "/dashboard/admin/reportes" shows the Reports page. */
  lemma ReportsPath(caseSensitive: bool)
    ensures R.Resolve("/dashboard/admin/reportes", caseSensitive) == R.Show(R.Reports, [])
  {
    SpelledAdminReportes();
    R.LiteralsLowerCase();
    R.ResolveThree("/dashboard/admin/reportes", "dashboard", "admin", "reportes", caseSensitive, 15);
  }

  lemma SpelledClienteNuevaSolicitud()
    ensures "/dashboard/cliente/nueva-solicitud" == "/" + "dashboard" + "/" + "cliente" + "/" + "nueva-solicitud"
  {
  }

  lemma SpelledClienteMisSolicitudes()
    ensures "/dashboard/cliente/mis-solicitudes" == "/" + "dashboard" + "/" + "cliente" + "/" + "mis-solicitudes"
  {
  }

  lemma SpelledClientePerfil()
    ensures "/dashboard/cliente/perfil" == "/" + "dashboard" + "/" + "cliente" + "/" + "perfil"
  {
  }

  lemma SpelledSoporteTodas()
    ensures "/dashboard/soporte/todas" == "/" + "dashboard" + "/" + "soporte" + "/" + "todas"
  {
  }

  lemma SpelledSoportePerfil()
    ensures "/dashboard/soporte/perfil" == "/" + "dashboard" + "/" + "soporte" + "/" + "perfil"
  {
  }

  lemma SpelledAdminSolicitudes()
    ensures "/dashboard/admin/solicitudes" == "/" + "dashboard" + "/" + "admin" + "/" + "solicitudes"
  {
  }

  lemma SpelledAdminUsuarios()
    ensures "/dashboard/admin/usuarios" == "/" + "dashboard" + "/" + "admin" + "/" + "usuarios"
  {
  }

  lemma SpelledAdminReportes()
    ensures "/dashboard/admin/reportes" == "/" + "dashboard" + "/" + "admin" + "/" + "reportes"
  {
  }

  /** The logo link as written misses the dashboards: the route segments are
      Spanish ("cliente", "soporte") while the link carries the role code, so
      a client's or support agent's logo leads to the catch-all and on to
      "/login", with the session still stored. Only "/dashboard/ADMIN" reaches
      a dashboard, and only because routes ignore case by default. */
  lemma LogoLinkMissesDashboards(u: User, caseSensitive: bool)
    ensures u.role != ADMIN ==> R.Resolve(Y.LogoLink(Some(u)), caseSensitive) == R.Redirect("/login")
    ensures u.role == ADMIN ==>
      R.Resolve(Y.LogoLink(Some(u)), caseSensitive) ==
        (if caseSensitive then R.Redirect("/login") else R.Show(R.AdminDashboard, []))
    ensures R.Resolve(Y.LogoLink(None), caseSensitive) == R.Redirect("/login")
  {
    LiteralsLowered();
    R.DashboardSegment(RoleCode(u.role), caseSensitive);
    R.DashboardSegment("undefined", caseSensitive);
  }

  /** The intended logo link reaches the user's dashboard in either matching mode. */
  lemma LogoLinkIntendedReachesDashboard(u: User, caseSensitive: bool)
    ensures R.Resolve(Y.LogoLinkIntended(Some(u)), caseSensitive) == R.Show(DashboardView(u.role), [])
  {
    LandingsAgree(u.role, caseSensitive);
  }
}

=== FILE: newrequest.dfy ===
/** src/components/client/NuevaSolicitud.tsx: the form a client fills in to
    open a request — its schema, its two option lists and `handleSubmit`,
    as a function from the screen state and the server's reply to the next
    screen state and the payload sent. */
module NewRequest {
  import opened Base
  import opened Domain
  import Labels
  import R = Routes
  import N = Navigation

  /** The form values; priority and category hold the selects' codes. */
  datatype RequestForm = RequestForm(title: string, description: string, priority: string, category: string)

  /** `requestSchema`, field by field. Lengths are counted in characters. */
  predicate ValidTitle(t: string) {
    5 <= |t| <= 100
  }

  predicate ValidDescription(d: string) {
    10 <= |d| <= 1000
  }

  predicate ValidPriority(code: string) {
    ParsePriority(code).Some?
  }

  predicate ValidCategory(code: string) {
    |code| >= 1
  }

  predicate ValidForm(f: RequestForm) {
    ValidTitle(f.title) && ValidDescription(f.description)
    && ValidPriority(f.priority) && ValidCategory(f.category)
  }

  /** The schema accepts exactly the four request priorities, and nothing
      mock-data calls a priority but requests do not (URGENT). */
  lemma PrioritySchemaIsRequestPriority(code: string)
    ensures ValidPriority(code) <==> exists p: Priority :: PriorityCode(p) == code
    ensures !ValidPriority(Labels.TicketPriorityCode(Labels.URGENT))
  {
    if ValidPriority(code) {
      assert PriorityCode(ParsePriority(code).value) == code;
    }
  }

  /** The category is not checked against the options: any non-empty code
      passes, including mock-data's SUPPORT_TECHNICAL and the admin
      dashboard's ACCOUNT_ACCESS. */
  lemma CategoryUnchecked(code: string)
    ensures ValidCategory(code) <==> code != ""
    ensures ValidCategory("SUPPORT_TECHNICAL") && ValidCategory("ACCOUNT_ACCESS")
  {
  }

  /** The form's `defaultValues`. */
  const Defaults: RequestForm := RequestForm("", "", "LOW", "")

  /** The defaults cannot be submitted: title, description and category all
      fail, though the default priority passes. */
  lemma DefaultsRejected()
    ensures !ValidForm(Defaults)
    ensures !ValidTitle(Defaults.title) && !ValidDescription(Defaults.description)
    ensures !ValidCategory(Defaults.category) && ValidPriority(Defaults.priority)
  {
  }

  /** The category select: code and caption. */
  const CategoryOptions: seq<(string, string)> := [
    ("TECHNICAL_SUPPORT", "Soporte Técnico"),
    ("GENERAL_INQUIRY", "Consulta General"),
    ("ACCESS_ISSUE", "Problema de Acceso"),
    ("BILLING", "Facturación"),
    ("OTHER", "Otro")]

  /** The five category options have distinct codes, each passes the
      category check, and each caption is `RequestCategory`'s label for it. */
  lemma CategoryOptionsSound()
    ensures |CategoryOptions| == 5
    ensures forall j, k :: 0 <= j < k < |CategoryOptions| ==> CategoryOptions[j].0 != CategoryOptions[k].0
    ensures forall k :: 0 <= k < |CategoryOptions| ==> ValidCategory(CategoryOptions[k].0)
    ensures forall k :: 0 <= k < |CategoryOptions| ==>
      Labels.RequestCategoryLabel(CategoryOptions[k].0) == Some(CategoryOptions[k].1)
  {
  }

  /** The priority select: code, caption and hint. */
  const PriorityOptions: seq<(string, string, string)> := [
    ("LOW", "🟢 Baja", "No es urgente"),
    ("MEDIUM", "🟡 Media", "Requiere atención pronta"),
    ("HIGH", "🟠 Alta", "Importante y urgente"),
    ("CRITICAL", "🔴 Crítica", "Crítico, requiere atención inmediata")]

  /** Where a priority sits in the select. */
  function PriorityIndex(p: Priority): (k: nat)
    ensures k < |PriorityOptions| && PriorityOptions[k].0 == PriorityCode(p)
  {
    match p
    case LOW => 0
    case MEDIUM => 1
    case HIGH => 2
    case CRITICAL => 3
  }

  /** The priority options are exactly the schema's four values: every
      option passes, every priority is offered, and no code is offered twice. */
  lemma PriorityOptionsAreSchema()
    ensures forall k :: 0 <= k < |PriorityOptions| ==> ValidPriority(PriorityOptions[k].0)
    ensures forall p: Priority :: PriorityOptions[PriorityIndex(p)].0 == PriorityCode(p)
    ensures forall j, k :: 0 <= j < k < |PriorityOptions| ==> PriorityOptions[j].0 != PriorityOptions[k].0
  {
  }

  /** The screen: the form's values, `loading` and the success dialog. */
  datatype Screen = Screen(form: RequestForm, loading: bool, showSuccess: bool)

  const Initial: Screen := Screen(Defaults, false, false)

  /** How the create call settled: `success` true or false, or a rejected
      call, which nothing catches. */
  datatype CreateReply = Created | NotCreated | Rejected

  /** The outcome of pressing "Crear Solicitud": the next screen and the
      payload POSTed, if any. */
  datatype Submitted = Submitted(screen: Screen, sent: Option<RequestForm>)

  /** `form.handleSubmit(handleSubmit)`: while a create call is in flight
      the submit button is disabled and a press does nothing. Otherwise
      values failing the schema send nothing. Valid values are posted; on
      success the dialog opens and the form is reset, on `success: false`
      nothing is shown, and in both cases `loading` ends. A rejected call
      leaves `loading` on. */
  function Submit(s: Screen, reply: CreateReply): (out: Submitted)
    ensures s.loading ==> out == Submitted(s, None)
    ensures !ValidForm(s.form) ==> out == Submitted(s, None)
    ensures !s.loading && ValidForm(s.form) ==> out.sent == Some(s.form)
    ensures !s.loading && ValidForm(s.form) && reply.Created? ==>
      out.screen == Screen(Defaults, false, true)
    ensures !s.loading && ValidForm(s.form) && reply.NotCreated? ==>
      out.screen == s.(loading := false)
    ensures !s.loading && ValidForm(s.form) && reply.Rejected? ==>
      out.screen == s.(loading := true)
  {
    if s.loading || !ValidForm(s.form) then Submitted(s, None)
    else
      match reply
      case Created => Submitted(Screen(Defaults, false, true), Some(s.form))
      case NotCreated => Submitted(s.(loading := false), Some(s.form))
      case Rejected => Submitted(s.(loading := true), Some(s.form))
  }

  /** Only valid values are ever posted, the dialog opens only on success,
      a second press after a success sends nothing, the form having been
      reset to the defaults the schema rejects, and neither does a press
      while the first call is still pending. */
  lemma SubmitSendsOnlyValid(s: Screen, reply: CreateReply, again: CreateReply)
    ensures Submit(s, reply).sent.Some? ==> ValidForm(Submit(s, reply).sent.value)
    ensures Submit(s, reply).screen.showSuccess && !s.showSuccess ==> reply.Created?
    ensures reply.Created? ==> Submit(Submit(s, reply).screen, again).sent.None?
    ensures Submit(s, reply).screen.loading ==> Submit(Submit(s, reply).screen, again).sent.None?
  {
    DefaultsRejected();
  }

  /** The submit button's caption. */
  function SubmitCaption(s: Screen): (caption: string)
    ensures caption == "Creando solicitud..." <==> s.loading
  {
    if s.loading then "Creando solicitud..." else "Crear Solicitud"
  }

  /** "Cancelar" goes back to the client dashboard, except while a create
      call is in flight, when it is disabled. */
  function Cancel(s: Screen): (to: Option<string>)
    ensures s.loading <==> to.None?
    ensures to.Some? ==> R.Resolve(to.value, false) == R.Show(R.ClientDashboard, [])
  {
    N.LandingsAgree(CLIENT, false);
    if s.loading then None else Some("/dashboard/cliente")
  }

  /** `handleSuccessClose`: the dialog closes and the page moves to the
      client's list of requests, which is what that path shows. */
  function SuccessClose(s: Screen): (out: (Screen, string))
    ensures out.0 == s.(showSuccess := false)
    ensures R.Resolve(out.1, false) == R.Show(R.MyRequests, [])
  {
    N.MyRequestsPath(false);
    (s.(showSuccess := false), "/dashboard/cliente/mis-solicitudes")
  }
}

=== FILE: routes.dfy ===
/** src/App.tsx: the route table and how react-router v6 resolves a pathname
    against it. A pattern matches a pathname when they have the same number
    of segments, every literal segment equals the pathname's segment (ignoring
    ASCII case unless the route is case-sensitive; no route here sets
    `caseSensitive`), and every `:param` segment is non-empty; trailing
    slashes are ignored. No route is wrapped in a guard, so resolution looks
    at the pathname only. */
module Routes {
  import opened Base
  import opened Text

  /** The page components the table renders. */
  datatype View =
    | LoginPage | ClientDashboard | NewRequest | MyRequests | RequestDetail | Profile
    | SupportDashboard | AdminDashboard | UserManagement | Reports

  /** A route's `element`: a page, or a `<Navigate>` to a fixed path. */
  datatype Element = Page(view: View) | NavigateTo(to: string)

  /** One segment of a route pattern. */
  datatype Segment = Lit(text: string) | Param(name: string)

  datatype Route = Route(pattern: seq<Segment>, element: Element)

  /** What a pathname resolves to: a page with the values of its `:param`
      segments in order, or a redirect. */
  datatype Outcome = Show(view: View, params: seq<string>) | Redirect(to: string)

  /** The `<Routes>` of App.tsx, in declaration order, without the final `*`. */
  const Table: seq<Route> := [
    Route([], NavigateTo("/login")),
    Route([Lit("login")], Page(LoginPage)),
    Route([Lit("dashboard"), Lit("cliente")], Page(ClientDashboard)),
    Route([Lit("dashboard"), Lit("cliente"), Lit("nueva-solicitud")], Page(NewRequest)),
    Route([Lit("dashboard"), Lit("cliente"), Lit("mis-solicitudes")], Page(MyRequests)),
    Route([Lit("dashboard"), Lit("cliente"), Lit("mis-solicitudes"), Param("id")], Page(RequestDetail)),
    Route([Lit("dashboard"), Lit("cliente"), Lit("perfil")], Page(Profile)),
    Route([Lit("dashboard"), Lit("soporte")], Page(SupportDashboard)),
    Route([Lit("dashboard"), Lit("soporte"), Lit("todas")], Page(SupportDashboard)),
    Route([Lit("dashboard"), Lit("soporte"), Lit("solicitudes"), Param("id")], Page(RequestDetail)),
    Route([Lit("dashboard"), Lit("soporte"), Lit("perfil")], Page(Profile)),
    Route([Lit("dashboard"), Lit("admin")], Page(AdminDashboard)),
    Route([Lit("dashboard"), Lit("admin"), Lit("usuarios")], Page(UserManagement)),
    Route([Lit("dashboard"), Lit("admin"), Lit("solicitudes")], Page(SupportDashboard)),
    Route([Lit("dashboard"), Lit("admin"), Lit("solicitudes"), Param("id")], Page(RequestDetail)),
    Route([Lit("dashboard"), Lit("admin"), Lit("reportes")], Page(Reports))
  ]

  /** The `path="*"` route: everything else goes to the login page. */
  const CatchAll: Outcome := Redirect("/login")

  /** Drops the empty pieces a trailing run of slashes leaves at the end. */
  function DropTrailingEmpty(parts: seq<string>): (r: seq<string>)
    ensures |r| <= |parts| && r == parts[..|r|]
    ensures |r| == 0 || r[|r| - 1] != ""
    ensures forall k :: |r| <= k < |parts| ==> parts[k] == ""
  {
    if |parts| == 0 || parts[|parts| - 1] != "" then parts
    else DropTrailingEmpty(parts[..|parts| - 1])
  }

  /** The segments of a pathname; a string that does not start with "/" is no
      pathname and has none. */
  function Segments(path: string): (r: Option<seq<string>>)
    ensures r.Some? <==> |path| > 0 && path[0] == '/'
    ensures r.Some? ==> forall k :: 0 <= k < |r.value| ==> '/' !in r.value[k]
  {
    if |path| > 0 && path[0] == '/' then Some(DropTrailingEmpty(Split(path[1..], '/'))) else None
  }

  /** The pathname whose segments are `segs`. */
  function PathOf(segs: seq<string>): string {
    "/" + Join(segs, "/")
  }

  predicate SegmentMatches(g: Segment, s: string, caseSensitive: bool) {
    match g
    case Lit(t) => if caseSensitive then s == t else Lower(s) == Lower(t)
    case Param(_) => |s| > 0
  }

  predicate PatternMatches(p: seq<Segment>, segs: seq<string>, caseSensitive: bool) {
    |p| == |segs| && forall k :: 0 <= k < |p| ==> SegmentMatches(p[k], segs[k], caseSensitive)
  }

  /** Route `i` of the table matches `path`. */
  predicate RouteMatches(path: string, i: int, caseSensitive: bool) {
    && 0 <= i < |Table|
    && Segments(path).Some?
    && PatternMatches(Table[i].pattern, Segments(path).value, caseSensitive)
  }

  /** The values of the `:param` segments, in order. */
  function Captures(p: seq<Segment>, segs: seq<string>): (r: seq<string>)
    requires |p| == |segs|
    ensures |r| <= |p|
  {
    if |p| == 0 then []
    else (if p[0].Param? then [segs[0]] else []) + Captures(p[1..], segs[1..])
  }

  /** What a matched route renders. */
  function OutcomeOf(r: Route, segs: seq<string>): Outcome
    requires |r.pattern| == |segs|
  {
    match r.element
    case Page(v) => Show(v, Captures(r.pattern, segs))
    case NavigateTo(to) => Redirect(to)
  }

  /** The first route from index `i` on that matches. */
  function FirstMatch(segs: seq<string>, caseSensitive: bool, i: nat): (r: Option<nat>)
    requires i <= |Table|
    ensures r.Some? ==> i <= r.value < |Table| && PatternMatches(Table[r.value].pattern, segs, caseSensitive)
    ensures r.None? ==> forall j :: i <= j < |Table| ==> !PatternMatches(Table[j].pattern, segs, caseSensitive)
    decreases |Table| - i
  {
    if i == |Table| then None
    else if PatternMatches(Table[i].pattern, segs, caseSensitive) then Some(i)
    else FirstMatch(segs, caseSensitive, i + 1)
  }

  /** Resolving a pathname: the outcome of a route that matches it, or the
      catch-all exactly when none does. */
  function Resolve(path: string, caseSensitive: bool): (o: Outcome)
    ensures (exists i :: RouteMatches(path, i, caseSensitive)) ==>
      exists i :: RouteMatches(path, i, caseSensitive) && o == OutcomeOf(Table[i], Segments(path).value)
    ensures (forall i :: !RouteMatches(path, i, caseSensitive)) ==> o == CatchAll
  {
    match Segments(path)
    case None => CatchAll
    case Some(segs) =>
      match FirstMatch(segs, caseSensitive, 0)
      case Some(i) =>
        assert RouteMatches(path, i, caseSensitive);
        OutcomeOf(Table[i], segs)
      case None => CatchAll
  }

  /** Two patterns have literal segments at position `k` that differ even
      when case is ignored. */
  predicate DiffersAt(p: seq<Segment>, q: seq<Segment>, k: nat) {
    k < |p| && k < |q| && p[k].Lit? && q[k].Lit? && Lower(p[k].text) != Lower(q[k].text)
  }

  /** No pathname can match both patterns. */
  predicate Distinguishable(p: seq<Segment>, q: seq<Segment>) {
    |p| != |q| || DiffersAt(p, q, 0) || DiffersAt(p, q, 1) || DiffersAt(p, q, 2) || DiffersAt(p, q, 3)
  }

  /** Distinguishable patterns never match the same pathname, in either mode. */
  lemma DistinguishableExclusive(p: seq<Segment>, q: seq<Segment>, segs: seq<string>, caseSensitive: bool)
    requires Distinguishable(p, q)
    ensures !(PatternMatches(p, segs, caseSensitive) && PatternMatches(q, segs, caseSensitive))
  {
  }

  /** Every literal in the table is already lower case. */
  lemma LiteralsLowerCase()
    ensures Lower("login") == "login" && Lower("dashboard") == "dashboard"
    ensures Lower("cliente") == "cliente" && Lower("soporte") == "soporte" && Lower("admin") == "admin"
    ensures Lower("nueva-solicitud") == "nueva-solicitud" && Lower("mis-solicitudes") == "mis-solicitudes"
    ensures Lower("perfil") == "perfil" && Lower("todas") == "todas" && Lower("solicitudes") == "solicitudes"
    ensures Lower("usuarios") == "usuarios" && Lower("reportes") == "reportes"
  {
  }

  /** Every two routes of the table are distinguishable. */
  lemma TablePairwiseDistinguishable()
    ensures forall i, j :: 0 <= i < j < |Table| ==> Distinguishable(Table[i].pattern, Table[j].pattern)
  {
    LiteralsLowerCase();
  }

  /** At most one route matches any pathname, so taking the first match (as
      the model does) and taking the best-ranked match (as react-router does)
      agree; the catch-all ranks below every other route. */
  lemma RoutesUnambiguous(path: string, caseSensitive: bool, i: int, j: int)
    requires RouteMatches(path, i, caseSensitive) && RouteMatches(path, j, caseSensitive)
    ensures i == j
  {
    TablePairwiseDistinguishable();
    if i < j {
      DistinguishableExclusive(Table[i].pattern, Table[j].pattern, Segments(path).value, caseSensitive);
    } else if j < i {
      DistinguishableExclusive(Table[j].pattern, Table[i].pattern, Segments(path).value, caseSensitive);
    }
  }

  /** A pathname that route `i` matches resolves to that route's outcome. */
  lemma ResolveIsTheMatch(path: string, caseSensitive: bool, i: int)
    requires RouteMatches(path, i, caseSensitive)
    ensures Resolve(path, caseSensitive) == OutcomeOf(Table[i], Segments(path).value)
  {
    var o := Resolve(path, caseSensitive);
    var j :| RouteMatches(path, j, caseSensitive) && o == OutcomeOf(Table[j], Segments(path).value);
    RoutesUnambiguous(path, caseSensitive, i, j);
  }

  /** The segments of `PathOf(segs)` are `segs` again, for non-empty segments
      without slashes. */
  lemma SegmentsOfPath(segs: seq<string>)
    requires forall k :: 0 <= k < |segs| ==> segs[k] != "" && '/' !in segs[k]
    ensures Segments(PathOf(segs)) == Some(segs)
  {
    var path := PathOf(segs);
    assert path[1..] == Join(segs, "/");
    if |segs| == 0 {
      assert Split("", '/') == [""];
    } else {
      SplitJoin(segs, '/');
    }
  }

  /** Splitting a string with one more separator at its end adds one empty piece. */
  lemma {:induction false} SplitTrailingSeparator(s: string, c: char)
    ensures Split(s + [c], c) == Split(s, c) + [""]
  {
    if |s| == 0 {
      assert Split([c], c) == [""] + Split([], c);
    } else {
      SplitTrailingSeparator(s[1..], c);
      assert (s + [c])[1..] == s[1..] + [c];
      var rest := Split(s[1..], c);
      if s[0] != c {
        assert (rest + [""])[0] == rest[0];
        assert (rest + [""])[1..] == rest[1..] + [""];
      }
    }
  }

  /** A trailing slash never changes where a pathname goes. */
  lemma TrailingSlashIgnored(path: string, caseSensitive: bool)
    ensures Resolve(path + "/", caseSensitive) == Resolve(path, caseSensitive)
  {
    if |path| > 0 && path[0] == '/' {
      assert (path + "/")[1..] == path[1..] + "/";
      SplitTrailingSeparator(path[1..], '/');
      var parts := Split(path[1..], '/');
      assert DropTrailingEmpty(parts + [""]) == DropTrailingEmpty(parts) by {
        assert (parts + [""])[..|parts|] == parts;
      }
      assert Segments(path + "/") == Segments(path);
    } else if |path| == 0 {
      assert Segments("/") == Some([]) by {
        assert "/"[1..] == "";
        assert Split("", '/') == [""];
      }
      assert RouteMatches("/", 0, caseSensitive);
      ResolveIsTheMatch("/", caseSensitive, 0);
      assert Segments(path).None?;
    } else {
      assert (path + "/")[0] == path[0];
    }
  }

  /** The pathname built from `segs` resolves to what route `i` renders for them. */
  lemma ResolvePathOf(segs: seq<string>, caseSensitive: bool, i: nat)
    requires forall k :: 0 <= k < |segs| ==> segs[k] != "" && '/' !in segs[k]
    requires i < |Table| && PatternMatches(Table[i].pattern, segs, caseSensitive)
    ensures Resolve(PathOf(segs), caseSensitive) == OutcomeOf(Table[i], segs)
  {
    SegmentsOfPath(segs);
    assert RouteMatches(PathOf(segs), i, caseSensitive);
    ResolveIsTheMatch(PathOf(segs), caseSensitive, i);
  }

  /** The pathname of up to four segments, spelled out. */
  lemma PathOfSpelled(a: string, b: string, c: string, d: string)
    ensures PathOf([]) == "/"
    ensures PathOf([a]) == "/" + a
    ensures PathOf([a, b]) == "/" + a + "/" + b
    ensures PathOf([a, b, c]) == "/" + a + "/" + b + "/" + c
    ensures PathOf([a, b, c, d]) == "/" + a + "/" + b + "/" + c + "/" + d
  {
    var j1 := Join([d], "/");
    var j2 := Join([c, d], "/");
    var j3 := Join([b, c, d], "/");
    assert [c, d][1..] == [d] && [b, c, d][1..] == [c, d] && [a, b, c, d][1..] == [b, c, d];
    assert j2 == c + "/" + d;
    assert j3 == b + "/" + (c + "/" + d);
    assert Join([a, b, c, d], "/") == a + "/" + (b + "/" + (c + "/" + d));
    assert [b, c][1..] == [c] && [a, b, c][1..] == [b, c] && [a, b][1..] == [b];
    assert Join([b, c], "/") == b + "/" + c;
    assert Join([a, b, c], "/") == a + "/" + (b + "/" + c);
    assert Join([a, b], "/") == a + "/" + b;
  }

  /** A detail pattern captures exactly its last segment. */
  lemma CapturesOfDetail(p: seq<Segment>, segs: seq<string>)
    requires |p| == 4 == |segs| && p[0].Lit? && p[1].Lit? && p[2].Lit? && p[3].Param?
    ensures Captures(p, segs) == [segs[3]]
  {
    assert p[3..][1..] == [] && segs[3..][1..] == [];
    assert Captures(p[3..], segs[3..]) == [segs[3]];
    assert p[2..][1..] == p[3..] && segs[2..][1..] == segs[3..];
    assert Captures(p[2..], segs[2..]) == [segs[3]];
    assert p[1..][1..] == p[2..] && segs[1..][1..] == segs[2..];
    assert Captures(p[1..], segs[1..]) == [segs[3]];
  }

  /** A pattern without parameters captures nothing. */
  lemma {:induction false} CapturesOfLiterals(p: seq<Segment>, segs: seq<string>)
    requires |p| == |segs| && forall k :: 0 <= k < |p| ==> p[k].Lit?
    ensures Captures(p, segs) == []
  {
    if |p| > 0 {
      CapturesOfLiterals(p[1..], segs[1..]);
    }
  }

  /** "/" redirects to the login page. */
  lemma RootRedirects(caseSensitive: bool)
    ensures Resolve("/", caseSensitive) == Redirect("/login")
  {
    assert PathOf([]) == "/";
    assert Table[0] == Route([], NavigateTo("/login"));
    ResolvePathOf([], caseSensitive, 0);
  }

  /** "/login" shows the login form. */
  lemma LoginShowsForm(caseSensitive: bool)
    ensures Resolve("/login", caseSensitive) == Show(LoginPage, [])
  {
    assert "/" + "login" == "/login";
    LoginSegment("login", caseSensitive);
  }

  /** "/<x>" shows the login form when `x` matches "login". */
  lemma LoginSegment(x: string, caseSensitive: bool)
    requires x != "" && '/' !in x && SegmentMatches(Lit("login"), x, caseSensitive)
    ensures Resolve("/" + x, caseSensitive) == Show(LoginPage, [])
  {
    var segs := [x];
    assert PathOf(segs) == "/" + x;
    assert Table[1] == Route([Lit("login")], Page(LoginPage));
    ResolvePathOf(segs, caseSensitive, 1);
    CapturesOfLiterals(Table[1].pattern, segs);
  }

  /** "/" and any pathname no route matches both end on the login page, and
      "/login" shows the login form. */
  lemma EntryPointsReachLogin(path: string, caseSensitive: bool)
    ensures Resolve("/", caseSensitive) == Redirect("/login")
    ensures Resolve("/login", caseSensitive) == Show(LoginPage, [])
    ensures (forall i :: !RouteMatches(path, i, caseSensitive)) ==> Resolve(path, caseSensitive) == Redirect("/login")
  {
    RootRedirects(caseSensitive);
    LoginShowsForm(caseSensitive);
  }

  /** One detail route: "/dashboard/<area>/<list>/<id>" is route `i`. */
  lemma DetailRoute(prefix: string, area: string, list: string, id: string, caseSensitive: bool, i: nat)
    requires prefix == "/" + "dashboard" + "/" + area + "/" + list + "/"
    requires id != "" && '/' !in id
    requires area != "" && '/' !in area && list != "" && '/' !in list
    requires i < |Table| && Table[i].element == Page(RequestDetail)
    requires Table[i].pattern == [Lit("dashboard"), Lit(area), Lit(list), Param("id")]
    ensures Resolve(prefix + id, caseSensitive) == Show(RequestDetail, [id])
  {
    var segs := ["dashboard", area, list, id];
    PathOfSpelled("dashboard", area, list, id);
    assert PatternMatches(Table[i].pattern, segs, caseSensitive);
    ResolvePathOf(segs, caseSensitive, i);
    CapturesOfDetail(Table[i].pattern, segs);
  }

  /** Every detail link resolves to the request detail page carrying the id,
      for any non-empty id without a slash, under each of the three prefixes. */
  lemma DetailRoutesCarryId(id: string, caseSensitive: bool)
    requires id != "" && '/' !in id
    ensures Resolve("/dashboard/cliente/mis-solicitudes/" + id, caseSensitive) == Show(RequestDetail, [id])
    ensures Resolve("/dashboard/soporte/solicitudes/" + id, caseSensitive) == Show(RequestDetail, [id])
    ensures Resolve("/dashboard/admin/solicitudes/" + id, caseSensitive) == Show(RequestDetail, [id])
  {
    ClientDetailRoute(id, caseSensitive);
    SupportDetailRoute(id, caseSensitive);
    AdminDetailRoute(id, caseSensitive);
  }

  /** The three detail prefixes, spelled segment by segment. */
  lemma ClientPrefixSpelled()
    ensures "/dashboard/cliente/mis-solicitudes/" == "/" + "dashboard" + "/" + "cliente" + "/" + "mis-solicitudes" + "/"
  {
  }

  lemma SupportPrefixSpelled()
    ensures "/dashboard/soporte/solicitudes/" == "/" + "dashboard" + "/" + "soporte" + "/" + "solicitudes" + "/"
  {
  }

  lemma AdminPrefixSpelled()
    ensures "/dashboard/admin/solicitudes/" == "/" + "dashboard" + "/" + "admin" + "/" + "solicitudes" + "/"
  {
  }

  lemma ClientDetailRoute(id: string, caseSensitive: bool)
    requires id != "" && '/' !in id
    ensures Resolve("/dashboard/cliente/mis-solicitudes/" + id, caseSensitive) == Show(RequestDetail, [id])
  {
    ClientPrefixSpelled();
    DetailRoute("/dashboard/cliente/mis-solicitudes/", "cliente", "mis-solicitudes", id, caseSensitive, 5);
  }

  lemma SupportDetailRoute(id: string, caseSensitive: bool)
    requires id != "" && '/' !in id
    ensures Resolve("/dashboard/soporte/solicitudes/" + id, caseSensitive) == Show(RequestDetail, [id])
  {
    SupportPrefixSpelled();
    DetailRoute("/dashboard/soporte/solicitudes/", "soporte", "solicitudes", id, caseSensitive, 9);
  }

  lemma AdminDetailRoute(id: string, caseSensitive: bool)
    requires id != "" && '/' !in id
    ensures Resolve("/dashboard/admin/solicitudes/" + id, caseSensitive) == Show(RequestDetail, [id])
  {
    AdminPrefixSpelled();
    DetailRoute("/dashboard/admin/solicitudes/", "admin", "solicitudes", id, caseSensitive, 14);
  }

  /** A pathname "/dashboard/<x>" with one more segment shows the client,
      support or admin dashboard when `x` names it (ignoring case unless the
      route is case-sensitive) and falls to the catch-all otherwise. */
  lemma DashboardSegment(x: string, caseSensitive: bool)
    requires x != "" && '/' !in x
    ensures Resolve("/dashboard/" + x, caseSensitive) ==
      if SegmentMatches(Lit("cliente"), x, caseSensitive) then Show(ClientDashboard, [])
      else if SegmentMatches(Lit("soporte"), x, caseSensitive) then Show(SupportDashboard, [])
      else if SegmentMatches(Lit("admin"), x, caseSensitive) then Show(AdminDashboard, [])
      else CatchAll
  {
    if SegmentMatches(Lit("cliente"), x, caseSensitive) {
      DashboardRoute(x, caseSensitive, 2);
    } else if SegmentMatches(Lit("soporte"), x, caseSensitive) {
      DashboardRoute(x, caseSensitive, 7);
    } else if SegmentMatches(Lit("admin"), x, caseSensitive) {
      DashboardRoute(x, caseSensitive, 11);
    } else {
      NoOtherDashboard(x, caseSensitive);
    }
  }

  /** "/dashboard/<x>" shows the page of the two-segment route `i` whose
      second literal `x` matches. */
  lemma DashboardRoute(x: string, caseSensitive: bool, i: nat)
    requires x != "" && '/' !in x
    requires i < |Table| && |Table[i].pattern| == 2 && Table[i].pattern[0] == Lit("dashboard")
    requires Table[i].pattern[1].Lit? && SegmentMatches(Table[i].pattern[1], x, caseSensitive)
    requires Table[i].element.Page?
    ensures Resolve("/dashboard/" + x, caseSensitive) == Show(Table[i].element.view, [])
  {
    var segs := ["dashboard", x];
    DashboardPath(x);
    assert Lower("dashboard") == "dashboard";
    assert PatternMatches(Table[i].pattern, segs, caseSensitive);
    assert RouteMatches("/dashboard/" + x, i, caseSensitive);
    ResolveIsTheMatch("/dashboard/" + x, caseSensitive, i);
    CapturesOfLiterals(Table[i].pattern, segs);
  }

  /** The segments of "/dashboard/<x>". */
  lemma DashboardPath(x: string)
    requires x != "" && '/' !in x
    ensures Segments("/dashboard/" + x) == Some(["dashboard", x])
  {
    PathOfSpelled("dashboard", x, "", "");
    assert "/" + "dashboard" + "/" == "/dashboard/";
    SegmentsOfPath(["dashboard", x]);
  }

  /** Only the three dashboard routes have two segments. */
  lemma NoOtherDashboard(x: string, caseSensitive: bool)
    requires x != "" && '/' !in x
    requires !SegmentMatches(Lit("cliente"), x, caseSensitive)
    requires !SegmentMatches(Lit("soporte"), x, caseSensitive)
    requires !SegmentMatches(Lit("admin"), x, caseSensitive)
    ensures forall i :: !RouteMatches("/dashboard/" + x, i, caseSensitive)
  {
    DashboardPath(x);
    forall i | 0 <= i < |Table| ensures !RouteMatches("/dashboard/" + x, i, caseSensitive) {
      if |Table[i].pattern| == 2 {
        assert i == 2 || i == 7 || i == 11;
      }
    }
  }

  /** A literal three-segment pathname resolves to what route `i` renders. */
  lemma ResolveThree(path: string, a: string, b: string, c: string, caseSensitive: bool, i: nat)
    requires path == "/" + a + "/" + b + "/" + c
    requires a != "" && '/' !in a && b != "" && '/' !in b && c != "" && '/' !in c
    requires i < |Table| && PatternMatches(Table[i].pattern, [a, b, c], caseSensitive)
    requires forall k :: 0 <= k < |Table[i].pattern| ==> Table[i].pattern[k].Lit?
    ensures Resolve(path, caseSensitive) == OutcomeOf(Table[i], [a, b, c])
    ensures Table[i].element.Page? ==> Resolve(path, caseSensitive) == Show(Table[i].element.view, [])
  {
    PathOfSpelled(a, b, c, "");
    ResolvePathOf([a, b, c], caseSensitive, i);
    CapturesOfLiterals(Table[i].pattern, [a, b, c]);
  }
}

=== FILE: session.dfy ===
/** src/store/user.store.ts: the zustand store holding the signed-in user,
    persisted under the key "user", as a small state machine; plus the rest of
    the browser storage the session flows touch (the "token" entry). */
module Session {
  import opened Base
  import opened Domain

  /** The store's `user` and the copy the persist middleware keeps in storage. */
  datatype Store = Store(user: Option<User>, persisted: Option<User>)

  /** Browser-side session state: the store and the `localStorage` "token" entry. */
  datatype Browser = Browser(store: Store, token: Option<string>)

  /** Write-through: the persisted copy equals the in-memory session. */
  predicate Consistent(st: Store) {
    st.persisted == st.user
  }

  /** The store before anything happened: `user: null`. */
  function Initial(): (st: Store)
    ensures st.user.None? && Consistent(st)
  {
    Store(None, None)
  }

  /** `setUser(u)`: the session becomes exactly `u`, whatever it was. */
  function SetUser(st: Store, u: User): (r: Store)
    ensures r.user == Some(u) && Consistent(r)
  {
    Store(Some(u), Some(u))
  }

  /** `clearUser()`: the session becomes null. */
  function ClearUser(st: Store): (r: Store)
    ensures r.user.None? && Consistent(r)
  {
    Store(None, None)
  }

  /** A reload rebuilds the store from its persisted copy. */
  function Rehydrate(st: Store): (r: Store)
    ensures r.user == st.persisted && Consistent(r)
  {
    Store(st.persisted, st.persisted)
  }

  /** The two mutations of the store. */
  datatype Op = Set(u: User) | Clear

  function Apply(st: Store, op: Op): Store {
    match op
    case Set(u) => SetUser(st, u)
    case Clear => ClearUser(st)
  }

  /** The store after performing `ops` in order. */
  function Run(st: Store, ops: seq<Op>): Store
    decreases |ops|
  {
    if |ops| == 0 then st else Run(Apply(st, ops[0]), ops[1..])
  }

  /** Last write wins: after a non-empty run the session is fixed by the last
      operation alone — the starting state and every earlier operation are
      forgotten — and the persisted copy agrees with it. */
  lemma {:induction false} LastWriteWins(st: Store, ops: seq<Op>)
    requires |ops| > 0
    ensures Run(st, ops) == Apply(Initial(), ops[|ops| - 1])
    ensures Consistent(Run(st, ops))
    decreases |ops|
  {
    if |ops| > 1 {
      LastWriteWins(Apply(st, ops[0]), ops[1..]);
      assert ops[1..][|ops[1..]| - 1] == ops[|ops| - 1];
    }
  }

  /** Every state reachable from the initial one is consistent, so a reload
      reconstructs exactly the last session set (or none after a clear). */
  lemma {:induction false} ReloadRestoresSession(ops: seq<Op>)
    ensures Consistent(Run(Initial(), ops))
    ensures Rehydrate(Run(Initial(), ops)) == Run(Initial(), ops)
  {
    if |ops| > 0 {
      LastWriteWins(Initial(), ops);
    }
  }

  /** `clearUser` is idempotent, and a reload after it still finds no session. */
  lemma ClearIsIdempotent(st: Store)
    ensures ClearUser(ClearUser(st)) == ClearUser(st)
    ensures Rehydrate(ClearUser(st)).user.None?
  {
  }
}

=== FILE: suggestions.dfy ===
/** src/api/ai-suggestions.api.ts: `generateResponseSuggestion`, which asks a
    list of hosted language models in turn for a reply to a ticket and falls
    back to a canned text. The inference service is a parameter: for a model
    id and the prompt (given by its entries; `Render` spells out its text)
    it says how that attempt went. */
module Suggestions {
  import opened Base
  import opened Text
  import opened Domain

  /** The ticket the suggestion is for. */
  datatype SuggestionRequest = SuggestionRequest(
    title: string,
    description: string,
    category: Option<string>,
    previousResponses: Option<seq<string>>)

  /** The function's result; `tried` lists the models asked, in order. */
  datatype SuggestionReply = SuggestionReply(success: bool, suggestion: string, message: Option<string>, tried: seq<string>)

  /** One element of an array reply. */
  datatype Item = Item(generatedText: Option<string>, translationText: Option<string>)

  /** The parsed JSON of an ok reply: an array, an object with
      `generated_text`, a bare string, or anything else. */
  datatype Body = Items(items: seq<Item>) | Generated(text: Option<string>) | Plain(content: string) | Unknown

  /** How one model attempt went: a reply that is not ok, a thrown fetch or
      JSON parse, or an ok reply with its body. */
  datatype Attempt = NotOk | Threw | Ok(body: Body)

  /** The models, in order of preference. */
  const Models: seq<string> := [
    "mistralai/Mixtral-8x7B-Instruct-v0.1",
    "HuggingFaceH4/zephyr-7b-beta",
    "microsoft/Phi-3-mini-4k-instruct",
    "google/flan-t5-base"]

  /** The text the reply carries: the first element's `generated_text`, else
      its `translation_text`; an object's `generated_text`; a bare string;
      "" for anything else, an empty array included. */
  function Extract(b: Body): (text: string)
    ensures b.Items? && |b.items| > 0 && b.items[0].generatedText.Some? && b.items[0].generatedText.value != "" ==>
      text == b.items[0].generatedText.value
    ensures b.Items? && |b.items| > 0 && (b.items[0].generatedText.None? || b.items[0].generatedText.value == "") ==>
      text == b.items[0].translationText.GetOr("")
    ensures b.Items? && |b.items| == 0 ==> text == ""
    ensures b.Generated? ==> text == b.text.GetOr("")
    ensures b.Plain? ==> text == b.content
    ensures b.Unknown? ==> text == ""
  {
    match b
    case Items(items) =>
      if |items| > 0 then OrElse(items[0].generatedText, OrElse(items[0].translationText, "")) else ""
    case Generated(t) => OrElse(t, "")
    case Plain(t) => t
    case Unknown => ""
  }

  /** The word that closes the prompt, which models tend to echo. */
  const Marker: string := "Respuesta:"

  /** The cut applied to the trimmed text: when it contains "Respuesta:",
      the trimmed text after the last occurrence, unless that is blank.
      Whatever the cut takes is non-empty, already trimmed and free of the
      marker. */
  function Cut(t: string): (r: string)
    ensures !Includes(t, Marker) ==> r == t
    ensures r != t ==> Includes(t, Marker) && !Includes(r, Marker)
    ensures r != t ==> |r| > 0 && !IsSpace(r[0]) && !IsSpace(r[|r| - 1])
  {
    var m := Marker;
    var r := CutAt(t, m);
    assert !Includes(t, m) ==> r == t;
    r
  }

  /** The cut at marker `m`: the trimmed text after its last occurrence,
      unless that is blank or `m` does not occur. */
  function CutAt(t: string, m: string): (r: string)
    requires |m| > 0
    ensures !Includes(t, m) ==> r == t
    ensures r != t ==> Includes(t, m) && !Includes(r, m)
    ensures r != t ==> |r| > 0 && !IsSpace(r[0]) && !IsSpace(r[|r| - 1])
  {
    if Includes(t, m) then
      var tail := Trim(LastPiece(t, m));
      TailHasNoMarker(t, m);
      if tail != "" then tail else t
    else t
  }

  /** The empty text holds no marker, so cutting leaves it empty. */
  lemma EmptyHasNoMarker()
    ensures !Includes("", Marker)
  {
  }

  /** The trimmed text after the last marker contains no marker. */
  lemma TailHasNoMarker(t: string, m: string)
    requires |m| > 0
    ensures !Includes(Trim(LastPiece(t, m)), m)
  {
    TrimKeepsAbsence(LastPiece(t, m), m);
  }

  /** The cleanup: trim, then cut at the last marker. The result is empty
      only for blank input, never starts or ends with white space, and when
      it is not simply the trimmed text it is free of the marker. */
  function Clean(s: string): (r: string)
    ensures r == "" <==> AllSpace(s)
    ensures |r| > 0 ==> !IsSpace(r[0]) && !IsSpace(r[|r| - 1])
    ensures !Includes(Trim(s), Marker) ==> r == Trim(s)
    ensures r != Trim(s) ==> !Includes(r, Marker) && Includes(Trim(s), Marker)
  {
    var t := Trim(s);
    TrimEmptyIffBlank(s);
    var r := Cut(t);
    assert t == "" ==> r == "" by {
      EmptyHasNoMarker();
    }
    assert r != t ==> |r| > 0;
    r
  }

  /** Cleaning a cleaned suggestion changes nothing. */
  lemma CleanIdempotent(s: string)
    ensures Clean(Clean(s)) == Clean(s)
  {
    var t := Trim(s);
    var r := Clean(s);
    TrimFixed(r);
    assert Clean(r) == Cut(r);
    if r != t {
      assert !Includes(r, Marker);
    }
  }

  /** `suggestion && suggestion.length >= 10`. */
  predicate Acceptable(s: string) {
    |s| >= 10
  }

  /** What an attempt contributes: the cleaned text of an ok reply when it
      is acceptable, nothing otherwise. */
  function Candidate(a: Attempt): (c: Option<string>)
    ensures c.Some? ==> a.Ok? && c.value == Clean(Extract(a.body)) && Acceptable(c.value)
    ensures a.Ok? && Acceptable(Clean(Extract(a.body))) ==> c.Some?
  {
    if a.Ok? && Acceptable(Clean(Extract(a.body))) then Some(Clean(Extract(a.body))) else None
  }

  /** The `for` loop over the models, with `pick` saying what each model's
      attempt contributes: they are asked in order and the first acceptable
      suggestion ends the loop. The second component is the models asked, a
      prefix of the list; when nothing was acceptable it is the whole list. */
  function Chain(models: seq<string>, pick: string -> Option<string>): (r: (Option<string>, seq<string>))
    ensures |r.1| <= |models| && r.1 == models[..|r.1|]
    ensures r.0.None? ==> r.1 == models
    ensures r.0.None? <==> forall k :: 0 <= k < |models| ==> pick(models[k]).None?
    ensures r.0.Some? ==>
      && |r.1| > 0
      && pick(r.1[|r.1| - 1]) == r.0
      && forall k :: 0 <= k < |r.1| - 1 ==> pick(r.1[k]).None?
    decreases |models|
  {
    if |models| == 0 then (None, [])
    else
      var c := pick(models[0]);
      if c.Some? then (c, [models[0]])
      else
        var rest := Chain(models[1..], pick);
        var tried := [models[0]] + rest.1;
        assert forall k :: 1 <= k < |tried| ==> tried[k] == rest.1[k - 1];
        assert forall k :: 1 <= k < |models| ==> models[k] == models[1..][k - 1];
        (rest.0, tried)
  }

  /** The chain stops at the first model that gives a suggestion: the
      models before it and that model are tried, and its suggestion is the
      result. */
  lemma {:induction false} ChainStopsAtFirst(models: seq<string>, pick: string -> Option<string>, k: nat)
    requires k < |models| && pick(models[k]).Some?
    requires forall j :: 0 <= j < k ==> pick(models[j]).None?
    ensures Chain(models, pick) == (pick(models[k]), models[..k + 1])
    decreases k
  {
    if k > 0 {
      var rest := models[1..];
      assert pick(models[0]).None?;
      forall j | 0 <= j < k - 1 ensures pick(rest[j]).None? {
        assert rest[j] == models[j + 1];
      }
      assert rest[k - 1] == models[k];
      ChainStopsAtFirst(rest, pick, k - 1);
      assert [models[0]] + rest[..k] == models[..k + 1];
    }
  }

  /** `previousResponses.slice(-2)`: the last two responses, or all when
      there are fewer. */
  function LastTwo(rs: seq<string>): (t: seq<string>)
    ensures |t| == (if |rs| < 2 then |rs| else 2)
    ensures t == rs[|rs| - |t|..]
  {
    if |rs| <= 2 then rs else rs[|rs| - 2..]
  }

  /** The context line: nothing without previous responses, otherwise the
      "Respuestas previas" header followed by the last two of them joined by
      ". " (what it then contains is `ContextMentionsRecent`). */
  function Context(previous: Option<seq<string>>): (text: string)
    ensures previous.None? || previous.value == [] ==> text == ""
  {
    if previous.Some? && |previous.value| > 0 then Recap(ContextHeader, previous.value) else ""
  }

  /** With previous responses the context line starts with the "Respuestas
      previas" header and contains the latest response and, when there is
      one, the response before it. */
  lemma ContextMentionsRecent(ps: seq<string>)
    requires |ps| > 0
    ensures StartsWith(Context(Some(ps)), ContextHeader)
    ensures Includes(Context(Some(ps)), ps[|ps| - 1])
    ensures |ps| >= 2 ==> Includes(Context(Some(ps)), ps[|ps| - 2])
  {
    var r := Recap(ContextHeader, ps);
    assert Context(Some(ps)) == r;
  }

  /** `header` followed by the last two responses joined by ". ": it starts
      with the header and contains the latest two responses. */
  function Recap(header: string, ps: seq<string>): (text: string)
    requires |ps| > 0
    ensures StartsWith(text, header)
    ensures Includes(text, ps[|ps| - 1])
    ensures |ps| >= 2 ==> Includes(text, ps[|ps| - 2])
  {
    var parts := LastTwo(ps);
    JoinedAfterHeader(header, parts, ". ");
    assert parts[|parts| - 1] == ps[|ps| - 1];
    assert |ps| >= 2 ==> parts[0] == ps[|ps| - 2];
    header + Join(parts, ". ")
  }

  /** What the context line opens with. */
  const ContextHeader: string := "\n\nRespuestas previas: "

  /** A header followed by one or two parts joined by `sep` starts with the
      header and contains every part. */
  lemma JoinedAfterHeader(header: string, parts: seq<string>, sep: string)
    requires 1 <= |parts| <= 2
    ensures StartsWith(header + Join(parts, sep), header)
    ensures Includes(header + Join(parts, sep), parts[0])
    ensures Includes(header + Join(parts, sep), parts[|parts| - 1])
  {
    var t := header + Join(parts, sep);
    assert t[..|header|] == header;
    assert OccursAt(t, parts[0], |header|);
    IncludesIffOccurs(t, parts[0]);
    if |parts| == 2 {
      assert Join(parts, sep) == parts[0] + sep + parts[1];
      assert OccursAt(t, parts[1], |header| + |parts[0]| + |sep|);
      IncludesIffOccurs(t, parts[1]);
    }
  }

  /** Responses older than the last two never reach the prompt: changing
      them leaves the context as it was. */
  lemma ContextIgnoresOlder(older: seq<string>, other: seq<string>, recent: seq<string>)
    requires |recent| == 2
    ensures Context(Some(older + recent)) == Context(Some(other + recent))
  {
    assert (older + recent)[|older + recent| - 2..] == recent;
    assert (other + recent)[|other + recent| - 2..] == recent;
  }

  /** `category || "General"`. */
  function CategoryText(category: Option<string>): (text: string)
    ensures text != ""
  {
    OrElse(category, "General")
  }

  /** What the prompt says about the ticket: its title, category (or
      "General"), description and the context line. */
  datatype PromptFields = PromptFields(title: string, category: string, description: string, context: string)

  /** The ticket's entries in the prompt. */
  function PromptOf(d: SuggestionRequest): (p: PromptFields)
    ensures p.title == d.title && p.description == d.description
    ensures p.category != "" && (d.category.Some? && d.category.value != "" ==> p.category == d.category.value)
    ensures p.context == Context(d.previousResponses)
  {
    PromptFields(d.title, CategoryText(d.category), d.description, Context(d.previousResponses))
  }

  /** The prompt's text, as sent to every model. */
  function Render(p: PromptFields): string {
    PromptBody(p) + Marker
  }

  /** Everything in the prompt before its closing marker. */
  function PromptBody(p: PromptFields): string {
    "Eres un asistente de soporte técnico profesional. \n\nTicket de soporte:\n- Título: " + p.title
    + "\n- Categoría: " + p.category
    + "\n- Descripción: " + p.description + p.context
    + "\n\nGenera una respuesta profesional, empática y útil (máximo 150 palabras) que ayude al cliente con su problema. Incluye pasos específicos si es posible.\n\n"
  }

  /** The prompt ends with the marker the cleanup cuts at, which is why a
      model that echoes it is still understood. */
  lemma PromptEndsWithMarker(p: PromptFields)
    ensures var text := Render(p); |text| >= |Marker| && text[|text| - |Marker|..] == Marker
  {
    EndsWithMarker(PromptBody(p));
  }

  lemma EndsWithMarker(b: string)
    ensures |b + Marker| >= |Marker| && (b + Marker)[|b + Marker| - |Marker|..] == Marker
  {
    assert (b + Marker)[|b|..] == Marker;
  }

  const CannedHead: string := "Gracias por contactarnos respecto a \""
  const CannedMiddle: string := "\". \n\nHemos recibido su solicitud en la categoría "
  const CannedTail: string :=
    " y nuestro equipo está revisando los detalles que nos ha proporcionado.\n\nPróximos pasos:\n"
    + "1. Nuestro equipo de soporte revisará su caso en detalle\n"
    + "2. Le proporcionaremos una solución específica a la brevedad\n"
    + "3. Si necesitamos más información, nos pondremos en contacto con usted\n\n"
    + "¿Hay algún detalle adicional que pueda ayudarnos a resolver su problema más rápidamente?\n\n"
    + "Atentamente,\nEquipo de Soporte Técnico"

  /** The reply used when no model gave an acceptable suggestion; it quotes
      the ticket's title and names its category. */
  function Canned(d: SuggestionRequest): (text: string)
    ensures Includes(text, d.title)
    ensures Includes(text, CategoryText(d.category))
  {
    var text := CannedHead + d.title + CannedMiddle + CategoryText(d.category) + CannedTail;
    var k1 := |CannedHead|;
    var k2 := |CannedHead + d.title + CannedMiddle|;
    assert text[k1..k1 + |d.title|] == d.title;
    assert text[k2..k2 + |CategoryText(d.category)|] == CategoryText(d.category);
    IncludesIffOccurs(text, d.title);
    IncludesIffOccurs(text, CategoryText(d.category));
    assert OccursAt(text, d.title, k1);
    assert OccursAt(text, CategoryText(d.category), k2);
    text
  }

  /** Whether some model's attempt at `prompt` gives an acceptable suggestion. */
  predicate SomeAcceptable(prompt: PromptFields, answer: (string, PromptFields) -> Attempt) {
    exists k :: 0 <= k < |Models| && Candidate(answer(Models[k], prompt)).Some?
  }

  /** `generateResponseSuggestion`. Without an API key (`env || ""` empty)
      it fails at once, empty-handed, asking no model. Otherwise the models
      are asked in order until one gives an acceptable cleaned suggestion,
      which is returned; when none does, all were asked and the reply is the
      canned text. Every call with a key succeeds. */
  function Generate(apiKey: Option<string>, d: SuggestionRequest, answer: (string, PromptFields) -> Attempt): (r: SuggestionReply)
    ensures OrElse(apiKey, "") == "" ==>
      r == SuggestionReply(false, "", Some("API Key de Hugging Face no configurada"), [])
    ensures OrElse(apiKey, "") != "" ==> r.success && r.message.None?
    ensures |r.tried| <= |Models| && r.tried == Models[..|r.tried|]
    ensures OrElse(apiKey, "") != "" && SomeAcceptable(PromptOf(d), answer) ==>
      && |r.tried| > 0
      && Candidate(answer(r.tried[|r.tried| - 1], PromptOf(d))) == Some(r.suggestion)
      && forall k :: 0 <= k < |r.tried| - 1 ==> Candidate(answer(r.tried[k], PromptOf(d))).None?
    ensures OrElse(apiKey, "") != "" && !SomeAcceptable(PromptOf(d), answer) ==>
      r.suggestion == Canned(d) && r.tried == Models
  {
    if OrElse(apiKey, "") == "" then
      SuggestionReply(false, "", Some("API Key de Hugging Face no configurada"), [])
    else
      var prompt := PromptOf(d);
      var pick := (m: string) => Candidate(answer(m, prompt));
      var c := Chain(Models, pick);
      if c.0.Some? then
        assert c.1[|c.1| - 1] == Models[|c.1| - 1];
        assert SomeAcceptable(prompt, answer);
        SuggestionReply(true, c.0.value, None, c.1)
      else
        assert forall k :: 0 <= k < |Models| ==> pick(Models[k]).None?;
        SuggestionReply(true, Canned(d), None, Models)
  }

  /** The first model whose attempt is acceptable gives the reply, and no
      later model is asked. */
  lemma FirstAcceptableWins(apiKey: string, d: SuggestionRequest, answer: (string, PromptFields) -> Attempt, k: nat)
    requires apiKey != ""
    requires k < |Models| && Candidate(answer(Models[k], PromptOf(d))).Some?
    requires forall j :: 0 <= j < k ==> Candidate(answer(Models[j], PromptOf(d))).None?
    ensures Generate(Some(apiKey), d, answer).tried == Models[..k + 1]
    ensures Generate(Some(apiKey), d, answer).suggestion == Candidate(answer(Models[k], PromptOf(d))).value
  {
    var prompt := PromptOf(d);
    var pick := (m: string) => Candidate(answer(m, prompt));
    assert forall j :: 0 <= j < k ==> pick(Models[j]).None?;
    ChainStopsAtFirst(Models, pick, k);
    assert Generate(Some(apiKey), d, answer) == SuggestionReply(true, pick(Models[k]).value, None, Models[..k + 1]);
  }

  /** When every model fails, all four are asked and the canned text is the
      reply, still with `success: true`. */
  lemma AllFailGivesCanned(apiKey: string, d: SuggestionRequest, answer: (string, PromptFields) -> Attempt)
    requires apiKey != ""
    requires forall j :: 0 <= j < |Models| ==> !answer(Models[j], PromptOf(d)).Ok?
    ensures Generate(Some(apiKey), d, answer) == SuggestionReply(true, Canned(d), None, Models)
  {
  }
}

=== FILE: support.dfy ===
/** src/components/soporte/DashboardSoporte.tsx: the support team's list of
    every request — its counters, the table's display defaults and detail
    links, and the status dialog, whose handler only pretends to update. */
module Support {
  import opened Base
  import opened Domain
  import Labels
  import R = Routes
  import A = AdminDashboard

  /** The four counters at the top. */
  datatype SupportStats = SupportStats(total: nat, resolved: nat, inProgress: nat, urgentPending: nat)

  /** `stats`: all requests; the RESOLVED or CLOSED ones; the IN_PROGRESS
      ones; and "Pendientes Urgentes", the PENDING requests of CRITICAL
      priority. Resolved and in-progress requests are disjoint, and urgent
      pending requests are both pending and critical. The resolved and
      in-progress counters agree with the administrator's chart for the same
      list, and the urgent counter is the critical requests among the
      pending ones. */
  function StatsOf(rs: seq<Request>): (st: SupportStats)
    ensures st.total == |rs|
    ensures st.resolved == A.ResolvedCount(rs)
    ensures st.inProgress == A.StatusCount(rs, IN_PROGRESS)
    ensures st.urgentPending == Count(Filter(rs, (r: Request) => r.status == PENDING), (r: Request) => r.priority == CRITICAL)
    ensures st.resolved + st.inProgress <= st.total
    ensures st.urgentPending <= Count(rs, (r: Request) => r.status == PENDING)
    ensures st.urgentPending <= Count(rs, (r: Request) => r.priority == CRITICAL)
    ensures st.urgentPending + st.resolved + st.inProgress <= st.total
  {
    var resolved := (r: Request) => IsResolved(r.status);
    var inProgress := (r: Request) => r.status == IN_PROGRESS;
    var urgent := (r: Request) => r.priority == CRITICAL && r.status == PENDING;
    var busy := (r: Request) => IsResolved(r.status) || r.status == IN_PROGRESS;
    var any := (r: Request) => IsResolved(r.status) || r.status == IN_PROGRESS || (r.priority == CRITICAL && r.status == PENDING);
    CountDisjoint(rs, resolved, inProgress, busy);
    CountDisjoint(rs, busy, urgent, any);
    CountMonotone(rs, urgent, (r: Request) => r.status == PENDING);
    CountMonotone(rs, urgent, (r: Request) => r.priority == CRITICAL);
    A.StatusCountIs(rs, IN_PROGRESS, inProgress);
    CountOfFilter(rs, (r: Request) => r.status == PENDING, (r: Request) => r.priority == CRITICAL, urgent);
    SupportStats(|rs|, Count(rs, resolved), Count(rs, inProgress), Count(rs, urgent))
  }

  /** The badges a row shows: a missing status reads as PENDING and a missing
      priority as LOW; a request whose fields are set is shown as it is. */
  lemma DisplayDefaults(r: Request)
    ensures Labels.StatusBadge(OrElse(None, "PENDING")) == Some(Labels.StatusVariant(PENDING))
    ensures Labels.PriorityBadge(OrElse(None, "LOW")) == Some(Labels.PriorityVariant(LOW))
    ensures Labels.StatusBadge(OrElse(Some(StatusCode(r.status)), "PENDING")) == Some(Labels.StatusVariant(r.status))
    ensures Labels.PriorityBadge(OrElse(Some(PriorityCode(r.priority)), "LOW")) == Some(Labels.PriorityVariant(r.priority))
  {
    Labels.BadgesTotal();
  }

  /** The "Cliente" cell: the owner's name or "Desconocido", over the email or "N/A". */
  function ClientCell(r: Request): (cell: (string, string))
    ensures cell.0 != "" && cell.1 != ""
    ensures r.user.Some? && r.user.value.name != "" ==> cell.0 == r.user.value.name
    ensures r.user.Some? && r.user.value.email != "" ==> cell.1 == r.user.value.email
  {
    var owner := r.user;
    (OrElse(if owner.Some? then Some(owner.value.name) else None, "Desconocido"),
     OrElse(if owner.Some? then Some(owner.value.email) else None, "N/A"))
  }

  /** The "Detalles" link: under the admin area for an administrator, under
      the support area for anyone else. */
  function DetailLink(role: Option<Role>, id: Option<string>): (to: string)
    ensures role == Some(ADMIN) ==> to == "/dashboard/admin/solicitudes/" + IdText(id)
    ensures role != Some(ADMIN) ==> to == "/dashboard/soporte/solicitudes/" + IdText(id)
  {
    (if role == Some(ADMIN) then "/dashboard/admin/solicitudes/" else "/dashboard/soporte/solicitudes/") + IdText(id)
  }

  /** Every detail link opens the detail page with the request's id, whoever
      follows it; a request without an id opens it for the id "undefined". */
  lemma DetailLinkOpensDetail(role: Option<Role>, id: Option<string>, caseSensitive: bool)
    requires id.Some? ==> id.value != "" && '/' !in id.value
    ensures R.Resolve(DetailLink(role, id), caseSensitive) == R.Show(R.RequestDetail, [IdText(id)])
  {
    R.SupportDetailRoute(IdText(id), caseSensitive);
    R.AdminDetailRoute(IdText(id), caseSensitive);
  }

  /** The targets of the "Cambiar Estado" select: a code and its caption. */
  const StatusOptions: seq<(string, string)> := [
    ("PENDING", "Pendiente"),
    ("IN_PROGRESS", "En Progreso"),
    ("RESOLVED", "Resuelto"),
    ("CLOSED", "Cerrado"),
    ("CANCELLED", "Cancelado")]

  /** The select offers the same five targets whatever the request's status:
      there is no transition rule. */
  function TargetsFor(current: Option<Request>): (options: seq<(string, string)>)
    ensures |options| == 5
    ensures forall s: Status :: exists k :: 0 <= k < |options| && options[k].0 == StatusCode(s)
    ensures forall k :: 0 <= k < |options| ==> ParseStatus(options[k].0).Some?
  {
    assert forall s: Status :: StatusCode(s) == StatusOptions[StatusIndex(s)].0;
    StatusOptions
  }

  /** Where a status sits in the select. */
  function StatusIndex(s: Status): (k: nat)
    ensures k < 5
  {
    match s
    case PENDING => 0
    case IN_PROGRESS => 1
    case RESOLVED => 2
    case CLOSED => 3
    case CANCELLED => 4
  }

  /** The select calls IN_PROGRESS "En Progreso", while its badge says "En Proceso". */
  lemma InProgressCaptionsDiffer()
    ensures StatusOptions[StatusIndex(IN_PROGRESS)].1 != Labels.StatusLabel(IN_PROGRESS)
    ensures forall s: Status :: s != IN_PROGRESS ==> StatusOptions[StatusIndex(s)].1 == Labels.StatusLabel(s)
  {
  }

  /** The page: the list, the dialog's visibility, the selected request and
      the chosen status code. */
  datatype Page = Page(requests: seq<Request>, dialogOpen: bool, selected: Option<Request>, chosen: string)

  const Initial: Page := Page([], false, None, "")

  /** What the page does in response to the user or a settled fetch. */
  datatype Action =
    | Loaded(reply: Fetch<seq<Request>>)
    | DialogChange(open: bool)
    | Choose(code: string)
    | Cancel
    | UpdateStatus

  /** The outcome of one action: the next page, a notification, and whether
      the list is fetched again. */
  datatype Step = Step(page: Page, toast: Option<Toast>, refetch: bool)

  /** `handleStatusChange`: with no request selected nothing happens.
      Otherwise it announces success, closes the dialog, clears the selection
      and refetches; it sends nothing, so no request's status changes. */
  function StatusChange(p: Page): (st: Step)
    ensures p.selected.None? ==> st == Step(p, None, false)
    ensures p.selected.Some? ==>
      && st.page == Page(p.requests, false, None, p.chosen)
      && st.toast == Some(Success("Estado actualizado correctamente"))
      && st.refetch
  {
    if p.selected.Some? then
      Step(Page(p.requests, false, None, p.chosen), Some(Success("Estado actualizado correctamente")), true)
    else Step(p, None, false)
  }

  /** `getAllRequests` once the call settled: a reply replaces the list, a
      refusal shows the server's message and keeps the list, and a rejected
      call leaves everything as it was. */
  function Load(p: Page, reply: Fetch<seq<Request>>): (st: Step)
    ensures reply.Fetched? ==> st.page == p.(requests := reply.items) && st.toast.None?
    ensures !reply.Fetched? ==> st.page == p
    ensures reply.Refused? ==> st.toast == Some(Failure(reply.message.GetOr("")))
    ensures !st.refetch
  {
    match reply
    case Fetched(items) => Step(p.(requests := items), None, false)
    case Refused(m) => Step(p, Some(Failure(m.GetOr(""))), false)
    case Thrown => Step(p, None, false)
  }

  /** One action. */
  function Apply(p: Page, a: Action): (st: Step)
    ensures a.Cancel? ==> st.page == p.(dialogOpen := false, selected := None)
    ensures !a.Loaded? && !a.UpdateStatus? ==> st.toast.None? && !st.refetch
    ensures st.page.selected.Some? ==> p.selected.Some?
  {
    match a
    case Loaded(reply) => Load(p, reply)
    case DialogChange(open) => Step(p.(dialogOpen := open), None, false)
    case Choose(code) => Step(p.(chosen := code), None, false)
    case Cancel => Step(p.(dialogOpen := false, selected := None), None, false)
    case UpdateStatus => StatusChange(p)
  }

  /** The page after a sequence of actions. */
  function Run(p: Page, actions: seq<Action>): Page
    decreases |actions|
  {
    if |actions| == 0 then p else Run(Apply(p, actions[0]).page, actions[1..])
  }

  /** Nothing on the page ever selects a request, so from the first render
      on the selection stays empty and "Actualizar Estado" does nothing at all. */
  lemma {:induction false} StatusDialogInert(p: Page, actions: seq<Action>)
    requires p.selected.None?
    ensures Run(p, actions).selected.None?
    ensures StatusChange(Run(p, actions)) == Step(Run(p, actions), None, false)
    decreases |actions|
  {
    if |actions| > 0 {
      StatusDialogInert(Apply(p, actions[0]).page, actions[1..]);
    }
  }

  /** The card body: the table, or the "No se encontraron solicitudes" note. */
  datatype ListBody = Rows(rows: seq<Request>) | NoneFound

  /** The list card: the count and noun of its title, and its body. */
  datatype ListView = ListView(count: nat, noun: string, body: ListBody)

  /** The list is never missing (it starts as []), so the skeleton branch
      never renders: the card always shows, titled with the list's length,
      and an empty list shows "No se encontraron solicitudes" under
      "0 Solicitudes". */
  function ListOf(p: Page): (v: ListView)
    ensures v.count == |p.requests| && v.noun == Labels.RequestsNoun(v.count)
    ensures v.body.NoneFound? <==> p.requests == []
    ensures v.body.Rows? ==> v.body.rows == p.requests
  {
    var body := if |p.requests| > 0 then Rows(p.requests) else NoneFound;
    ListView(|p.requests|, Labels.RequestsNoun(|p.requests|), body)
  }

  /** The card's title counts what the "Solicitudes totales" counter counts,
      and the empty note shows exactly when that counter reads 0. After a
      reply, the table lists the reply's requests; a refused or failed load
      leaves the card as it was. */
  lemma ListAgreesWithCounters(p: Page, reply: Fetch<seq<Request>>)
    ensures ListOf(p).count == StatsOf(p.requests).total
    ensures ListOf(p).body.NoneFound? <==> StatsOf(p.requests).total == 0
    ensures reply.Fetched? && reply.items != [] ==> ListOf(Load(p, reply).page).body == Rows(reply.items)
    ensures !reply.Fetched? ==> ListOf(Load(p, reply).page) == ListOf(p)
  {
  }
}

=== FILE: text.dfy ===
/** The JavaScript string operations the screens rely on, stated on
    `string = seq<char>`: `trim`, `toLowerCase`/`toUpperCase` (ASCII letters
    only), `includes`, `split` and `join`, and `split(marker).pop()`. */
module Text {

  /** The characters `String.prototype.trim` removes: ECMAScript's WhiteSpace
      (tab, vertical tab, form feed, ZWNBSP and every Zs space separator) and
      LineTerminator (LF, CR, LS, PS). */
  predicate IsSpace(c: char) {
    || c == '\t' || c == '\U{000B}' || c == '\U{000C}' || c == ' '
    || c == '\U{00A0}' || c == '\U{FEFF}' || c == '\U{1680}'
    || ('\U{2000}' <= c <= '\U{200A}')
    || c == '\U{202F}' || c == '\U{205F}' || c == '\U{3000}'
    || c == '\n' || c == '\r' || c == '\U{2028}' || c == '\U{2029}'
  }

  /** Every character of `s` is white space (vacuously true of ""). */
  predicate AllSpace(s: string) {
    forall i :: 0 <= i < |s| ==> IsSpace(s[i])
  }

  /** `s.trimStart()`: the suffix left after dropping leading white space. */
  function TrimStart(s: string): (r: string)
    ensures |r| <= |s| && r == s[|s| - |r|..]
    ensures AllSpace(s[..|s| - |r|])
    ensures |r| > 0 ==> !IsSpace(r[0])
  {
    if |s| > 0 && IsSpace(s[0]) then TrimStart(s[1..]) else s
  }

  /** `s.trimEnd()`: the prefix left after dropping trailing white space. */
  function TrimEnd(s: string): (r: string)
    ensures |r| <= |s| && r == s[..|r|]
    ensures AllSpace(s[|r|..])
    ensures |r| > 0 ==> !IsSpace(r[|r| - 1])
  {
    if |s| > 0 && IsSpace(s[|s| - 1]) then TrimEnd(s[..|s| - 1]) else s
  }

  /** `s.trim()`: leading and trailing white space dropped, so the result
      neither starts nor ends with white space. */
  function Trim(s: string): (r: string)
    ensures |r| > 0 ==> !IsSpace(r[0]) && !IsSpace(r[|r| - 1])
  {
    TrimEnd(TrimStart(s))
  }

  /** `trimStart` removes all of a blank string. */
  lemma {:induction false} TrimStartOfBlank(s: string)
    requires AllSpace(s)
    ensures TrimStart(s) == ""
  {
    if |s| > 0 {
      assert AllSpace(s[1..]) by {
        forall k | 0 <= k < |s| - 1 ensures IsSpace(s[1..][k]) {
          assert s[1..][k] == s[k + 1];
        }
      }
      TrimStartOfBlank(s[1..]);
    }
  }

  /** A string trims to "" exactly when it is all white space: the guard
      `!text.trim()` rejects precisely the blank inputs. */
  lemma TrimEmptyIffBlank(s: string)
    ensures Trim(s) == "" <==> AllSpace(s)
  {
    var a := TrimStart(s);
    var i := |s| - |a|;
    if AllSpace(s) {
      TrimStartOfBlank(s);
    }
    if Trim(s) == "" {
      assert AllSpace(a) by {
        assert a[0..] == a;
      }
      assert a == "";
      assert s[..i] == s;
    }
  }

  /** A string that neither starts nor ends with white space trims to itself,
      so trimming is idempotent. */
  lemma TrimFixed(s: string)
    requires |s| > 0 ==> !IsSpace(s[0]) && !IsSpace(s[|s| - 1])
    ensures Trim(s) == s
  {
    assert TrimStart(s) == s;
    assert TrimEnd(s) == s;
  }

  /** A slice of a string in which `t` does not occur does not contain `t` either. */
  lemma SliceKeepsAbsence(s: string, t: string, i: int, j: int)
    requires 0 <= i <= j <= |s| && !Includes(s, t)
    ensures !Includes(s[i..j], t)
  {
    IncludesIffOccurs(s, t);
    IncludesIffOccurs(s[i..j], t);
    forall k | OccursAt(s[i..j], t, k) ensures OccursAt(s, t, i + k) {
      assert k + |t| <= j - i;
      var w := s[i..j][k..k + |t|];
      var v := s[i + k..i + k + |t|];
      forall n | 0 <= n < |t| ensures w[n] == v[n] {
        assert w[n] == s[i + k + n];
      }
      assert w == v;
    }
  }

  /** Trimming keeps a string free of `t`. */
  lemma TrimKeepsAbsence(s: string, t: string)
    requires !Includes(s, t)
    ensures !Includes(Trim(s), t)
  {
    var a := TrimStart(s);
    assert a == s[|s| - |a|..|s|];
    SliceKeepsAbsence(s, t, |s| - |a|, |s|);
    var r := TrimEnd(a);
    assert r == a[0..|r|];
    SliceKeepsAbsence(a, t, 0, |r|);
    assert Trim(s) == r;
  }

  /** ASCII `toLowerCase` of one character; other characters are unchanged. */
  function LowerChar(c: char): char {
    if 'A' <= c <= 'Z' then (c as int + 32) as char else c
  }

  /** ASCII `toUpperCase` of one character; other characters are unchanged. */
  function UpperChar(c: char): char {
    if 'a' <= c <= 'z' then (c as int - 32) as char else c
  }

  /** `s.toLowerCase()` restricted to ASCII letters. */
  function Lower(s: string): (r: string)
    ensures |r| == |s|
    ensures forall i :: 0 <= i < |s| ==> r[i] == LowerChar(s[i])
  {
    seq(|s|, i requires 0 <= i < |s| => LowerChar(s[i]))
  }

  /** `s.toUpperCase()` restricted to ASCII letters. */
  function Upper(s: string): (r: string)
    ensures |r| == |s|
    ensures forall i :: 0 <= i < |s| ==> r[i] == UpperChar(s[i])
  {
    seq(|s|, i requires 0 <= i < |s| => UpperChar(s[i]))
  }

  /** `s.startsWith(t)`. */
  predicate StartsWith(s: string, t: string) {
    |t| <= |s| && s[..|t|] == t
  }

  /** `s.includes(t)`: `t` occurs in `s` at some position. */
  predicate Includes(s: string, t: string)
    decreases |s|
  {
    StartsWith(s, t) || (|s| > 0 && Includes(s[1..], t))
  }

  /** `t` occurs in `s` starting at position `k`. */
  predicate OccursAt(s: string, t: string, k: int) {
    0 <= k && k + |t| <= |s| && s[k..k + |t|] == t
  }

  /** `includes` searches every position, and nothing else. */
  lemma {:induction false} IncludesIffOccurs(s: string, t: string)
    ensures Includes(s, t) <==> exists k :: OccursAt(s, t, k)
  {
    if |s| > 0 {
      IncludesIffOccurs(s[1..], t);
      if Includes(s[1..], t) {
        var k :| OccursAt(s[1..], t, k);
        assert s[1..][k..k + |t|] == s[k + 1..k + 1 + |t|];
        assert OccursAt(s, t, k + 1);
      }
      if exists k :: OccursAt(s, t, k) {
        var k :| OccursAt(s, t, k);
        if k > 0 {
          assert s[1..][k - 1..k - 1 + |t|] == s[k..k + |t|];
          assert OccursAt(s[1..], t, k - 1);
        } else {
          assert StartsWith(s, t);
        }
      }
      if StartsWith(s, t) { assert OccursAt(s, t, 0); }
    } else {
      if StartsWith(s, t) { assert OccursAt(s, t, 0); }
    }
  }

  /** Every string includes the empty string (JavaScript `"abc".includes("")`). */
  lemma IncludesEmpty(s: string)
    ensures Includes(s, "")
  {
    assert StartsWith(s, "");
  }

  /** `s.split(sep)` for a one-character separator: the pieces between
      separators, so a string with k separators has k + 1 pieces (possibly empty). */
  function Split(s: string, sep: char): (parts: seq<string>)
    ensures |parts| >= 1
    ensures forall k :: 0 <= k < |parts| ==> sep !in parts[k]
  {
    if |s| == 0 then [""]
    else
      var rest := Split(s[1..], sep);
      if s[0] == sep then [""] + rest
      else [[s[0]] + rest[0]] + rest[1..]
  }

  /** `parts.join(sep)`. */
  function Join(parts: seq<string>, sep: string): string {
    if |parts| == 0 then ""
    else if |parts| == 1 then parts[0]
    else parts[0] + sep + Join(parts[1..], sep)
  }

  /** Splitting then joining with the same separator gives the string back, so
      `Split` loses nothing: the pieces are exactly the text between separators. */
  lemma {:induction false} JoinSplit(s: string, sep: char)
    ensures Join(Split(s, sep), [sep]) == s
  {
    if |s| > 0 {
      var rest := Split(s[1..], sep);
      JoinSplit(s[1..], sep);
      if s[0] == sep {
        assert Split(s, sep) == [""] + rest;
        assert ([""] + rest)[1..] == rest;
      } else {
        var parts := [[s[0]] + rest[0]] + rest[1..];
        assert Split(s, sep) == parts;
        if |rest| == 1 {
          assert rest[0] == s[1..];
        } else {
          assert parts[1..] == rest[1..];
          assert Join(rest, [sep]) == rest[0] + [sep] + Join(rest[1..], [sep]);
        }
      }
    }
  }

  /** A string without the separator splits into itself. */
  lemma {:induction false} SplitNoSeparator(a: string, c: char)
    requires c !in a
    ensures Split(a, c) == [a]
  {
    if |a| > 0 {
      assert c !in a[1..];
      SplitNoSeparator(a[1..], c);
      assert [a[0]] + a[1..] == a;
    }
  }

  /** `split` yields a single piece exactly when the separator is absent. */
  lemma {:induction false} SplitSingleIffAbsent(s: string, c: char)
    ensures |Split(s, c)| == 1 <==> c !in s
  {
    if |s| > 0 {
      SplitSingleIffAbsent(s[1..], c);
      assert s == [s[0]] + s[1..];
    }
  }

  /** The first piece of a split is the text before the first separator. */
  lemma {:induction false} SplitFirstIsPrefix(s: string, c: char)
    ensures var p := Split(s, c)[0];
      |p| <= |s| && p == s[..|p|] && (|p| < |s| ==> s[|p|] == c)
  {
    if |s| > 0 {
      SplitFirstIsPrefix(s[1..], c);
    }
  }

  /** Splitting `a + [c] + t` with `c` absent from `a` yields `a` as the first piece. */
  lemma {:induction false} SplitAfterPiece(a: string, t: string, c: char)
    requires c !in a
    ensures Split(a + [c] + t, c) == [a] + Split(t, c)
  {
    var s := a + [c] + t;
    if |a| == 0 {
      assert s == [c] + t && s[1..] == t;
    } else {
      assert c !in a[1..];
      SplitAfterPiece(a[1..], t, c);
      assert s[1..] == a[1..] + [c] + t;
      assert [a[0]] + a[1..] == a;
    }
  }

  /** Joining pieces that do not contain the separator, then splitting, gives
      the pieces back: the other half of the `split`/`join` round trip. */
  lemma {:induction false} SplitJoin(parts: seq<string>, c: char)
    requires |parts| >= 1
    requires forall k :: 0 <= k < |parts| ==> c !in parts[k]
    ensures Split(Join(parts, [c]), c) == parts
  {
    if |parts| == 1 {
      SplitNoSeparator(parts[0], c);
    } else {
      SplitJoin(parts[1..], c);
      SplitAfterPiece(parts[0], Join(parts[1..], [c]), c);
      assert [parts[0]] + parts[1..] == parts;
    }
  }

  /** The start of the final piece of `s.split(m)`, scanning as JavaScript does:
      from position `i`, with `p` the end of the last separator found so far. */
  function TailStart(s: string, m: string, i: nat, p: nat): (e: nat)
    requires |m| > 0 && p <= i <= |s|
    ensures p <= e <= |s|
    decreases |s| - i
  {
    if i + |m| > |s| then p
    else if s[i..i + |m|] == m then TailStart(s, m, i + |m|, i + |m|)
    else TailStart(s, m, i + 1, p)
  }

  /** The scan ends either where it started from or right after a separator. */
  lemma {:induction false} TailStartFollowsMarker(s: string, m: string, i: nat, p: nat)
    requires |m| > 0 && p <= i <= |s|
    ensures var e := TailStart(s, m, i, p); e == p || OccursAt(s, m, e - |m|)
    decreases |s| - i
  {
    if i + |m| > |s| {
      assert TailStart(s, m, i, p) == p;
    } else if s[i..i + |m|] == m {
      var q := i + |m|;
      assert TailStart(s, m, i, p) == TailStart(s, m, q, q);
      TailStartFollowsMarker(s, m, q, q);
      assert OccursAt(s, m, q - |m|) by {
        assert q - |m| == i;
      }
    } else {
      assert TailStart(s, m, i, p) == TailStart(s, m, i + 1, p);
      TailStartFollowsMarker(s, m, i + 1, p);
    }
  }

  /** No separator starts at or after the position where the scan ends. */
  lemma {:induction false} TailStartHasNoMarker(s: string, m: string, i: nat, p: nat)
    requires |m| > 0 && p <= i <= |s|
    requires forall k :: p <= k < i ==> !OccursAt(s, m, k)
    ensures forall k :: TailStart(s, m, i, p) <= k ==> !OccursAt(s, m, k)
    decreases |s| - i
  {
    var e := TailStart(s, m, i, p);
    if i + |m| > |s| {
      assert e == p;
      forall k | p <= k ensures !OccursAt(s, m, k) {
        if k >= i { assert k + |m| > |s|; }
      }
    } else if s[i..i + |m|] == m {
      assert e == TailStart(s, m, i + |m|, i + |m|);
      TailStartHasNoMarker(s, m, i + |m|, i + |m|);
    } else {
      assert e == TailStart(s, m, i + 1, p);
      assert !OccursAt(s, m, i);
      TailStartHasNoMarker(s, m, i + 1, p);
    }
  }

  /** The text after the scan's end contains no separator. */
  lemma TailStartLeavesNoMarker(s: string, m: string)
    requires |m| > 0
    ensures !Includes(s[TailStart(s, m, 0, 0)..], m)
  {
    var e := TailStart(s, m, 0, 0);
    TailStartHasNoMarker(s, m, 0, 0);
    IncludesIffOccurs(s[e..], m);
    forall k | OccursAt(s[e..], m, k) ensures OccursAt(s, m, e + k) {
      assert s[e..][k..k + |m|] == s[e + k..e + k + |m|];
    }
  }

  /** The scan ends at 0 exactly when `m` does not occur, and otherwise
      right after an occurrence. */
  lemma TailStartAfterLast(s: string, m: string)
    requires |m| > 0
    ensures var e := TailStart(s, m, 0, 0);
      && (e == 0 <==> !Includes(s, m))
      && (e != 0 ==> OccursAt(s, m, e - |m|))
  {
    TailStartHasNoMarker(s, m, 0, 0);
    TailStartFollowsMarker(s, m, 0, 0);
    IncludesIffOccurs(s, m);
  }

  /** `s.split(m).pop()`: the text after the last occurrence of `m`, or the
      whole of `s` when `m` does not occur. */
  function LastPiece(s: string, m: string): (r: string)
    requires |m| > 0
    ensures |r| <= |s| && r == s[|s| - |r|..]
    ensures !Includes(r, m)
    ensures !Includes(s, m) ==> r == s
    ensures Includes(s, m) ==> |r| + |m| <= |s| && s[|s| - |r| - |m|..|s| - |r|] == m
  {
    TailStartLeavesNoMarker(s, m);
    TailStartAfterLast(s, m);
    s[TailStart(s, m, 0, 0)..]
  }

  /** A decimal digit character. */
  predicate IsDigit(c: char) {
    '0' <= c <= '9'
  }

  /** The number a string of decimal digits spells. */
  function DecimalValue(s: string): nat
    requires forall i :: 0 <= i < |s| ==> IsDigit(s[i])
  {
    if |s| == 0 then 0
    else
      assert IsDigit(s[|s| - 1]);
      DecimalValue(s[..|s| - 1]) * 10 + (s[|s| - 1] as int - '0' as int)
  }

  /** A number in a template literal (`${n}`): its decimal digits, with no
      leading zero unless the number is zero. */
  function Decimal(n: nat): (r: string)
    ensures |r| >= 1
    ensures forall i :: 0 <= i < |r| ==> IsDigit(r[i])
    ensures r[0] == '0' ==> n == 0
  {
    var d := [(('0' as int) + n % 10) as char];
    if n < 10 then d else Decimal(n / 10) + d
  }

  /** Reading the digits back gives the number: no two numbers print alike. */
  lemma {:induction false} DecimalRoundTrip(n: nat)
    ensures DecimalValue(Decimal(n)) == n
  {
    var r := Decimal(n);
    if n >= 10 {
      DecimalRoundTrip(n / 10);
      assert r[..|r| - 1] == Decimal(n / 10);
    }
  }
}

=== FILE: users.dfy ===
/** src/components/admin/GestionUsuarios.tsx: the administrator's user list —
    its search and role filter, the counters above it, loading, the status
    switch, the create and edit forms and their submit handlers. Each handler
    is a function from the page state and the server's reply to the next
    state, the notification it shows and whether it reloads the list. */
module Users {
  import opened Base
  import opened Text
  import opened Domain

  /** The role filter: "todos" or one role. */
  datatype RoleFilter = Everyone | Only(role: Role)

  /** `matchesSearch`: the lower-cased name or email contains the lower-cased query. */
  predicate MatchesSearch(u: User, query: string) {
    Includes(Lower(u.name), Lower(query)) || Includes(Lower(u.email), Lower(query))
  }

  /** `matchesRole`. */
  predicate MatchesRole(u: User, filter: RoleFilter) {
    filter.Everyone? || u.role == filter.role
  }

  /** Whether `filteredUsers` keeps `u`. */
  predicate Kept(u: User, query: string, filter: RoleFilter) {
    MatchesSearch(u, query) && MatchesRole(u, filter)
  }

  /** `filteredUsers`: the users kept, in list order. */
  function FilteredUsers(users: seq<User>, query: string, filter: RoleFilter): (r: seq<User>)
    ensures |r| <= |users|
    ensures forall i :: 0 <= i < |r| ==> r[i] in users && Kept(r[i], query, filter)
    ensures forall i :: 0 <= i < |users| && Kept(users[i], query, filter) ==> users[i] in r
  {
    Filter(users, (u: User) => Kept(u, query, filter))
  }

  /** Filtering a list split in two filters each half and keeps them in
      order: the table lists the kept users in the order the server sent them. */
  lemma FilterKeepsOrder(a: seq<User>, b: seq<User>, query: string, filter: RoleFilter)
    ensures FilteredUsers(a + b, query, filter) == FilteredUsers(a, query, filter) + FilteredUsers(b, query, filter)
  {
    FilterConcat(a, b, (u: User) => Kept(u, query, filter));
  }

  /** The page as it first renders, an empty search with "todos", lists every user. */
  lemma NoFilterKeepsEveryone(users: seq<User>)
    ensures FilteredUsers(users, "", Everyone) == users
  {
    forall i | 0 <= i < |users| ensures Kept(users[i], "", Everyone) {
      IncludesEmpty(Lower(users[i].name));
    }
    FilterAll(users, (u: User) => Kept(u, "", Everyone));
  }

  /** Lower-casing an ASCII-lower-cased string changes nothing, and neither
      does upper-casing it first. */
  lemma LowerAbsorbs(s: string)
    ensures Lower(Lower(s)) == Lower(s)
    ensures Lower(Upper(s)) == Lower(s)
  {
  }

  /** The search ignores letter case: typing the query in capitals or in
      lower case shows the same users. */
  lemma SearchIgnoresCase(users: seq<User>, query: string, filter: RoleFilter)
    ensures FilteredUsers(users, Upper(query), filter) == FilteredUsers(users, query, filter)
    ensures FilteredUsers(users, Lower(query), filter) == FilteredUsers(users, query, filter)
  {
    LowerAbsorbs(query);
    FilterAgree(users, (u: User) => Kept(u, Upper(query), filter), (u: User) => Kept(u, query, filter));
    FilterAgree(users, (u: User) => Kept(u, Lower(query), filter), (u: User) => Kept(u, query, filter));
  }

  /** The three one-role filters split what "todos" shows between them. */
  lemma RoleFiltersPartition(users: seq<User>, query: string)
    ensures |FilteredUsers(users, query, Everyone)|
      == |FilteredUsers(users, query, Only(CLIENT))|
       + |FilteredUsers(users, query, Only(SUPPORT))|
       + |FilteredUsers(users, query, Only(ADMIN))|
  {
    var c := (u: User) => Kept(u, query, Only(CLIENT));
    var s := (u: User) => Kept(u, query, Only(SUPPORT));
    var a := (u: User) => Kept(u, query, Only(ADMIN));
    var cs := (u: User) => MatchesSearch(u, query) && (u.role == CLIENT || u.role == SUPPORT);
    var all := (u: User) => Kept(u, query, Everyone);
    CountDisjoint(users, c, s, cs);
    CountDisjoint(users, cs, a, all);
  }

  /** The three counters under the table. */
  datatype UserStats = UserStats(total: nat, active: nat, shown: nat)

  /** "Total Usuarios", "Usuarios Activos" and "Resultados Filtrados": the
      last two never exceed the first; the active and inactive users make up
      the total; and the filtered counter is the number of rows the loaded
      table shows for the same search and role filter. */
  function Stats(users: seq<User>, query: string, filter: RoleFilter): (s: UserStats)
    ensures s.total == |users|
    ensures s.active <= s.total && s.shown <= s.total
    ensures s.active == 0 <==> forall i :: 0 <= i < |users| ==> !users[i].active
    ensures s.active + Count(users, (u: User) => !u.active) == s.total
    ensures s.shown == 0 <==> forall i :: 0 <= i < |users| ==> !Kept(users[i], query, filter)
    ensures var v := UsersView(ListState(users, false), query, filter);
      if v.Table? then s.shown == |v.rows| else s.shown == 0
  {
    var shown := FilteredUsers(users, query, filter);
    CountDisjoint(users, (u: User) => u.active, (u: User) => !u.active, (u: User) => true);
    CountAll(users, (u: User) => true);
    UserStats(|users|, Count(users, (u: User) => u.active), |shown|)
  }

  /** The list and its loading flag. */
  datatype ListState = ListState(users: seq<User>, loading: bool)

  /** `getAllUsers` once the call settled. A reply lists its users; a refused
      call shows an error and empties the list; either way loading ends. The
      API rethrows a network failure, which aborts the handler while the
      list still shows as loading. */
  function LoadUsers(s: ListState, reply: Fetch<seq<User>>): (r: (ListState, Option<Toast>))
    ensures reply.Fetched? ==> r.0 == ListState(reply.items, false) && r.1.None?
    ensures reply.Refused? ==>
      r.0 == ListState([], false) && r.1 == Some(Failure(OrElse(reply.message, "Error al cargar los usuarios")))
    ensures reply.Thrown? ==> r.0.users == s.users && r.0.loading && r.1.None?
  {
    match reply
    case Fetched(items) => (ListState(items, false), None)
    case Refused(message) => (ListState([], false), Some(Failure(OrElse(message, "Error al cargar los usuarios"))))
    case Thrown => (ListState(s.users, true), None)
  }

  /** What the list area shows. */
  datatype ListView = Loading | EmptyNote(text: string) | Table(heading: string, rows: seq<User>)

  /** The noun of the table's title. */
  function UsersNoun(n: nat): (noun: string)
    ensures noun == "Usuario" <==> n == 1
  {
    if n == 1 then "Usuario" else "Usuarios"
  }

  /** The list area: the loading note, an empty note that blames the filters
      when a query or a role filter is active, or the table of kept users. */
  function UsersView(s: ListState, query: string, filter: RoleFilter): (v: ListView)
    ensures s.loading <==> v.Loading?
    ensures v.Table? ==> v.rows == FilteredUsers(s.users, query, filter) && |v.rows| > 0
    ensures v.EmptyNote? ==> FilteredUsers(s.users, query, filter) == []
    ensures v.Table? ==> v.heading == UsersNoun(|v.rows|)
  {
    var shown := FilteredUsers(s.users, query, filter);
    if s.loading then Loading
    else if |shown| == 0 then
      EmptyNote(if query != "" || filter != Everyone
                then "No se encontraron usuarios con los filtros aplicados"
                else "No hay usuarios registrados")
    else Table(UsersNoun(|shown|), shown)
  }

  /** "No hay usuarios registrados" appears exactly when the loaded list is
      empty and no filter is set; with no filter set, an empty table means
      there are no users at all. */
  lemma EmptyNoteMeansNoUsers(s: ListState, query: string, filter: RoleFilter)
    requires !s.loading
    ensures UsersView(s, query, filter) == EmptyNote("No hay usuarios registrados")
      <==> query == "" && filter == Everyone && s.users == []
  {
    if query == "" && filter == Everyone {
      NoFilterKeepsEveryone(s.users);
    }
  }

  /** What a settled load leaves on screen. A refusal empties the list, so
      every counter reads 0 and the empty note shows ("No hay usuarios
      registrados" when no filter is set); a reply is counted in full and
      its kept users fill the table; a network failure leaves the loading
      note up. */
  lemma LoadUsersShows(s: ListState, reply: Fetch<seq<User>>, query: string, filter: RoleFilter)
    ensures var after := LoadUsers(s, reply).0;
      && (reply.Refused? ==>
            Stats(after.users, query, filter).total == 0 && Stats(after.users, query, filter).shown == 0
            && UsersView(after, query, filter).EmptyNote?)
      && (reply.Refused? && query == "" && filter == Everyone ==>
            UsersView(after, query, filter) == EmptyNote("No hay usuarios registrados"))
      && (reply.Fetched? ==>
            Stats(after.users, query, filter).total == |reply.items|
            && !UsersView(after, query, filter).Loading?
            && (FilteredUsers(reply.items, query, filter) != [] ==>
                  UsersView(after, query, filter) == Table(UsersNoun(|FilteredUsers(reply.items, query, filter)|),
                                                           FilteredUsers(reply.items, query, filter))))
      && (reply.Thrown? ==> UsersView(after, query, filter) == Loading)
  {
  }

  /** The text next to the switch. */
  function StatusText(u: User): (t: string)
    ensures t == "Activo" <==> u.active
  {
    if u.active then "Activo" else "Inactivo"
  }

  /** The classes of the role badge. */
  function RoleBadgeColor(r: Role): string {
    match r
    case ADMIN => "bg-purple-100 text-purple-800 border-purple-300"
    case SUPPORT => "bg-blue-100 text-blue-800 border-blue-300"
    case CLIENT => "bg-green-100 text-green-800 border-green-300"
  }

  /** Every role's badge has its own colour. */
  lemma RoleBadgeColorsDistinct()
    ensures forall a: Role, b: Role :: RoleBadgeColor(a) == RoleBadgeColor(b) ==> a == b
  {
  }

  /** The body of `updateUserApi`/`createUserApi`: every field is optional,
      and an absent one is not sent. */
  datatype Patch = Patch(
    name: Option<string>,
    email: Option<string>,
    password: Option<string>,
    role: Option<string>,
    active: Option<bool>)

  /** The outcome of a handler: the request it sent (the user id and body),
      its notification and whether it reloads the list. */
  datatype Effect = Effect(sent: Option<(string, Patch)>, toast: Option<Toast>, reload: bool)

  /** The switch's `handleToggleStatus(user.id, user.active)`: sends only the
      flipped flag, announces the new state and reloads only on success. */
  function ToggleStatus(u: User, reply: Ack): (e: Effect)
    ensures e.sent == Some((u.id, Patch(None, None, None, None, Some(!u.active))))
    ensures e.reload <==> reply.Ok?
    ensures reply.Ok? ==> e.toast == Some(Success(
      if u.active then "Usuario desactivado correctamente" else "Usuario activado correctamente"))
    ensures reply.Failed? ==> e.toast == Some(Failure(OrElse(reply.message, "Error al cambiar el estado del usuario")))
  {
    var flipped := !u.active;
    var patch := Patch(None, None, None, None, Some(flipped));
    match reply
    case Ok => Effect(Some((u.id, patch)), Some(Success(if flipped then "Usuario activado correctamente" else "Usuario desactivado correctamente")), true)
    case Failed(m) => Effect(Some((u.id, patch)), Some(Failure(OrElse(m, "Error al cambiar el estado del usuario"))), false)
  }

  /** Once the reload shows the flipped flag, the switch sends the original
      value back: two successful toggles restore the user's state. */
  lemma ToggleTwiceRestores(u: User)
    ensures var first := ToggleStatus(u, Ok).sent.value.1.active.value;
      ToggleStatus(u.(active := first), Ok).sent.value.1.active == Some(u.active)
  {
  }

  /** The create form's values; `role` is the select's code. */
  datatype CreateValues = CreateValues(name: string, email: string, password: string, role: string)

  /** `createUserSchema`: a name, an email (zod's email check, a parameter
      here), a password of at least 6 characters and one of the three role codes. */
  predicate ValidCreate(v: CreateValues, isEmail: string -> bool) {
    |v.name| >= 1 && isEmail(v.email) && |v.password| >= 6 && ParseRole(v.role).Some?
  }

  /** The create form's `defaultValues`. */
  const DefaultCreate: CreateValues := CreateValues("", "", "", "CLIENT")

  /** The edit form's values; an absent password is `None`. */
  datatype EditValues = EditValues(name: string, password: Option<string>, role: string)

  /** `editUserSchema`: a name, a password that is absent, "" or at least 6
      characters, and one of the three role codes. */
  predicate ValidEdit(v: EditValues) {
    && |v.name| >= 1
    && (v.password.None? || v.password.value == "" || |v.password.value| >= 6)
    && ParseRole(v.role).Some?
  }

  /** The untouched create form cannot be submitted; the edit form accepts a
      blank password where the create form does not, and both reject a short one. */
  lemma PasswordRules(isEmail: string -> bool, name: string, email: string, role: Role, short: string)
    requires 1 <= |short| < 6
    ensures !ValidCreate(DefaultCreate, isEmail)
    ensures !ValidCreate(CreateValues(name, email, "", RoleCode(role)), isEmail)
    ensures name != "" ==> ValidEdit(EditValues(name, Some(""), RoleCode(role)))
    ensures !ValidEdit(EditValues(name, Some(short), RoleCode(role)))
    ensures !ValidCreate(CreateValues(name, email, short, RoleCode(role)), isEmail)
  {
    ParseCodeRoundTrip(role, PENDING, LOW);
  }

  /** The create dialog: its form, whether it is open, and `isCreating`. */
  datatype CreateState = CreateState(form: CreateValues, open: bool, creating: bool)

  /** `onSubmit` of the create form. While a create call is in flight the
      button is disabled, and invalid values never reach it: either way
      nothing happens. A success resets the form, closes the dialog and
      reloads; a failure keeps both. `isCreating` ends false. */
  function CreateUser(s: CreateState, v: CreateValues, isEmail: string -> bool, reply: Ack): (r: (CreateState, Effect))
    ensures s.creating || !ValidCreate(v, isEmail) ==> r.0 == s && r.1 == Effect(None, None, false)
    ensures !s.creating && ValidCreate(v, isEmail) ==>
      && !r.0.creating
      && r.1.sent == Some(("", Patch(Some(v.name), Some(v.email), Some(v.password), Some(v.role), None)))
      && (r.1.reload <==> reply.Ok?)
      && (reply.Ok? ==> r.0.form == DefaultCreate && !r.0.open && r.1.toast == Some(Success("Usuario creado correctamente")))
      && (reply.Failed? ==>
            r.0.form == s.form && r.0.open == s.open
            && r.1.toast == Some(Failure(OrElse(reply.message, "Error al crear el usuario"))))
  {
    if s.creating || !ValidCreate(v, isEmail) then (s, Effect(None, None, false))
    else
      var sent := Some(("", Patch(Some(v.name), Some(v.email), Some(v.password), Some(v.role), None)));
      match reply
      case Ok => (CreateState(DefaultCreate, false, false), Effect(sent, Some(Success("Usuario creado correctamente")), true))
      case Failed(m) => (CreateState(s.form, s.open, false), Effect(sent, Some(Failure(OrElse(m, "Error al crear el usuario"))), false))
  }

  /** Only valid values are ever posted, and never while a create call is
      pending; after a successful create the form is back to its defaults,
      which the schema rejects, so pressing "Crear Usuario" again sends
      nothing. */
  lemma CreateSendsOnlyValid(s: CreateState, v: CreateValues, isEmail: string -> bool, reply: Ack, again: Ack)
    ensures CreateUser(s, v, isEmail, reply).1.sent.Some? ==> !s.creating && ValidCreate(v, isEmail)
    ensures var (after, effect) := CreateUser(s, v, isEmail, reply);
      effect.sent.Some? && reply.Ok? ==> CreateUser(after, after.form, isEmail, again).1.sent.None?
  {
    PasswordRules(isEmail, "", "", CLIENT, "x");
  }

  /** The edit dialog: its form, the values a bare `reset()` restores, whether
      it is open, the selected user and `isUpdating`. The form library's
      `reset(values)` replaces those defaults as well as the fields. */
  datatype EditState = EditState(form: EditValues, defaults: EditValues, open: bool, selected: Option<User>, updating: bool)

  /** `handleEditClick`: selects the user, resets the form to their name, a
      blank password and their role (which become the form's defaults too),
      and opens the dialog. */
  function EditClick(s: EditState, u: User): (r: EditState)
    ensures r.selected == Some(u) && r.open && r.updating == s.updating
    ensures r.form.name == u.name && ParseRole(r.form.role) == Some(u.role)
    ensures r.form.password == Some("")
    ensures r.defaults == r.form
  {
    ParseCodeRoundTrip(u.role, PENDING, LOW);
    var values := EditValues(u.name, Some(""), RoleCode(u.role));
    EditState(values, values, true, Some(u), s.updating)
  }

  /** The body `onEditSubmit` sends: always the name and the role, the
      password only when one was typed, never the email or the flag. */
  function EditPayload(v: EditValues): (p: Patch)
    ensures p.name == Some(v.name) && p.role == Some(v.role)
    ensures p.email.None? && p.active.None?
    ensures p.password.Some? <==> v.password.Some? && |v.password.value| > 0
    ensures p.password.Some? ==> p.password == v.password
  {
    var password := if v.password.Some? && |v.password.value| > 0 then v.password else None;
    Patch(Some(v.name), None, password, Some(v.role), None)
  }

  /** The edit form's defaults before any user has been clicked. */
  const BlankEdit: EditValues := EditValues("", Some(""), "CLIENT")

  /** The edit dialog when the page mounts: closed, nothing selected. */
  const InitialEdit: EditState := EditState(BlankEdit, BlankEdit, false, None, false)

  /** `onEditSubmit`. While an update is in flight the button is disabled;
      invalid values never reach it; and with no user selected it returns at
      once. Otherwise it sends the payload for the selected id; a success
      resets the form, closes the dialog, clears the selection and reloads, a
      failure keeps them. The success path's bare `reset()` puts back the
      form's current defaults, which are the values of the last edit click,
      not the blank ones. `isUpdating` ends false. */
  function EditUser(s: EditState, v: EditValues, reply: Ack): (r: (EditState, Effect))
    ensures s.updating || !ValidEdit(v) || s.selected.None? ==> r.0 == s && r.1 == Effect(None, None, false)
    ensures !s.updating && ValidEdit(v) && s.selected.Some? ==>
      && !r.0.updating
      && r.1.sent == Some((s.selected.value.id, EditPayload(v)))
      && (r.1.reload <==> reply.Ok?)
      && (reply.Ok? ==>
            r.0.selected.None? && !r.0.open && r.0.form == s.defaults && r.0.defaults == s.defaults
            && r.1.toast == Some(Success("Usuario actualizado correctamente")))
      && (reply.Failed? ==>
            r.0.selected == s.selected && r.0.open == s.open && r.0.form == s.form && r.0.defaults == s.defaults
            && r.1.toast == Some(Failure(OrElse(reply.message, "Error al actualizar el usuario"))))
  {
    if s.updating || !ValidEdit(v) || s.selected.None? then (s, Effect(None, None, false))
    else
      var sent := Some((s.selected.value.id, EditPayload(v)));
      match reply
      case Ok => (EditState(s.defaults, s.defaults, false, None, false), Effect(sent, Some(Success("Usuario actualizado correctamente")), true))
      case Failed(m) => (EditState(s.form, s.defaults, s.open, s.selected, false), Effect(sent, Some(Failure(OrElse(m, "Error al actualizar el usuario"))), false))
  }

  /** Opening the edit dialog and saving it untouched sends the user's own
      name and role and no password: nothing about the user changes. While
      an earlier update is still pending the press sends nothing. */
  lemma UntouchedEditKeepsUser(s: EditState, u: User, reply: Ack)
    requires u.name != ""
    ensures var e := EditClick(s, u);
      && ValidEdit(e.form)
      && (!s.updating ==>
            EditUser(e, e.form, reply).1.sent == Some((u.id, Patch(Some(u.name), None, None, Some(RoleCode(u.role)), None))))
      && (s.updating ==> EditUser(e, e.form, reply).1.sent.None?)
  {
  }

  /** After a user is clicked and saved successfully, the closed dialog's form
      still holds that user's name and role: the bare `reset()` restores the
      values of the click, not the blank form of the first render. */
  lemma SavedEditKeepsClickedValues(s: EditState, u: User, v: EditValues)
    requires !s.updating && ValidEdit(v)
    ensures var after := EditUser(EditClick(s, u), v, Ok).0;
      && !after.open && after.selected.None?
      && after.form.name == u.name && ParseRole(after.form.role) == Some(u.role)
      && after.form.password == Some("")
  {
  }

  /** The delete entry as written: the menu passes `user.id` to a handler
      whose parameter is the user's name, and the handler only shows a toast. */
  function DeleteToastAsWritten(u: User): (t: Toast)
    ensures t.Success? && |t.text| == |u.id| + 18 && t.text[8..8 + |u.id|] == u.id
  {
    Success("Usuario " + u.id + " eliminado")
  }

  /** The delete toast as evidently intended: it names the user. */
  function DeleteToast(u: User): (t: Toast)
    ensures t.Success? && |t.text| == |u.name| + 18 && t.text[8..8 + |u.name|] == u.name
  {
    Success("Usuario " + u.name + " eliminado")
  }

  /** The user "Ana" with id "42" is announced as "Usuario 42 eliminado",
      not by the user's name. */
  lemma DeleteToastShowsId()
    ensures var u := User("42", "Ana", "ana@example.com", CLIENT, true, None);
      && DeleteToastAsWritten(u).text == "Usuario 42 eliminado"
      && DeleteToast(u).text == "Usuario Ana eliminado"
      && DeleteToastAsWritten(u) != DeleteToast(u)
  {
    assert "Usuario " + "42" + " eliminado" == "Usuario 42 eliminado";
    assert "Usuario " + "Ana" + " eliminado" == "Usuario Ana eliminado";
  }

  /** Deleting sends no request and keeps the list: the toast is its only effect. */
  function DeleteUser(s: ListState, u: User): (r: (ListState, Effect))
    ensures r.0 == s && r.1.sent.None? && !r.1.reload
    ensures r.1.toast == Some(DeleteToast(u))
  {
    (s, Effect(None, Some(DeleteToast(u)), false))
  }
}
